=== FILE: README.md ===
# coachingAppFrontend core, modelled in Dafny

The front end of a coaching app. Members log workouts, browse an exercise library,
follow programs and compete on leaderboards. Staff (coaches and admins) manage
exercises and members. This project models the logic behind those screens as pure
Dafny functions over immutable data, and proves properties about them:

- **HTTP client** (`client.dfy`):
  - the base URL and query string;
  - the bearer header;
  - the per-path ETag cache with its 304 replay;
  - the single retry after a 401;
  - a rejected token read or fetch, which rejects the request;
  - the error raised for a failed reply.
- **Session manager** (`auth.dfy`):
  - restoring a session from the refresh cookie;
  - login, register and logout;
  - the single-flight refresh;
  - the token getter, which renews when the token is about to expire;
  - the proactive refresh timer.
- **Route guards** (`guards.dfy`) and the role table (`roles.dfy`).
- **Error messages** (`errors.dfy`).
- **Workout logging**:
  - the workout store (`workout_store.dfy`);
  - the workout page (`workout_page.dfy`), covering the set editor, the clock read-out and the volume total.
- **Exercise library**:
  - the exercise types and their normalisation (`exercise_types.dfy`, `body_part.dfy`);
  - the admin exercise form (`exercise_form.dfy`);
  - the query-string handling of the exercises API (`exercises_api.dfy`);
  - the library page (`exercises_page.dfy`);
  - the detail view (`exercise_detail.dfy`);
  - the filter panel (`filter_panel.dfy`);
  - the chips and multi-select widgets (`chips_select.dfy`, `multi_select.dfy`);
  - the muscle map (`muscle_map.dfy`).
- **Other screens**:
  - the members admin page (`members_page.dfy`);
  - the programs catalogue (`programs_page.dfy`);
  - the leaderboards (`leaderboard.dfy`);
  - the home page slides (`home_page.dfy`);
  - the application shell with its tabs and login-event throttle (`shell.dfy`).
- **Shared helpers**:
  - `Json`: JSON values with JavaScript truthiness, `||` and `??`;
  - `Text`: the `\s` class, `trim`, ASCII lower-casing, `join`, and decimal rendering and parsing;
  - `SearchParams`: `URLSearchParams` as an ordered list of pairs;
  - `Paging` and `Paginator`: page counts and footers;
  - `Lists`;
  - `Wrappers`: `Option` and `Result`.

I/O is passed in as arguments or left out:
- the clock is a `now` argument in milliseconds;
- a server reply is an input value;
- a browser timer is a pending entry in the state.

Behaviour of the code worth noting:
- A failed refresh clears the session: user, token and expiry.
- The retry after a 401 asks the token getter again. That getter hands back the same token while it is still fresh, so the retry does not force a renewal.
- Logout does not clear the client's ETag cache, and it does not cancel a refresh already in flight.
- There is no mode in which the refresh secret travels in the request body. The refresh always relies on the cookie.
- Restoring a session is a raw `fetch` to the refresh endpoint. It does not go through the client, so there is no ETag and no 401 retry.

## Model

| member | source | states |
|---|---|---|
| Errors.Humanize | src/lib/errors.ts:1-7 | statuses 401, 403, 409 and 422 give their own message, each exactly for that status; everything else, a missing status included, gives the generic one |
| Errors.OtherStatusesAreGeneric | src/lib/errors.ts:6 | any status outside the four named ones falls through to "Something went wrong. Try again." |
| Guards.RequireAuth | src/auth/guards.tsx:5-9 | the children are rendered exactly when authenticated, otherwise a redirect to /login |
| Guards.AdmitsMatchesTable | src/auth/guards.tsx:16-20 | the admission test lets a role through exactly when it is in the route's table: member→{member}, coach→{coach, superadmin}, admin→{admin, superadmin}, superadmin→{superadmin} |
| Guards.NoCrossAdmission | src/auth/guards.tsx:16-20 | a superadmin passes every route except a member route; a coach is refused on admin routes and an admin on coach routes |
| Guards.RequireRole | src/auth/guards.tsx:11-23 | nothing while loading; a redirect home without a profile; otherwise the children exactly when the role is admitted, else a redirect home |
| WorkoutStore.Initial | src/features/workout/useSessionStore.ts:22-24 | the store starts idle with nothing elapsed and no start time, effort or notes |
| WorkoutStore.Apply | src/features/workout/useSessionStore.ts:25-32 | each action changes exactly the fields it sets (start stamps the start time, tick adds to the elapsed seconds, reset restores the initial store) and none sets `submitted` |
| WorkoutStore.NeverSubmitted | src/features/workout/useSessionStore.ts:22-33 | no sequence of store actions reaches the `submitted` status from any other status |
| WorkoutStore.ElapsedIsTickSum | src/features/workout/useSessionStore.ts:29 | without a reset, the elapsed seconds grow by exactly the sum of the ticks |
| Paginator.Window | src/features/exercises/components/Paginator.tsx:7-11 | the buttons run one by one from `max(1, page - 2)`; a page is shown exactly when it lies between that start and `pages` and at most four past the start; at most five buttons, and at least three (or all pages) when the current page is in range |
| Paginator.WindowAtLastPage | src/features/exercises/components/Paginator.tsx:8-10 | on the last of ten pages the window is 8, 9, 10, and on the first it is 1 to 5 |
| Paginator.WindowCentred | src/features/exercises/components/Paginator.tsx:8-10 | with two pages on each side of the current one, the window is exactly `page - 2` to `page + 2` |
| Paginator.WindowNearStart | src/features/exercises/components/Paginator.tsx:8-10 | on the first three pages the window starts at 1 and holds `min(pages, 5)` buttons |
| Paginator.WindowNearEnd | src/features/exercises/components/Paginator.tsx:8-10 | near the last page the window runs from `page - 2` up to the last page and is cut short there |
| Paginator.Goto | src/features/exercises/components/Paginator.tsx:12-16 | `goto` replaces `page` with the decimal text of the target and leaves every other parameter alone |
| Paginator.GotoReadsBack | src/features/exercises/components/Paginator.tsx:14 | the page written by `goto` parses back to the target page |
| Paginator.NavigationStaysInRange | src/features/exercises/components/Paginator.tsx:19-23 | from a page in range, an enabled Prev or Next button lands on a page still in range |
| Paging.CeilDiv | src/features/exercises/components/Paginator.tsx:6 | `Math.ceil(total / limit)` is the least `r` with `total <= r * limit` |
| Paging.PageCount | src/features/exercises/components/Paginator.tsx:6 | the page count is at least 1, is 1 for no items, and otherwise is the least number of pages holding every item |
| Client.CacheLookup | src/api/client.ts:19 | the cached entry is found exactly when the URL is in the cache |
| Client.Headers | src/api/client.ts:22-30 | JSON content type unless the caller overrides it; `authorization: Bearer <token>` exactly when the token is truthy and the caller did not set one; the caller's headers win; `If-None-Match` is added only for a GET with a cached ETag, and always then unless the caller set either spelling |
| Client.Call | src/api/client.ts:31-35 | each fetch goes to the request URL with the caller's verb and body, the built headers and credentials `include` |
| Client.MakeError | src/api/client.ts:1-9 | the error carries the status, the body's `error.message` when truthy (else "API Error"), and its `error.code` and `error.details` |
| Client.Unwrap | src/api/client.ts:53 | a body with a non-null `data` field yields that field; a body whose `data` is null, or that has none, yields itself |
| Client.Finish | src/api/client.ts:50-58 | an unparsable body fails; an empty body reads as `{}`; a non-2xx reply raises the error and leaves the cache; a 2xx reply yields the unwrapped body, and a GET carrying an ETag stores it under the URL |
| Client.Request | src/api/client.ts:16-59 | one or two fetches and as many token reads, the second only after a 401; a rejected token read or fetch rejects the request, with no further attempt and the cache unchanged; a 304 to a GET with a cached entry returns that entry and changes nothing; a non-2xx reply becomes an `ApiError` with its status; success returns the unwrapped body; the cache changes only for a 2xx GET carrying an ETag, at that URL |
| Client.RequestKeepsWellFormed | src/api/client.ts:55-56 | the cache never holds an entry without a truthy ETag |
| Client.RejectionPassesThrough | src/api/client.ts:37-38 | when the first token read or fetch rejects, the request rejects after at most one fetch and one token read, and the cache is unchanged |
| Client.NonGetLeavesCache | src/api/client.ts:18-56 | a request other than GET neither changes the cache nor adds `If-None-Match` |
| Client.EtagRoundTrip | src/api/client.ts:28-56 | a GET that stored data under an ETag, followed by a GET of the same path answered 304, returns the same data in one fetch that sent the stored ETag |
| Client.ConvenienceHeaders | src/api/client.ts:61-67 | `get`/`post`/`put`/`patch`/`del` send the JSON content type, a bearer token exactly when one is truthy, credentials `include`, and `If-None-Match` exactly for a GET whose URL is cached |
| Auth.Initial | src/auth/AuthProvider.tsx:17-38 | the provider starts with no user, no token, nothing in flight, no timer, and not ready |
| Auth.AtMostOneTimer | src/auth/AuthProvider.tsx:39-47 | while the bookkeeping holds, at most one refresh timeout is armed |
| Auth.RefreshDelay | src/auth/AuthProvider.tsx:44-45 | the proactive-refresh delay is ten seconds before expiry, but never below one second |
| Auth.CancelTimer | src/auth/AuthProvider.tsx:43 | cancelling leaves no timeout armed and the ref empty, and changes nothing else |
| Auth.Schedule | src/auth/AuthProvider.tsx:41-47 | a falsy lifetime changes nothing; otherwise the earlier timeout is gone and exactly one new one is armed with the refresh delay; the session fields are untouched |
| Auth.ApplySession | src/auth/AuthProvider.tsx:49-54 | user and token come from the reply; expiry is now plus the lifetime, or ten minutes without one; a timer is armed exactly for a truthy lifetime |
| Auth.ClearSession | src/auth/AuthProvider.tsx:82-84 | user, token and expiry are cleared, so the provider is signed out; timer, slot and readiness are untouched |
| Auth.Restore | src/auth/AuthProvider.tsx:24-37 | the startup refresh installs the session only for a usable 2xx reply, otherwise changes nothing; `ready` is true afterwards either way, and the single-flight slot is not used |
| Auth.Login | src/auth/AuthProvider.tsx:56-66 | resolves exactly for a 2xx reply whose body parses, installing that session; a network failure, "Invalid credentials" for non-2xx and a parse failure each reject and leave the state as it was |
| Auth.Register | src/auth/AuthProvider.tsx:68-78 | the body is parsed first; resolves with it exactly for a 2xx reply; a non-2xx rejects with the server's `error.message` or "Registration failed" |
| Auth.Logout | src/auth/AuthProvider.tsx:80-86 | user, token and expiry are cleared and the timer cancelled, whatever the POST did; a refresh in flight stays in flight |
| Auth.RefreshCall | src/auth/AuthProvider.tsx:88-103 | a new fetch starts exactly when nothing is in flight; otherwise the caller joins the promise in flight; nothing but the slot changes |
| Auth.RefreshSettle | src/auth/AuthProvider.tsx:90-102 | a usable 2xx reply installs the session and every waiter gets its access token; any failure clears the session and every waiter gets nothing; the slot is emptied either way |
| Auth.GetToken | src/auth/AuthProvider.tsx:106-109 | the held token is answered, with nothing changed, exactly while more than thirty seconds remain before expiry; otherwise the call goes through `refresh()` |
| Auth.RetryReusesFreshToken | src/auth/AuthProvider.tsx:106-109 | a second `getToken` (the client's 401 retry) gets the same token back while it is still fresh: no renewal is forced |
| Auth.LogoutThenRefreshRestores | src/auth/AuthProvider.tsx:80-103 | logout does not cancel a refresh in flight: if that refresh then succeeds, the user is signed in again |
| Auth.Step | src/auth/AuthProvider.tsx:24-109 | every event keeps the timer bookkeeping valid and never turns `ready` off |
| Auth.SingleFlight | src/auth/AuthProvider.tsx:88-103 | along any run, refresh fetches started through the slot minus those settled equals the change in the slot's occupancy |
| Auth.AtMostOneOutstanding | src/auth/AuthProvider.tsx:89 | from an empty slot, at most one refresh fetch is ever outstanding |
| Auth.ReadyStays | src/auth/AuthProvider.tsx:34 | once ready, the provider stays ready along any run |
| BodyPart.Squash | src/features/exercises/types.ts:7 | never longer than its input |
| BodyPart.SquashClean | src/features/exercises/types.ts:7 | squashed text holds no whitespace, no underscore and no upper-case ASCII letter |
| BodyPart.SquashAppend | src/features/exercises/types.ts:7 | squashing a concatenation squashes each part |
| BodyPart.SquashPlain | src/features/exercises/types.ts:7 | text without whitespace or underscores is only lower-cased |
| BodyPart.SquashFullBody | src/features/exercises/types.ts:3-8 | "Full Body" squashes to "fullbody", which maps back to "Full Body" |
| BodyPart.SquashUpper | src/features/exercises/types.ts:3-9 | "Upper" squashes to "upper", which maps back to "Upper" |
| BodyPart.SquashLower | src/features/exercises/types.ts:3-10 | "Lower" squashes to "lower", which maps back to "Lower" |
| BodyPart.SquashCore | src/features/exercises/types.ts:3-11 | "Core" squashes to "core", which maps back to "Core" |
| BodyPart.SquashKeepsHyphen | src/features/exercises/types.ts:7 | a hyphen survives squashing |
| BodyPart.CanonicalRoundTrip | src/features/exercises/types.ts:3-14 | every enum value squashes to a known spelling that maps back to itself |
| BodyPart.KeysUnhyphenated | src/features/exercises/types.ts:8-11 | none of the four known spellings holds a hyphen |
| BodyPart.HyphenatedUnknown | src/features/exercises/types.ts:3-11 | "full-body" squashes to no known spelling and is not an enum value |
| ExerciseTypes.Normalize | src/features/exercises/types.ts:5-14 | a string with a known squashed spelling becomes its canonical value; every other value, string or not, passes unchanged; so the result is the input or an enum value |
| ExerciseTypes.NormalizeFixesCanonical | src/features/exercises/types.ts:3-14 | each enum value normalises to itself |
| ExerciseTypes.NormalizeIdempotent | src/features/exercises/types.ts:5-14 | normalising twice is normalising once |
| ExerciseTypes.ParseBodyPartFocus | src/features/exercises/types.ts:3-14 | the parse succeeds exactly when the normalised value is one of the four enum values, and yields the normalised value |
| ExerciseTypes.ParseIsSquashLookup | src/features/exercises/types.ts:5-14 | for a string the parse is the canonical label of its squashed spelling (spaces and underscores removed, lower-cased); any other value fails |
| ExerciseTypes.HyphenatedFails | src/features/exercises/types.ts:5-14 | "full-body" passes the preprocess unchanged and then fails the enum |
| ExerciseTypes.MuscleDefaults | src/features/exercises/types.ts:23-26 | each absent muscle list becomes empty; a present one is kept as given |
| ExerciseTypes.LeanListMeta | src/features/exercises/types.ts:62-67 | absent page, limit and total default to 1, 24 and 0; present ones are kept |
| ExerciseTypes.NamePairs | src/features/exercises/admin/AdminFormExercise.tsx:112-113 | one `(name, code)` pair per region, in region order |
| ExerciseTypes.CodePairs | src/features/exercises/ExerciseDetailPage.tsx:92-93 | one `(code, name)` pair per region, in region order |
| MultiSelect.ChosenLabels | src/components/ui/MultiSelect.tsx:18-23 | a label is listed exactly when some option carrying it has a chosen value |
| MultiSelect.LabelsAreCaptionsOfChosen | src/components/ui/MultiSelect.tsx:18-23 | the labels are the captions of the options whose value is chosen, in option order and once per such option |
| MultiSelect.Display | src/components/ui/MultiSelect.tsx:20-24 | no choice shows the placeholder ("Select" by default); one or two show the chosen labels joined by ", "; more show a count that reads back as the number chosen, followed by " selected" |
| MultiSelect.LabelsIgnoreSelectionOrder | src/components/ui/MultiSelect.tsx:18-23 | the labels depend only on which values are chosen, not on their order or repetition |
| MultiSelect.UnknownValueAddsNothing | src/components/ui/MultiSelect.tsx:23 | a chosen value that no option carries adds no label |
| ChipsSelect.Values | src/components/ChipsSelect.tsx:24 | the chips are the chosen values with empty strings dropped: one chip or none in single mode; in multi mode the non-empty entries in their order, each as often as it was chosen |
| ChipsSelect.CanCreate | src/components/ChipsSelect.tsx:26-27 | creation is offered exactly when it is enabled, the query is not blank, and no option equals the trimmed query ignoring ASCII case |
| ChipsSelect.Remove | src/components/ChipsSelect.tsx:29-32 | multi mode drops every occurrence of the value and keeps the other chips in their order, each as often as before; single mode clears the choice |
| ChipsSelect.Toggle | src/components/ChipsSelect.tsx:34-43 | multi mode flips the value's membership, keeps the others once each in first-seen order, and puts a newly added value last; single mode selects the value |
| ChipsSelect.ToggleTwice | src/components/ChipsSelect.tsx:34-38 | in multi mode two toggles of one value give back the chosen set |
| ChipsSelect.SingleToggleNeverClears | src/components/ChipsSelect.tsx:39-41 | in single mode toggling a non-empty value leaves exactly that value chosen |
| ChipsSelect.HandleCreate | src/components/ChipsSelect.tsx:45-50 | a blank query or a failed request changes nothing; a successful one appends the trimmed query (multi) or selects it (single) and clears the query |
| ChipsSelect.CreatedIsChosen | src/components/ChipsSelect.tsx:45-48 | after a successful creation the new entry is among the chosen values |
| FilterPanel.SetSingle | src/features/exercises/components/FilterPanel.tsx:37-42 | a non-empty value becomes the key's only entry, an absent or empty one removes the key; page becomes "1"; every other key keeps its values |
| FilterPanel.ToggleMulti | src/features/exercises/components/FilterPanel.tsx:43-51 | the key's values lose their duplicates and keep first-seen order; the toggled value flips membership, coming last when added, while the others stay; page becomes "1"; other keys keep their values |
| FilterPanel.ToggleMultiTwice | src/features/exercises/components/FilterPanel.tsx:43-51 | two toggles of one value give back the key's set of values |
| FilterPanel.Reset | src/features/exercises/components/FilterPanel.tsx:32-35 | no key has a value afterwards, page, limit and search included |
| FilterPanel.SingleChipValue | src/features/exercises/components/FilterPanel.tsx:67-94 | clicking the active chip passes no value; any other chip passes itself |
| FilterPanel.SingleChipClickTwice | src/features/exercises/components/FilterPanel.tsx:37-42 | a first click on an inactive chip selects it and a second click clears the filter |
| FilterPanel.ClickMuscle | src/features/exercises/components/FilterPanel.tsx:103 | a muscle click flips the muscle in the primary list and leaves the secondary list alone |
| FilterPanel.ToggleMultiKeepsKey | src/features/exercises/components/FilterPanel.tsx:43-51 | toggling one key leaves every other non-page key's values unchanged |
| FilterPanel.SecondaryMuscleStaysActive | src/features/exercises/components/FilterPanel.tsx:103 | a chip active through the secondary list stays active after a click, since the click only edits the primary list |
| FilterPanel.MuscleChips | src/features/exercises/components/FilterPanel.tsx:102 | at most thirty chips, the leading muscles in order |
| MuscleMap.Entries | src/features/exercises/components/MuscleMap.tsx:16-25 | every entry carries a non-empty SVG id |
| MuscleMap.EntriesSound | src/features/exercises/components/MuscleMap.tsx:16-25 | each entry comes from a region with that name or code and an id on that side |
| MuscleMap.EntriesComplete | src/features/exercises/components/MuscleMap.tsx:16-25 | each region with an id on that side has an entry under its name or code |
| MuscleMap.RegionMapKeys | src/features/exercises/components/MuscleMap.tsx:11-25 | a name (or code) is a key of a side's map exactly when some region with it has an id on that side |
| MuscleMap.RegionMapIdsTruthy | src/features/exercises/components/MuscleMap.tsx:17-23 | every id a side's map yields is non-empty |
| MuscleMap.LastValueFromPairs | src/features/exercises/components/MuscleMap.tsx:18-28 | a map built by successive `set` calls yields a value some call stored under that key |
| MuscleMap.AnyMap | src/features/exercises/components/MuscleMap.tsx:27-28 | the merged map has the keys of both maps; a code's id wins over a name's |
| MuscleMap.Variants | src/features/exercises/components/MuscleMap.tsx:84-89 | the key itself is tried first, then at least two more spellings |
| MuscleMap.FirstFound | src/features/exercises/components/MuscleMap.tsx:90-93 | the result is the first spelling that names an element; none exactly when no spelling does |
| MuscleMap.Targets | src/features/exercises/components/MuscleMap.tsx:66-93 | a mapped key highlights at most its id, and exactly that id when the document has it; otherwise an aggregate name highlights its parts the document has; otherwise the first spelling found, if any, is the only id; only present ids are highlighted |
| MuscleMap.TargetsOf | src/features/exercises/components/MuscleMap.tsx:65-95 | an id is highlighted exactly when one of the selected keys targets it |
| MuscleMap.Rehighlight | src/features/exercises/components/MuscleMap.tsx:46-98 | primaries and secondaries are the targets of their lists through the front map, all ids of the document |
| MuscleMap.CodeHitIsExact | src/features/exercises/components/MuscleMap.tsx:68-72 | a code in the front code map highlights exactly its region's id when the document has it |
| MuscleMap.QuadricepsFallback | src/features/exercises/components/MuscleMap.tsx:53-81 | with no metadata, "quadriceps" highlights both quadriceps parts |
| ExerciseForm.ToggleCode | src/features/exercises/admin/AdminFormExercise.tsx:48-54 | the chosen list flips the code's membership, keeps its other codes once each in first-seen order, puts a new code last and holds no duplicates; the rest of the form is untouched |
| ExerciseForm.Backfill | src/features/exercises/admin/AdminFormExercise.tsx:116-121 | only an empty code list beside a non-empty name list is replaced, by one entry per name: the name's code when it has a non-empty one, else (no code, or an empty one) the name itself |
| ExerciseTypes.LookupOr | src/features/exercises/admin/AdminFormExercise.tsx:117 | the mapped value when the key is present with a non-empty value, else the key itself (absent key or empty value) |
| ExerciseForm.BackfillForm | src/features/exercises/admin/AdminFormExercise.tsx:110-124 | both code lists are backfilled from the metadata's name-to-code map and nothing else changes |
| ExerciseForm.BackfillUsesRegionCode | src/features/exercises/admin/AdminFormExercise.tsx:112-117 | a region's name backfills to that region's code when no later region reuses the name (a later `set` wins) |
| ExerciseForm.CleanSteps | src/features/exercises/admin/AdminFormExercise.tsx:132 | the kept steps are, in order, the trimmed steps that are not empty, each as often as it occurs among them, and no others |
| ExerciseForm.CleanStepsMembers | src/features/exercises/admin/AdminFormExercise.tsx:132 | a string is kept exactly when it is non-empty and the trim of some step |
| ExerciseForm.CleanStepTidy | src/features/exercises/admin/AdminFormExercise.tsx:132 | every kept step is non-empty with no whitespace at either end |
| ExerciseForm.CleanStepsEmpty | src/features/exercises/admin/AdminFormExercise.tsx:132 | no step is kept exactly when every step is whitespace only |
| ExerciseForm.InfixCollapsed | src/features/exercises/admin/AdminFormExercise.tsx:133 | a slice of a collapsed string is collapsed |
| ExerciseForm.CleanPhrase | src/features/exercises/admin/AdminFormExercise.tsx:133-134 | a cleaned phrase is never longer than its input |
| ExerciseForm.CleanPhraseIsTrimmedSqueeze | src/features/exercises/admin/AdminFormExercise.tsx:133-134 | a cleaned phrase is the trim of the phrase with every whitespace character made a space and each run of spaces cut to one |
| ExerciseForm.CleanPhraseEnds | src/features/exercises/admin/AdminFormExercise.tsx:133-134 | a cleaned phrase is empty or has no whitespace at its ends |
| ExerciseForm.CleanPhraseCollapsed | src/features/exercises/admin/AdminFormExercise.tsx:133-134 | a cleaned phrase has only plain spaces as whitespace, never two in a row |
| ExerciseForm.CleanPhraseEmpty | src/features/exercises/admin/AdminFormExercise.tsx:133-134 | a phrase cleans to nothing exactly when it is whitespace only |
| ExerciseForm.AllSpaceCollapse | src/features/exercises/admin/AdminFormExercise.tsx:133 | whitespace-only input collapses to whitespace only |
| ExerciseForm.NonSpaceSurvives | src/features/exercises/admin/AdminFormExercise.tsx:133 | input with a non-whitespace character keeps one after collapsing |
| ExerciseForm.CleanPhrases | src/features/exercises/admin/AdminFormExercise.tsx:133-134 | the kept cues or faults are, in order, the cleaned phrases that are not empty, each as often as it occurs among them, and no others |
| ExerciseForm.CleanPhrasesMembers | src/features/exercises/admin/AdminFormExercise.tsx:133-134 | a string is kept exactly when it is non-empty and the cleaned form of some phrase |
| ExerciseForm.CleanPhraseKept | src/features/exercises/admin/AdminFormExercise.tsx:133-134 | every kept cue or fault is non-empty, has no whitespace at its ends and no whitespace run |
| ExerciseForm.Clean | src/features/exercises/admin/AdminFormExercise.tsx:128-135 | name and category are trimmed and the three lists cleaned; all other fields are kept |
| ExerciseForm.Sanitize | src/features/exercises/admin/AdminFormExercise.tsx:136-145 | at most three primaries, all known and drawn from the primary list in order; the secondaries are exactly the known secondary codes not kept as primaries, in order and with their repeats; nothing survives without metadata |
| ExerciseForm.KeptPrimaries | src/features/exercises/admin/AdminFormExercise.tsx:139-141 | at most three codes, each known and taken from the primary list in its order; none without metadata |
| ExerciseForm.KeptSecondaries | src/features/exercises/admin/AdminFormExercise.tsx:140-142 | a code is kept exactly when it is known, listed as secondary and not kept as primary, as often as it is listed, in list order |
| ExerciseForm.SanitizeKeepsFirstThree | src/features/exercises/admin/AdminFormExercise.tsx:139-141 | the primaries kept are the first three known ones, or all of them when fewer |
| ExerciseForm.SchemaErrors | src/features/exercises/admin/AdminFormExercise.tsx:11-30 | a field is reported exactly when its constraint fails: empty name, category or instruction list; modality, body-part focus or a given difficulty outside its enum; a given video, HLS or thumbnail address that is not a URL |
| ExerciseForm.Submit | src/features/exercises/admin/AdminFormExercise.tsx:126-170 | the cleaned and sanitised form is reported invalid exactly when a field fails; otherwise its payload, without the name lists, is sent as an update when the form has an id and as a create otherwise |
| ExerciseForm.KnownCodes | src/features/exercises/admin/AdminFormExercise.tsx:138 | the known codes are exactly the codes of the metadata regions |
| ExerciseForm.BlankInstructionsBlockSubmit | src/features/exercises/admin/AdminFormExercise.tsx:146-157 | all-whitespace instructions fail validation on the instructions field and nothing is sent |
| ExerciseForm.NoMetadataNoCodes | src/features/exercises/admin/AdminFormExercise.tsx:138-163 | without metadata the payload's two code lists are empty |
| ExerciseForm.MediaUrlsChecked | src/features/exercises/admin/AdminFormExercise.tsx:146-168 | a media address that is not a URL blocks the submission on its own field; a payload that is sent carries the three addresses and the demo start unchanged |
| ExerciseForm.AddStepAt | src/features/exercises/admin/AdminFormExercise.tsx:175 | one empty step is inserted at the clamped splice position; the steps before and after are kept |
| ExerciseForm.SpliceIndex | src/features/exercises/admin/AdminFormExercise.tsx:175 | a start within the list is used as is; any start lands within the list |
| ExerciseForm.RemoveStep | src/features/exercises/admin/AdminFormExercise.tsx:176 | an existing index is dropped and nothing else; any other index leaves the list alone |
| ExerciseForm.RemoveUndoesAdd | src/features/exercises/admin/AdminFormExercise.tsx:175-176 | removing the step just inserted after step i gives the list back |
| ExerciseForm.Backspace | src/features/exercises/admin/AdminFormExercise.tsx:280 | a non-empty step or a single-step list is left alone; an empty step among several is removed; a non-empty list never becomes empty |
| ExerciseForm.EditStep | src/features/exercises/admin/AdminFormExercise.tsx:277 | the edited step gets the new text and the others stay |
| ExerciseForm.SelectMuscles | src/features/exercises/admin/AdminFormExercise.tsx:221-250 | the list's codes become the selection; with metadata its names become the non-empty names of the selected codes, in selection order and with their repeats; without metadata they stay |
| ExerciseForm.SelectedNames | src/features/exercises/admin/AdminFormExercise.tsx:227-228 | the names of the selected codes with missing or empty ones dropped: in selection order, each as often as it is looked up, and no others |
| ExercisesApi.WithFields | src/features/exercises/api.ts:11-12 | an absent or empty `fields` param becomes the lean field list, a non-empty one is kept, and every other param keeps its values |
| ExercisesApi.MetaValue | src/features/exercises/api.ts:28-29 | the response's value wins, then the query's value read as a number, then the default |
| ExercisesApi.FallbackMeta | src/features/exercises/api.ts:28-31 | page and limit come from the response, the query or 1 and 24; total comes from the response or is the item count |
| ExercisesApi.BareResponseDefaults | src/features/exercises/api.ts:24-31 | a bare item list for a query without page or limit reads as page 1 of 24 holding its items |
| ExercisesApi.ParamOr | src/features/exercises/api.ts:38-39 | a non-empty param is read as a number; an absent or empty one gives the default |
| ExercisesApi.PrefetchNext | src/features/exercises/api.ts:37-44 | the next page is prefetched exactly when the loaded item count (0 when none) equals the limit; its query sets page to the current page plus one and keeps every other param |
| ExercisesApi.FullPagePrefetchesNext | src/features/exercises/api.ts:37-42 | with decimal page p and limit l, a page of l items prefetches page p + 1 |
| ExercisesApi.PartialPageNoPrefetch | src/features/exercises/api.ts:40 | a page whose item count differs from the limit prefetches nothing |
| ExercisesApi.FacetOptions | src/features/exercises/api.ts:109-121 | a non-empty list, the modalities facet or an unreachable filter list gives the returned list; otherwise at most twenty count-0 options, each a filter value matching the search case-insensitively, and every match when there are at most twenty |
| ExercisesApi.UpdateCall | src/features/exercises/api.ts:146-156 | PATCH with `?async=1` exactly when the patch has one of the four muscle fields as its own key, PUT to the plain path otherwise |
| ExercisesApi.Part | src/features/exercises/api.ts:184-186 | a list contributes its heading and joined names, or nothing when it joins to the empty string |
| ExercisesApi.UpdateErrorMessage | src/features/exercises/api.ts:179-191 | a 422 with invalid muscles lists the non-empty parts after "Invalid muscles: " joined by a bullet; anything else shows the error's message or "Failed to update exercise" |
| ExercisesApi.BothListsNamed | src/features/exercises/api.ts:183-187 | with both lists non-empty the toast names primary then secondary, separated by " • " |
| ExercisesApi.EmptyPrimaryOmitted | src/features/exercises/api.ts:184-187 | an empty primary list leaves no part and no dangling bullet |
| ExercisesPage.EnsurePage | src/features/exercises/ExercisesPage.tsx:33-35 | a missing or empty page param becomes "1"; a present one leaves the params as they are; other keys keep their values |
| ExercisesPage.PageAndLimit | src/features/exercises/ExercisesPage.tsx:30-31 | an absent or empty page reads as 1 and an absent or empty limit as 24; any other text is read by `Number` |
| ExercisesPage.InitialKeepsPage | src/features/exercises/ExercisesPage.tsx:20-35 | the page's starting params already carry a page, so the mount step keeps them |
| ExercisesPage.ActiveFilters | src/features/exercises/ExercisesPage.tsx:41-45 | the count never exceeds the number of params and is positive exactly when some key other than page, limit and search is present |
| ExercisesPage.ActiveFiltersAppend | src/features/exercises/ExercisesPage.tsx:41-45 | each added value of a filter key counts once and any other adds nothing |
| ExercisesPage.DeleteUncountedKeeps | src/features/exercises/ExercisesPage.tsx:42-43 | deleting page, limit or search leaves the count alone |
| ExercisesPage.SetUncountedKeeps | src/features/exercises/ExercisesPage.tsx:42-43 | setting page, limit or search leaves the count alone |
| ExercisesPage.IsAdmin | src/features/exercises/ExercisesPage.tsx:39 | admin exactly when signed in with role admin or superadmin |
| ExercisesPage.PrefetchIds | src/features/exercises/ExercisesPage.tsx:49-63 | at most eight ids, all truthy; every truthy id among the first eight items is included, and every id listed is the id of one of them |
| ExercisesPage.TruthyIds | src/features/exercises/ExercisesPage.tsx:53-54 | the truthy ids of the items, no more entries than items, each the id of some item |
| ExercisesPage.LaterItemsIgnored | src/features/exercises/ExercisesPage.tsx:52-53 | items after the eighth never change what is prefetched |
| ExercisesPage.DetailPath | src/features/exercises/ExercisesPage.tsx:58 | every prefetch goes to an `/api/exercises/` path |
| ExerciseDetail.OrList | src/features/exercises/ExerciseDetailPage.tsx:44 | a present array wins even when empty; otherwise the second operand |
| ExerciseDetail.StimulusInput | src/features/exercises/ExerciseDetailPage.tsx:44 | the codes when present, else the names, else the empty list |
| ExerciseDetail.ParsedUsesCodes | src/features/exercises/types.ts:23-26 | a parsed exercise's code lists default to `[]`, which is truthy, so the Stimulus tab (line 44 of the detail page) gets the code lists, never the name lists |
| ExerciseDetail.NamesNeverShownWhenParsed | src/features/exercises/types.ts:23-26 | with the codes absent and the names present, the parsed exercise still hands the Stimulus tab empty code lists |
| ExerciseDetail.NormalizeNames | src/features/exercises/ExerciseDetailPage.tsx:92-94 | one entry per value: the region name of a code with a non-empty name, else (unknown code, or a code whose name is empty) the value unchanged |
| ExerciseDetail.KnownCodeShowsName | src/features/exercises/ExerciseDetailPage.tsx:92-94 | a value that is a region's code, not reused by a later region, shows that region's non-empty name |
| ExerciseDetail.UnknownValueUnchanged | src/features/exercises/ExerciseDetailPage.tsx:94 | a value that is no region's code shows unchanged |
| ExerciseDetail.NoMetaIdentity | src/features/exercises/ExerciseDetailPage.tsx:90-94 | without metadata every value shows as given |
| ExerciseDetail.MuscleLine | src/features/exercises/ExerciseDetailPage.tsx:101-102 | the joined names, or the dash when they join to the empty string; an empty list shows the dash |
| ExerciseDetail.DashOnlyForEmpty | src/features/exercises/ExerciseDetailPage.tsx:101-102 | for names without a dash, the dash shows exactly for no names or one empty name |
| ExerciseDetail.StimulusView | src/features/exercises/ExerciseDetailPage.tsx:89-102 | one display name per value on each side, the values themselves without metadata, the dash for an empty side |
| ExerciseDetail.ShowsSection | src/features/exercises/ExerciseDetailPage.tsx:62-74 | a section renders exactly for a present, non-empty list |
| ExerciseDetail.InstructionSections | src/features/exercises/ExerciseDetailPage.tsx:52-85 | the cue and fault sections show exactly when their lists are present and non-empty |
| MembersPage.OrNumber | src/features/admin/MembersPage.tsx:21 | a present non-zero number wins; an absent or zero one falls back |
| MembersPage.TotalPages | src/features/admin/MembersPage.tsx:16-21 | at least one page; with a positive page size, the fewest pages of that size holding the total; no total gives one page |
| MembersPage.ShownPage | src/features/admin/MembersPage.tsx:241 | the reply's non-zero page; a missing page or a page of 0 falls back to the local page |
| MembersPage.Footer | src/features/admin/MembersPage.tsx:243-244 | Prev is disabled exactly at or below page 1, Next exactly at or beyond the page count |
| MembersPage.Prev | src/features/admin/MembersPage.tsx:243 | one page back, never below 1 |
| MembersPage.Next | src/features/admin/MembersPage.tsx:244 | one page on, never beyond the page count |
| MembersPage.ButtonsKeepPageInRange | src/features/admin/MembersPage.tsx:243-244 | from a page within range, Prev and Next stay within range |
| MembersPage.EditSearch | src/features/admin/MembersPage.tsx:46 | typing sets the box's text and resets the page to 1 |
| MembersPage.ClearSearch | src/features/admin/MembersPage.tsx:56 | clearing empties the box and resets the page to 1 |
| MembersPage.Invite | src/features/admin/MembersPage.tsx:78-86 | an empty email is refused with "Email is required"; otherwise the request carries the email and role, with name and password only when non-empty |
| MembersPage.InviteSettled | src/features/admin/MembersPage.tsx:82-85 | a successful invite clears email, password and name; a failed one changes nothing; the role is kept |
| MembersPage.RoleSelectFor | src/features/admin/MembersPage.tsx:117-126 | the select is disabled exactly for a superadmin, who alone gets a superadmin option after member and admin |
| MembersPage.DisplayName | src/features/admin/MembersPage.tsx:114 | the non-empty name, else the email |
| ProgramsPage.OnFilterChange | src/features/catalog/ProgramsPage.tsx:17-21 | a non-empty value becomes the key's only value and an empty one removes the key; every other key, page included, keeps its values |
| ProgramsPage.FilterKeepsPage | src/features/catalog/ProgramsPage.tsx:17-38 | a goal or level change leaves the page where it was |
| ProgramsPage.CurrentPage | src/features/catalog/ProgramsPage.tsx:84-86 | the reply's page, else 1 |
| ProgramsPage.FooterOf | src/features/catalog/ProgramsPage.tsx:84-86 | the count is at least 1; Prev is disabled exactly at page 1 or below; Next exactly when the pages up to the current one hold every item |
| ProgramsPage.EmptyCatalogue | src/features/catalog/ProgramsPage.tsx:84-86 | with no items the default page shows a count of 1 with both buttons disabled |
| ProgramsPage.Prev | src/features/catalog/ProgramsPage.tsx:84 | page becomes the decimal text of the current page minus one; other keys are kept |
| ProgramsPage.Next | src/features/catalog/ProgramsPage.tsx:86 | page becomes the decimal text of the current page plus one; other keys are kept |
| ProgramsPage.PrevReadsBack | src/features/catalog/ProgramsPage.tsx:84 | from an enabled Prev, the page written reads back as one below the current page |
| Paging.FooterOf | src/features/leaderboard/MembersLeaderboardPage.tsx:45-47 | the count is at least 1; Prev is disabled exactly at page 1 or below; Next exactly when the pages up to the current one hold every item |
| Paging.NextBound | src/features/leaderboard/MembersLeaderboardPage.tsx:47 | being at or past `ceil(total / limit)` is the same as the pages so far holding every item |
| Paging.NextMatchesCount | src/features/leaderboard/MembersLeaderboardPage.tsx:46-47 | with at least one item, Next is disabled exactly from the page count shown on |
| Paging.EmptyListNextDisabled | src/features/leaderboard/MembersLeaderboardPage.tsx:46-47 | with no items the count reads 1 and Next is disabled on every page from 0 up |
| Paging.RankInverse | src/features/leaderboard/MembersLeaderboardPage.tsx:34 | a rank determines its page and its row, so no two cells share a rank |
| Paging.RankContinuesAcrossPages | src/features/leaderboard/MembersLeaderboardPage.tsx:34 | the first rank of a page follows the last rank of a full previous page |
| Leaderboard.MembersUrl | src/features/leaderboard/MembersLeaderboardPage.tsx:11-14 | the members request carries the league and page and ends with `&limit=10` |
| Leaderboard.CoachesUrl | src/features/leaderboard/CoachesLeaderboardPage.tsx:10-13 | the coaches request carries the page and ends with `&limit=10` |
| Leaderboard.MiddleDetermined | src/features/leaderboard/MembersLeaderboardPage.tsx:13 | with a fixed prefix and suffix, the URL determines its middle |
| Leaderboard.MembersUrlsDistinct | src/features/leaderboard/MembersLeaderboardPage.tsx:11-14 | two different pages of one league never share a request URL |
| Leaderboard.Ranks | src/features/leaderboard/MembersLeaderboardPage.tsx:32-34 | one rank per row, the first `(page - 1) * limit + 1`, each one more than the previous (the coaches page ranks the same way) |
| Leaderboard.PagesContinue | src/features/leaderboard/MembersLeaderboardPage.tsx:34-47 | a full page's last rank is one below the next page's first |
| Leaderboard.ChangeLeague | src/features/leaderboard/MembersLeaderboardPage.tsx:20 | choosing a league sets it and resets the page to 1 |
| Leaderboard.Prev | src/features/leaderboard/MembersLeaderboardPage.tsx:45 | the page goes down by one, unclamped, and the league is kept |
| Leaderboard.Next | src/features/leaderboard/MembersLeaderboardPage.tsx:47 | the page goes up by one, unclamped, and the league is kept |
| Text.IntToStringInjective | src/features/leaderboard/MembersLeaderboardPage.tsx:13 | distinct integer pages render to distinct texts |
| HomePage.IsAdmin | src/features/home/HomePage.tsx:21 | admin exactly when ready, signed in and with role admin or superadmin |
| HomePage.SlidesPath | src/features/home/HomePage.tsx:32 | admins read `/api/home/slides`, everyone else `/api/home/slides/public` |
| HomePage.SlidesField | src/features/home/HomePage.tsx:34 | the reply's `slides` when not nullish, else the reply itself when not nullish, else an empty array |
| HomePage.SlidesOf | src/features/home/HomePage.tsx:34-37 | never empty: the server's list when it is a non-empty array, else the built-in slide alone |
| HomePage.FallbackCases | src/features/home/HomePage.tsx:34-37 | an empty `slides`, a bare empty array, null, no reply and an object without `slides` all give the built-in slide |
| HomePage.ServerSlidesShown | src/features/home/HomePage.tsx:34-36 | a non-empty `slides` array, wrapped or bare, is shown as is |
| HomePage.SaveSlide | src/features/home/HomePage.tsx:46-50 | the first slide is replaced (or added to an empty list), the others are kept, and the new list is what the PUT to `/api/home/slides` carries |
| HomePage.SaveSlideIdempotent | src/features/home/HomePage.tsx:46-48 | saving the same slide twice gives the list of saving it once |
| Shell.Tabs | src/app/Shell.tsx:48-58 | Home and Library first; Members exactly for a ready, signed-in admin or superadmin; Profile, last, exactly for a ready, signed-in user; the length is 2 plus one per added tab, so the list is fixed in every state |
| Shell.OnLoginEvent | src/app/Shell.tsx:29-38 | a redirect happens exactly when signed out, none is in flight and two seconds have passed since the last; it marks one in flight at that time; otherwise the refs are untouched |
| Shell.OnInFlightTimer | src/app/Shell.tsx:37 | the timer clears only the in-flight flag |
| Shell.RedirectsSpaced | src/app/Shell.tsx:25-38 | over any sequence of events and clock readings, accepted redirects are at least two seconds apart and the ref holds the last one |
| Shell.AuthControls | src/app/Shell.tsx:87-104 | Sign out exactly when ready and signed in; Sign in and Sign up exactly when ready and signed out; nothing before ready |
| WorkoutPage.Fmt | src/features/workout/WorkoutPage.tsx:9-13 | the label is the minutes in decimal, a colon (the first one), then exactly two characters that read back as the seconds within the minute |
| WorkoutPage.FirstColon | src/features/workout/WorkoutPage.tsx:9-13 | the position of the first colon, none exactly when there is no colon |
| WorkoutPage.ReadClock | src/features/workout/WorkoutPage.tsx:9-13 | a label reads back as a non-negative number of seconds or not at all |
| WorkoutPage.LeadingZero | src/features/workout/WorkoutPage.tsx:12 | padding with a zero keeps a digit string's value |
| WorkoutPage.SecondsReadBack | src/features/workout/WorkoutPage.tsx:11-12 | the padded seconds field reads back as `sec % 60` |
| WorkoutPage.ColonSplit | src/features/workout/WorkoutPage.tsx:12 | in `m:s` with no colon in m, the first colon is the one after m |
| WorkoutPage.ReadClockSplit | src/features/workout/WorkoutPage.tsx:12 | a label `m:s` with digit strings on both sides reads as m·60 + s |
| WorkoutPage.FmtReadsBack | src/features/workout/WorkoutPage.tsx:9-13 | every clock label reads back as exactly the seconds it was made from |
| WorkoutPage.Second | src/features/workout/WorkoutPage.tsx:24-28 | a second adds one to the elapsed time while in progress and changes nothing otherwise |
| WorkoutPage.Submit | src/features/workout/WorkoutPage.tsx:52-67 | under twenty minutes nothing is sent and "Minimum 20 minutes required." shows; otherwise an empty set list, the RPE, the notes and the whole minutes are sent; only an accepted log resets the store and shows "Session logged", a refusal keeps it |
| WorkoutPage.RefusalMessage | src/features/workout/WorkoutPage.tsx:61-66 | 409 and 422 have their own texts; every other failure shows "Could not submit session" |
| WorkoutPage.FreshRows | src/features/workout/WorkoutPage.tsx:199-200 | `sets` rows, or three when absent, none for a non-positive count, numbered from 1 with empty cells |
| WorkoutPage.InitFrom | src/features/workout/WorkoutPage.tsx:193-204 | existing keys keep their rows, every item's key gets rows, and no other key appears |
| WorkoutPage.FirstItemWins | src/features/workout/WorkoutPage.tsx:196-201 | a key absent before gets the fresh rows of the first item that has it |
| WorkoutPage.OnChange | src/features/workout/WorkoutPage.tsx:208-214 | only the edited row of the edited exercise changes: the set number stays and each field the patch carries replaces the old one |
| SearchParams.GetAll | src/features/exercises/components/FilterPanel.tsx:45 | the values for a key, in entry order, exactly those of its entries |
| SearchParams.Get | src/features/exercises/components/FilterPanel.tsx:67 | the first value for a key, none exactly when it has no entry |
| SearchParams.Delete | src/features/exercises/components/FilterPanel.tsx:39-47 | the key loses every entry and every other key keeps its values |
| SearchParams.Append | src/features/exercises/components/FilterPanel.tsx:48 | the value is added after the key's others; other keys are untouched |
| SearchParams.GetAllAppend | src/features/exercises/components/FilterPanel.tsx:48 | a trailing entry adds its value to its own key only |
| SearchParams.Set | src/features/exercises/components/FilterPanel.tsx:39-40 | the key ends with exactly the one value; other keys are untouched |
| SearchParams.AppendAll | src/features/exercises/components/FilterPanel.tsx:47-48 | appending a list adds its values after the key's others, in order |
| SearchParams.SetIdempotent | src/features/exercises/components/FilterPanel.tsx:40 | setting the same key to the same value twice is setting it once |
| SearchParams.DeleteAbsent | src/features/exercises/components/FilterPanel.tsx:39 | deleting a key with no entries changes nothing |
| Lists.Dedup | src/features/exercises/admin/AdminFormExercise.tsx:50-52 | `Array.from(new Set(xs))`: every value once, exactly the values of the input, in the order of their first occurrence |
| Lists.FirstIndex | src/features/exercises/admin/AdminFormExercise.tsx:50-52 | the first position at which a value occurs |
| Lists.SubsequenceKeepsOrder | src/features/exercises/components/FilterPanel.tsx:45-46 | deleting from a set keeps the remaining values in first-seen order |
| Lists.RemoveAll | src/components/ChipsSelect.tsx:30 | the value is gone; every other value stays in its order and with its repeats; no duplicates are introduced |
| Lists.SetToggle | src/features/exercises/components/FilterPanel.tsx:45-46 | no duplicates; the value flips membership and every other value keeps it; values come in first-seen order, with a newly added value last |
| Lists.SetToggleTwice | src/features/exercises/components/FilterPanel.tsx:45-46 | toggling twice gives back the original members |
| Lists.Filter | src/features/exercises/admin/AdminFormExercise.tsx:139-142 | exactly the members satisfying the test are kept, each as often as it occurs |
| Lists.FilterIsSubsequence | src/features/exercises/admin/AdminFormExercise.tsx:132-142 | filtering keeps the relative order |
| Lists.Map | src/features/exercises/admin/AdminFormExercise.tsx:132 | one image per element, in order |
| Lists.Take | src/features/exercises/components/FilterPanel.tsx:102 | `slice(0, n)`: the first n elements, or all when fewer |
| Lists.FromPairsKeys | src/features/exercises/components/MuscleMap.tsx:16-25 | a Map filled by `set` calls has exactly the keys that were set |
| Lists.FromPairsLastWins | src/features/exercises/components/MuscleMap.tsx:16-25 | a key holds the value of its last `set` |
| Lists.FromPairsAppend | src/features/exercises/components/MuscleMap.tsx:27-28 | `new Map([...a, ...b])` is a overridden by b |
| Lists.MapMembers | src/features/exercises/admin/AdminFormExercise.tsx:132 | the members of a map are exactly the images of the input's members |
| Lists.PrefixIsSubsequence | src/features/exercises/admin/AdminFormExercise.tsx:141 | a prefix keeps the order of the list |
| Lists.SubsequenceTrans | src/features/exercises/admin/AdminFormExercise.tsx:139-142 | a subsequence of a subsequence is a subsequence |
| Json.Field | src/features/home/HomePage.tsx:34 | `v?.k` yields a value exactly for an object that has the key, and yields that key's value |
| Json.Coalesce | src/features/home/HomePage.tsx:34 | `v ?? d` is d exactly for undefined or null and v otherwise |
| Text.LeadingSpaces | src/features/exercises/admin/AdminFormExercise.tsx:130 | the length of the leading whitespace run |
| Text.TrailingSpaces | src/features/exercises/admin/AdminFormExercise.tsx:130 | the length of the trailing whitespace run |
| Text.TrimStart | src/features/exercises/admin/AdminFormExercise.tsx:133 | leading whitespace is cut and the result starts with no whitespace |
| Text.Trim | src/features/exercises/admin/AdminFormExercise.tsx:130-132 | `trim()`: no whitespace at either end, empty exactly for whitespace-only input |
| Text.TrimMargins | src/features/exercises/admin/AdminFormExercise.tsx:130-132 | trimming cuts only a whitespace prefix and a whitespace suffix |
| Text.TrimIdempotent | src/features/exercises/admin/AdminFormExercise.tsx:130-132 | trimming twice is trimming once |
| Text.Lower | src/components/ChipsSelect.tsx:26-27 | `toLowerCase()` on ASCII letters, character by character |
| Text.LowerIdempotent | src/components/ChipsSelect.tsx:26-27 | lower-casing twice is lower-casing once |
| Text.RemoveWhere | src/features/exercises/components/MuscleMap.tsx:87 | `replace(/c/g, '')`: the characters outside the class remain, in order and with their repeats, and no others |
| Text.ReplaceChar | src/features/exercises/components/MuscleMap.tsx:86 | `replace(/a/g, b)`: every a becomes b, everything else stays |
| Text.CollapseSpaces | src/features/exercises/admin/AdminFormExercise.tsx:133 | `replace(/\s+/g, ' ')`: whitespace only as plain single spaces, never two in a row, empty exactly for empty input |
| Text.CollapseIsSqueeze | src/features/exercises/admin/AdminFormExercise.tsx:133 | collapsing equals the reference: each whitespace character made a space, then each run of spaces cut to one |
| Text.Join | src/components/ui/MultiSelect.tsx:23 | `join(sep)`: empty for no elements, the element itself for one, starting with the first element otherwise |
| Text.JoinSnoc | src/components/ui/MultiSelect.tsx:23 | one more element extends the join by the separator and that element, so together with Join the whole join is fixed |
| Text.JoinEmptyIff | src/features/exercises/ExerciseDetailPage.tsx:101 | with a non-empty separator, a join is empty only for no elements or one empty one |
| Text.NatToString | src/features/workout/WorkoutPage.tsx:10-12 | `String(n)`: a non-empty digit string without a leading zero unless n is 0 |
| Text.IntToString | src/features/catalog/ProgramsPage.tsx:84-86 | `String(n)`: a leading minus exactly for negative numbers |
| Text.NatToStringRoundTrip | src/features/workout/WorkoutPage.tsx:10-12 | reading a rendered number back gives the number |
| Text.NatToStringInjective | src/features/workout/WorkoutPage.tsx:10-12 | distinct numbers render differently |
| Text.ParseDecimal | src/features/exercises/api.ts:38-39 | a value exactly for a non-empty digit string |
| Text.ParseRendered | src/features/exercises/api.ts:42 | a rendered number parses back to itself |
| Text.NumberOf | src/features/exercises/api.ts:28-29 | `Number(s)`: whitespace-only text is 0 and every value read is non-negative |
| Text.NumberOfRendered | src/features/exercises/api.ts:38-42 | `Number(String(n))` is n |
| Text.TrimKeepsTidy | src/features/exercises/admin/AdminFormExercise.tsx:130 | a string with no whitespace at its ends is its own trim |
| Text.PadStart2 | src/features/workout/WorkoutPage.tsx:12 | `padStart(2, '0')`: zeros in front up to length two, the text itself at the end |

## Left out

- Network, `fetch`, cookies, `localStorage`, toasts, DOM focus and scrolling: these are I/O. Replies, stored values and the clock are inputs instead.
- The firing of browser timers other than the shell's in-flight timer, including the proactive refresh callback: arming and clearing a timer is modelled, but running it means re-entering the session manager asynchronously.
- React rendering, hooks, effects and render-time closures: a closure that reads a stale state snapshot is modelled as reading the current state.
- Floating point: weights, durations and volumes are integers, and `toFixed` formatting is not modelled.
- `Number(...)` beyond plain decimal digit strings: signs, fractions, exponents and hex are reported like NaN, and NaN comparisons are not modelled further.
- `toLowerCase` beyond ASCII letters: no Unicode case folding.
- ExerciseForm.Submit: the URL test zod applies to `videoUrl`, `videoUrlHls` and `thumbnailUrl` is a parameter (`isUrl`), not the WHATWG URL parser. `demoStartSec` is never rejected: the number input yields either nothing or `Number` of a valid numeric string, which is never NaN. The array-of-strings checks on equipment, tags and the name lists hold by the types.
- Object-prototype keys such as `constructor` in the alias and fallback lookup tables: the tables are finite maps.
- The polling of background jobs after an exercise update, and the body of the PUT reply when a home slide is saved.
- Fetching the muscle-map SVG and the regular expressions that clean its markup: only the region-to-muscle mapping and the highlight targets are modelled.
- Keyboard navigation between cells in the set editor.
- Thin hook wrappers around the client (query keys, invalidation) and the create/delete mutations beyond the path and verb they use.
- Telemetry and console logging.
- Paging.CeilDiv: requires a positive divisor. With a server limit of zero or below, the source's page count would be Infinity or NaN, which integers cannot represent.
- Paging.PageCount: requires a positive limit, for the same reason.
- Paging.FooterOf: requires a positive limit, for the same reason.
- ProgramsPage.FooterOf: requires a positive limit, for the same reason.
- WorkoutPage.OnChange: requires the exercise key to be in the table and the row index to be in range. The source would otherwise start an empty array or write past its end, leaving a sparse array; the table only raises a change for a rendered row, so that never happens.
- FilterPanel.SetSingle: requires a key other than `page`, because the panel only passes filter keys.
- FilterPanel.ToggleMulti: requires a key other than `page`, for the same reason.
- ExercisesApi.ParamOr: models the default as a number, not as text that `Number` reads back.

=== FILE: auth.dfy ===
/**
 * The session manager of `AppAuthProvider`: the user, the access token and its
 * expiry, the single-flight refresh slot, the proactive-refresh timer and the
 * `ready` flag, stepped by one pure function per event.
 *
 * The clock is the `now` parameter (milliseconds). Each network reply is an
 * input. The shared refresh promise is the `refreshing` slot holding the number
 * of callers waiting on it; the fetch behind it settles in a separate event.
 * Browser timers are a table of armed timeout ids with their delays.
 */
module Auth {
  import opened Wrappers
  import opened Json

  datatype User = User(id: string, email: string, role: string)

  /** The JSON a successful login or refresh returns, as far as it is read. */
  datatype AuthData = AuthData(accessToken: Option<string>, user: Option<User>, expiresIn: Option<int>)

  /** A reply to a login or refresh POST; `body` is None when `res.json()` rejects. */
  datatype AuthReply = NetworkFailure | Reply(status: int, body: Option<AuthData>)

  /** A reply to the register POST. */
  datatype RegisterReply = RegisterNetworkFailure | RegisterReply(status: int, body: Option<Json>)

  /** The shared refresh promise: how many callers are waiting on it. */
  datatype Flight = Flight(waiters: nat)

  datatype State = State(
    user: Option<User>,
    token: Option<string>,
    tokenExp: int,
    refreshing: Option<Flight>,
    timer: Option<nat>,
    pending: map<nat, int>,
    nextTimerId: nat,
    ready: bool)

  /** Why a promise rejected. */
  datatype Failure = NetworkError | ParseError | Message(text: string)

  datatype Outcome<T> = Resolved(value: T) | Rejected(failure: Failure)

  const SkewSeconds := 10
  const MinDelayMs := 1000
  const DefaultLifetimeMs := 600000
  const FreshMarginMs := 30000

  /** The provider's first render: nothing held, nothing pending, not ready. */
  function Initial(): (s: State)
    ensures Valid(s) && !s.ready && !IsAuthenticated(s)
  {
    State(None, None, 0, None, None, map[], 1, false)
  }

  /**
   * The bookkeeping every state keeps: the only armed timeout is the one the
   * ref points at, and ids are positive and issued once.
   */
  predicate Valid(s: State) {
    && s.nextTimerId >= 1
    && (forall id :: id in s.pending ==> s.timer == Some(id))
    && (s.timer.Some? ==> 1 <= s.timer.value < s.nextTimerId)
  }

  lemma AtMostOneTimer(s: State)
    requires Valid(s)
    ensures |s.pending| <= 1
  {
    if s.timer.None? {
      assert s.pending.Keys == {};
    } else if s.timer.value in s.pending {
      assert s.pending.Keys == {s.timer.value};
    } else {
      assert s.pending.Keys == {};
    }
  }

  predicate Present(v: Option<string>) {
    v.Some? && v.value != ""
  }

  /** `!!user && !!token`. */
  predicate IsAuthenticated(s: State) {
    s.user.Some? && Present(s.token)
  }

  predicate TruthyNum(v: Option<int>) {
    v.Some? && v.value != 0
  }

  /** The proactive-refresh delay: ten seconds before expiry, but at least one second. */
  function RefreshDelay(expiresInSec: int): (d: int)
    ensures d >= MinDelayMs
    ensures d >= (expiresInSec - SkewSeconds) * 1000
    ensures d == MinDelayMs || d == (expiresInSec - SkewSeconds) * 1000
  {
    var d := (expiresInSec - SkewSeconds) * 1000;
    if d < MinDelayMs then MinDelayMs else d
  }

  /** Clears the armed timeout the ref points at, if any. */
  function CancelTimer(s: State): (r: State)
    requires Valid(s)
    ensures Valid(r)
    ensures r.timer.None? && r.pending == map[]
    ensures r == s.(timer := None, pending := map[])
  {
    if s.timer.Some? then
      AtMostOneTimer(s);
      s.(pending := s.pending - {s.timer.value}, timer := None)
    else s.(pending := map[])
  }

  /**
   * `scheduleProactiveRefresh(expiresIn)`: nothing for a falsy lifetime;
   * otherwise the earlier timeout is cancelled and a single new one armed.
   */
  function Schedule(s: State, expiresIn: Option<int>): (r: State)
    requires Valid(s)
    ensures Valid(r)
    ensures !TruthyNum(expiresIn) ==> r == s
    ensures TruthyNum(expiresIn) ==>
      && r.timer == Some(s.nextTimerId)
      && r.pending == map[s.nextTimerId := RefreshDelay(expiresIn.value)]
    ensures r.user == s.user && r.token == s.token && r.tokenExp == s.tokenExp
    ensures r.refreshing == s.refreshing && r.ready == s.ready
  {
    if !TruthyNum(expiresIn) then s
    else
      var c := CancelTimer(s);
      var id := c.nextTimerId;
      c.(timer := Some(id), pending := map[id := RefreshDelay(expiresIn.value)], nextTimerId := id + 1)
  }

  /** `applySession(data)`: user and token replaced, expiry set, timer armed for a truthy lifetime. */
  function ApplySession(s: State, d: AuthData, now: int): (r: State)
    requires Valid(s)
    ensures Valid(r)
    ensures r.user == d.user && r.token == d.accessToken
    ensures r.tokenExp == now + (if TruthyNum(d.expiresIn) then d.expiresIn.value * 1000 else DefaultLifetimeMs)
    ensures TruthyNum(d.expiresIn) ==> r.pending == map[s.nextTimerId := RefreshDelay(d.expiresIn.value)]
    ensures !TruthyNum(d.expiresIn) ==> r.timer == s.timer && r.pending == s.pending
    ensures r.refreshing == s.refreshing && r.ready == s.ready
  {
    var t := s.(user := d.user, token := d.accessToken,
                tokenExp := now + (if TruthyNum(d.expiresIn) then d.expiresIn.value * 1000 else DefaultLifetimeMs));
    Schedule(t, d.expiresIn)
  }

  /** Clears user, token and expiry, as a failed refresh and logout both do. */
  function ClearSession(s: State): (r: State)
    ensures !IsAuthenticated(r) && r.user.None? && r.token.None? && r.tokenExp == 0
    ensures r.timer == s.timer && r.pending == s.pending && r.refreshing == s.refreshing && r.ready == s.ready
  {
    s.(user := None, token := None, tokenExp := 0)
  }

  /**
   * The startup restore: a raw refresh POST outside the single-flight slot.
   * A usable reply installs the session; anything else changes nothing; `ready`
   * becomes true either way.
   */
  function Restore(s: State, reply: AuthReply, now: int): (r: State)
    requires Valid(s)
    ensures Valid(r) && r.ready
    ensures r.refreshing == s.refreshing
    ensures reply.Reply? && IsOk(reply.status) && reply.body.Some? ==>
      r == ApplySession(s, reply.body.value, now).(ready := true)
    ensures !(reply.Reply? && IsOk(reply.status) && reply.body.Some?) ==> r == s.(ready := true)
  {
    var t := if reply.Reply? && IsOk(reply.status) && reply.body.Some?
      then ApplySession(s, reply.body.value, now) else s;
    t.(ready := true)
  }

  predicate IsOk(status: int) {
    200 <= status <= 299
  }

  /** `login(email, password)`: a 2xx reply installs the session, any failure leaves the state alone. */
  function Login(s: State, reply: AuthReply, now: int): (r: (State, Outcome<()>))
    requires Valid(s)
    ensures Valid(r.0)
    ensures r.1.Rejected? ==> r.0 == s
    ensures reply.NetworkFailure? ==> r.1 == Rejected(NetworkError)
    ensures reply.Reply? && !IsOk(reply.status) ==> r.1 == Rejected(Message("Invalid credentials"))
    ensures reply.Reply? && IsOk(reply.status) && reply.body.None? ==> r.1 == Rejected(ParseError)
    ensures r.1.Resolved? <==> reply.Reply? && IsOk(reply.status) && reply.body.Some?
    ensures r.1.Resolved? ==> r.0 == ApplySession(s, reply.body.value, now)
  {
    match reply
    case NetworkFailure => (s, Rejected(NetworkError))
    case Reply(status, body) =>
      if !IsOk(status) then (s, Rejected(Message("Invalid credentials")))
      else if body.None? then (s, Rejected(ParseError))
      else (ApplySession(s, body.value, now), Resolved(()))
  }

  /**
   * `register(payload)`: never touches the session, so it takes no state. The
   * body is parsed before the status is looked at; a non-2xx rejects with the
   * server's `error.message` or 'Registration failed'.
   */
  function Register(reply: RegisterReply): (r: Outcome<Json>)
    ensures reply.RegisterNetworkFailure? ==> r == Rejected(NetworkError)
    ensures reply.RegisterReply? && reply.body.None? ==> r == Rejected(ParseError)
    ensures r.Resolved? <==> reply.RegisterReply? && reply.body.Some? && IsOk(reply.status)
    ensures r.Resolved? ==> r.value == reply.body.value
    ensures reply.RegisterReply? && reply.body.Some? && !IsOk(reply.status) ==>
      var m := Field(Field(reply.body, "error"), "message");
      r == Rejected(Message(if Truthy(m) then ToJsString(m.value) else "Registration failed"))
  {
    match reply
    case RegisterNetworkFailure => Rejected(NetworkError)
    case RegisterReply(status, body) =>
      if body.None? then Rejected(ParseError)
      else if !IsOk(status) then
        var m := Field(Field(body, "error"), "message");
        Rejected(Message(if Truthy(m) then ToJsString(m.value) else "Registration failed"))
      else Resolved(body.value)
  }

  /**
   * `logout()`: the POST's result is ignored; user, token and expiry are
   * cleared and the timer cancelled. An in-flight refresh is left alone.
   */
  function Logout(s: State): (r: State)
    requires Valid(s)
    ensures Valid(r) && !IsAuthenticated(r)
    ensures r.user.None? && r.token.None? && r.tokenExp == 0
    ensures r.timer.None? && r.pending == map[]
    ensures r.refreshing == s.refreshing && r.ready == s.ready
  {
    CancelTimer(ClearSession(s))
  }

  /** What a call of `refresh()` did: joined the promise in flight, or started a new fetch. */
  datatype RefreshStart = Joined | Started

  /** `refresh()` up to its first await: join the slot if occupied, otherwise fill it and fetch. */
  function RefreshCall(s: State): (r: (State, RefreshStart))
    requires Valid(s)
    ensures Valid(r.0)
    ensures r.1 == Started <==> s.refreshing.None?
    ensures r.0.refreshing == Some(Flight(if s.refreshing.Some? then s.refreshing.value.waiters + 1 else 1))
    ensures r.0 == s.(refreshing := r.0.refreshing)
  {
    match s.refreshing
    case Some(f) => (s.(refreshing := Some(Flight(f.waiters + 1))), Joined)
    case None => (s.(refreshing := Some(Flight(1))), Started)
  }

  /**
   * The refresh fetch settling: a usable 2xx reply installs the session and
   * yields its access token; any failure clears user, token and expiry and
   * yields nothing. Either way the slot is emptied, and every waiter gets the
   * same result.
   */
  function RefreshSettle(s: State, reply: AuthReply, now: int): (r: (State, Option<string>, nat))
    requires Valid(s) && s.refreshing.Some?
    ensures Valid(r.0) && r.0.refreshing.None?
    ensures r.2 == s.refreshing.value.waiters
    ensures reply.Reply? && IsOk(reply.status) && reply.body.Some? ==>
      r.0 == ApplySession(s, reply.body.value, now).(refreshing := None)
      && r.1 == reply.body.value.accessToken
    ensures !(reply.Reply? && IsOk(reply.status) && reply.body.Some?) ==>
      r.0 == ClearSession(s).(refreshing := None) && r.1.None?
  {
    var waiters := s.refreshing.value.waiters;
    if reply.Reply? && IsOk(reply.status) && reply.body.Some? then
      (ApplySession(s, reply.body.value, now).(refreshing := None), reply.body.value.accessToken, waiters)
    else
      (ClearSession(s).(refreshing := None), None, waiters)
  }

  /** What `getToken()` did: answered with the held token, or went through `refresh()`. */
  datatype TokenAnswer = Held(token: string) | ViaRefresh(start: RefreshStart)

  /** A token is fresh while more than thirty seconds remain before expiry. */
  predicate Fresh(s: State, now: int) {
    Present(s.token) && now < s.tokenExp - FreshMarginMs
  }

  /** `getToken()`: the held token while fresh, with no network call; otherwise `refresh()`. */
  function GetToken(s: State, now: int): (r: (State, TokenAnswer))
    requires Valid(s)
    ensures Valid(r.0)
    ensures r.1.Held? <==> Fresh(s, now)
    ensures r.1.Held? ==> r.0 == s && r.1.token == s.token.value
    ensures !Fresh(s, now) ==> r == (RefreshCall(s).0, ViaRefresh(RefreshCall(s).1))
  {
    if Fresh(s, now) then (s, Held(s.token.value))
    else
      var (t, start) := RefreshCall(s);
      (t, ViaRefresh(start))
  }

  /**
   * The client's retry after a 401 asks for a token again; while the held
   * token is still fresh it gets the very same token, with no renewal.
   */
  lemma RetryReusesFreshToken(s: State, first: int, second: int)
    requires Valid(s)
    requires first <= second && Fresh(s, second)
    ensures GetToken(s, first).1 == Held(s.token.value)
    ensures GetToken(GetToken(s, first).0, second).1 == Held(s.token.value)
  {
  }

  /**
   * Logout does not cancel a refresh already in flight: if that refresh then
   * succeeds, the session comes back.
   */
  lemma LogoutThenRefreshRestores(s: State, d: AuthData, now: int)
    requires Valid(s) && s.refreshing.Some?
    requires d.user.Some? && Present(d.accessToken)
    ensures IsAuthenticated(RefreshSettle(Logout(s), Reply(200, Some(d)), now).0)
  {
  }

  /** The events the provider reacts to. */
  datatype Event =
    | RestoreEv(reply: AuthReply)
    | LoginEv(reply: AuthReply)
    | RegisterEv(registerReply: RegisterReply)
    | LogoutEv
    | RefreshCallEv
    | RefreshSettleEv(reply: AuthReply)
    | GetTokenEv

  /** One event at time `now`; a settle with nothing in flight is ignored. */
  function Step(s: State, e: Event, now: int): (r: State)
    requires Valid(s)
    ensures Valid(r)
    ensures s.ready ==> r.ready
  {
    match e
    case RestoreEv(reply) => Restore(s, reply, now)
    case LoginEv(reply) => Login(s, reply, now).0
    case RegisterEv(_) => s
    case LogoutEv => Logout(s)
    case RefreshCallEv => RefreshCall(s).0
    case RefreshSettleEv(reply) => if s.refreshing.Some? then RefreshSettle(s, reply, now).0 else s
    case GetTokenEv => GetToken(s, now).0
  }

  /** Whether an event issues a refresh fetch through the single-flight slot. */
  predicate StartsFetch(s: State, e: Event, now: int)
    requires Valid(s)
  {
    match e
    case RefreshCallEv => RefreshCall(s).1 == Started
    case GetTokenEv => GetToken(s, now).1 == ViaRefresh(Started)
    case _ => false
  }

  predicate SettlesFetch(s: State, e: Event) {
    e.RefreshSettleEv? && s.refreshing.Some?
  }

  /** A run of timed events from a state, returning the final state and the fetches started and settled. */
  function Run(s: State, events: seq<(Event, int)>): (r: (State, nat, nat))
    requires Valid(s)
    ensures Valid(r.0)
    decreases |events|
  {
    if |events| == 0 then (s, 0, 0)
    else
      var (e, now) := events[0];
      var rest := Run(Step(s, e, now), events[1..]);
      (rest.0,
       rest.1 + (if StartsFetch(s, e, now) then 1 else 0),
       rest.2 + (if SettlesFetch(s, e) then 1 else 0))
  }

  /**
   * Single flight: along any run from a state with nothing in flight, the
   * refresh fetches started through the slot exceed those settled by exactly
   * the slot's occupancy, so at most one is ever outstanding.
   */
  lemma {:induction false} SingleFlight(s: State, events: seq<(Event, int)>)
    requires Valid(s)
    ensures var (t, started, settled) := Run(s, events);
      started + (if s.refreshing.Some? then 1 else 0) == settled + (if t.refreshing.Some? then 1 else 0)
    decreases |events|
  {
    if |events| > 0 {
      var (e, now) := events[0];
      SingleFlight(Step(s, e, now), events[1..]);
    }
  }

  /** Corollary: from an empty slot, started fetches never exceed settled ones by more than one. */
  lemma AtMostOneOutstanding(s: State, events: seq<(Event, int)>)
    requires Valid(s) && s.refreshing.None?
    ensures var (_, started, settled) := Run(s, events); started <= settled + 1
  {
    SingleFlight(s, events);
  }

  /** `ready` never goes back to false along a run. */
  lemma {:induction false} ReadyStays(s: State, events: seq<(Event, int)>)
    requires Valid(s) && s.ready
    ensures Run(s, events).0.ready
    decreases |events|
  {
    if |events| > 0 {
      var (e, now) := events[0];
      ReadyStays(Step(s, e, now), events[1..]);
    }
  }
}

=== FILE: body_part.dfy ===
/**
 * The spellings the body-part-focus normaliser recognises: the squashing
 * step and the four keys it looks up.
 */
module BodyPart {
  import opened Wrappers
  import Text

  const FullBody := "Full Body"
  const Upper := "Upper"
  const Lower := "Lower"
  const Core := "Core"

  /** The values the body-part-focus enum accepts. */
  const BodyParts: set<string> := {Core, Upper, Lower, FullBody}

  predicate IsSpaceOrUnderscore(c: char) {
    Text.IsSpace(c) || c == '_'
  }

  /** `v.replace(/\s|_/g, '').toLowerCase()`: whitespace and underscores dropped, letters lower-cased. */
  function Squash(s: string): (r: string)
    ensures |r| <= |s|
  {
    if s == "" then "" else Squash(s[..|s| - 1]) + Kept(s[|s| - 1])
  }

  /** Squashed text holds no whitespace, no underscore and no upper-case ASCII letter. */
  lemma {:induction false} SquashClean(s: string)
    ensures forall i :: 0 <= i < |Squash(s)| ==>
      !IsSpaceOrUnderscore(Squash(s)[i]) && !('A' <= Squash(s)[i] <= 'Z')
  {
    if s != "" {
      SquashClean(s[..|s| - 1]);
    }
  }

  function Kept(c: char): string {
    if IsSpaceOrUnderscore(c) then "" else [Text.LowerChar(c)]
  }

  /** Squashing works piece by piece. */
  lemma {:induction false} SquashAppend(a: string, b: string)
    ensures Squash(a + b) == Squash(a) + Squash(b)
  {
    if b == "" {
      assert a + b == a;
    } else {
      var ab, init := a + b, b[..|b| - 1];
      assert ab[..|ab| - 1] == a + init;
      assert Squash(ab) == Squash(a + init) + Kept(b[|b| - 1]);
      SquashAppend(a, init);
      assert Squash(b) == Squash(init) + Kept(b[|b| - 1]);
    }
  }

  /** Text with no whitespace and no underscore is only lower-cased. */
  lemma {:induction false} SquashPlain(s: string)
    requires forall i :: 0 <= i < |s| ==> !IsSpaceOrUnderscore(s[i])
    ensures Squash(s) == Text.Lower(s)
  {
    if s != "" {
      var init := s[..|s| - 1];
      SquashPlain(init);
      assert Text.Lower(s) == Text.Lower(init) + [Text.LowerChar(s[|s| - 1])];
    }
  }

  /** The two halves of "Full Body", squashed apart. */
  lemma SquashFullWord()
    ensures Squash("Full" + " ") == "full"
  {
    SquashAppend("Full", " ");
    SquashPlain("Full");
    assert Squash(" ") == "";
  }

  lemma SquashBodyWord()
    ensures Squash("Body") == "body"
  {
    SquashPlain("Body");
  }

  /** The squashed forms of the four canonical values are their own keys. */
  lemma SquashFullBody()
    ensures Squash(FullBody) == "fullbody"
    ensures Canonical(Squash(FullBody)) == Some(FullBody)
  {
    assert FullBody == "Full" + " " + "Body";
    SquashAppend("Full" + " ", "Body");
    SquashFullWord();
    SquashBodyWord();
  }

  lemma SquashUpper()
    ensures Squash(Upper) == "upper"
    ensures Canonical(Squash(Upper)) == Some(Upper)
  {
    SquashPlain(Upper);
  }

  lemma SquashLower()
    ensures Squash(Lower) == "lower"
    ensures Canonical(Squash(Lower)) == Some(Lower)
  {
    SquashPlain(Lower);
  }

  lemma SquashCore()
    ensures Squash(Core) == "core"
    ensures Canonical(Squash(Core)) == Some(Core)
  {
    SquashPlain(Core);
  }

  /** A hyphen is neither whitespace nor an underscore, so it survives squashing. */
  lemma {:induction false} SquashKeepsHyphen(s: string)
    ensures '-' in s ==> '-' in Squash(s)
  {
    if s != "" {
      assert Kept('-') == "-";
      if s[|s| - 1] != '-' {
        assert '-' in s ==> '-' in s[..|s| - 1];
        SquashKeepsHyphen(s[..|s| - 1]);
      }
    }
  }

  /** The canonical value a squashed spelling stands for. */
  function Canonical(key: string): Option<string> {
    if key == "fullbody" then Some(FullBody)
    else if key == "upper" then Some(Upper)
    else if key == "lower" then Some(Lower)
    else if key == "core" then Some(Core)
    else None
  }

  /** The enum holds exactly the four canonical values. */
  lemma BodyPartCases(b: string)
    requires b in BodyParts
    ensures b == FullBody || b == Upper || b == Lower || b == Core
  {
  }

  /** Each of the four canonical values squashes to the key that maps back to it. */
  lemma CanonicalRoundTrip(b: string)
    requires b in BodyParts
    ensures Canonical(Squash(b)) == Some(b)
  {
    BodyPartCases(b);
    if b == Core {
      SquashCore();
    } else if b == Upper {
      SquashUpper();
    } else if b == Lower {
      SquashLower();
    } else {
      SquashFullBody();
    }
  }

  /** No known key holds a hyphen. */
  lemma KeysUnhyphenated(key: string)
    requires Canonical(key).Some?
    ensures '-' !in key
  {
  }

  /** The hyphenated spelling squashes to a key that is not known. */
  lemma HyphenatedUnknown()
    ensures Canonical(Squash("full-body")).None?
    ensures "full-body" !in BodyParts
  {
    assert "full-body"[4] == '-';
    SquashKeepsHyphen("full-body");
    if Canonical(Squash("full-body")).Some? {
      KeysUnhyphenated(Squash("full-body"));
    }
  }
}

=== FILE: chips_select.dfy ===
/**
 * The chip picker used for categories, modalities, equipment and tags. In
 * single mode its value is one string (empty meaning nothing chosen); in
 * multi mode it is a list of strings. The facet query and the creation
 * request are inputs.
 */
module ChipsSelect {
  import Lists
  import Text

  /** The picker's value; the constructor is the mode. */
  datatype Value = Single(s: string) | Multi(xs: seq<string>)

  predicate NonBlank(s: string) {
    s != ""
  }

  /** `values`: the chosen values shown as chips, empties dropped. */
  function Values(v: Value): (r: seq<string>)
    ensures forall x :: x in r ==> x != ""
    ensures v.Single? ==> (r == [] <==> v.s == "") && (v.s != "" ==> r == [v.s])
    ensures v.Multi? ==> (forall x :: x in r <==> x in v.xs && x != "") && Lists.IsSubsequence(r, v.xs)
    ensures v.Multi? ==> forall x :: multiset(r)[x] == if x != "" then multiset(v.xs)[x] else 0
  {
    match v
    case Single(s) => if s == "" then [] else [s]
    case Multi(xs) =>
      Lists.FilterIsSubsequence(xs, NonBlank);
      Lists.Filter(xs, NonBlank)
  }

  /** Case-insensitive equality as the picker tests it (ASCII lower-casing). */
  predicate SameLabel(a: string, b: string) {
    Text.Lower(a) == Text.Lower(b)
  }

  /** `canCreate`: creation is offered for a non-blank query that no option already names. */
  function CanCreate(createEnabled: bool, query: string, options: seq<string>): (r: bool)
    ensures r ==> createEnabled && !Text.AllSpace(query)
    ensures r ==> forall i :: 0 <= i < |options| ==> !SameLabel(options[i], Text.Trim(query))
    ensures createEnabled && !Text.AllSpace(query) && (forall i :: 0 <= i < |options| ==> !SameLabel(options[i], Text.Trim(query))) ==> r
  {
    var entry := Text.Trim(query);
    var lowered := Lists.Map(options, Text.Lower);
    assert forall i :: 0 <= i < |options| ==> lowered[i] == Text.Lower(options[i]);
    createEnabled && entry != "" && Text.Lower(entry) !in lowered
  }

  /** `remove(val)`: multi mode drops every occurrence; single mode clears. */
  function Remove(v: Value, val: string): (r: Value)
    ensures r.Single? <==> v.Single?
    ensures v.Single? ==> Values(r) == []
    ensures v.Multi? ==> val !in Values(r) && forall x :: x != val ==> (x in Values(r) <==> x in Values(v))
    ensures v.Multi? ==> Lists.IsSubsequence(r.xs, Values(v))
    ensures v.Multi? ==> forall x {:trigger multiset(r.xs)[x]} :: multiset(r.xs)[x] == if x == val then 0 else multiset(Values(v))[x]
  {
    match v
    case Single(_) => Single("")
    case Multi(_) => Multi(Lists.RemoveAll(Values(v), val))
  }

  /**
   * `toggle(val)`: multi mode flips membership, keeping the chips in first-seen
   * order and appending a new value; single mode always selects `val`.
   */
  function Toggle(v: Value, val: string): (r: Value)
    ensures r.Single? <==> v.Single?
    ensures v.Single? ==> r.s == val
    ensures v.Multi? ==> Lists.NoDups(r.xs)
    ensures v.Multi? ==> (val in r.xs <==> val !in Values(v))
    ensures v.Multi? ==> forall x :: x != val ==> (x in r.xs <==> x in Values(v))
    ensures v.Multi? ==> Lists.FirstSeenOrder(r.xs, Values(v))
    ensures v.Multi? && val !in Values(v) ==> |r.xs| > 0 && r.xs[|r.xs| - 1] == val
  {
    match v
    case Single(_) => Single(val)
    case Multi(_) => Multi(Lists.SetToggle(Values(v), val))
  }

  /** In multi mode, toggling the same value twice gives back the chosen set. */
  lemma ToggleTwice(xs: seq<string>, val: string)
    requires val != ""
    ensures forall x :: x in Values(Toggle(Toggle(Multi(xs), val), val)) <==> x in Values(Multi(xs))
  {
  }

  /** In single mode a toggle never clears: choosing a non-empty value always leaves it chosen. */
  lemma SingleToggleNeverClears(s: string, val: string)
    requires val != ""
    ensures Values(Toggle(Single(s), val)) == [val]
  {
  }

  /** The picker's value and query after `handleCreate`, given whether the creation request succeeded. */
  function HandleCreate(v: Value, query: string, created: bool): (r: (Value, string))
    ensures Text.AllSpace(query) || !created ==> r == (v, query)
    ensures !Text.AllSpace(query) && created ==> r.1 == ""
    ensures !Text.AllSpace(query) && created && v.Multi? ==> r.0 == Multi(Values(v) + [Text.Trim(query)])
    ensures !Text.AllSpace(query) && created && v.Single? ==> r.0 == Single(Text.Trim(query))
  {
    var entry := Text.Trim(query);
    if entry == "" || !created then (v, query)
    else
      match v
      case Single(_) => (Single(entry), "")
      case Multi(_) => (Multi(Values(v) + [entry]), "")
  }

  /** After a successful creation the new entry is among the chosen values. */
  lemma CreatedIsChosen(v: Value, query: string)
    requires !Text.AllSpace(query)
    ensures Text.Trim(query) in Values(HandleCreate(v, query, true).0)
  {
    var entry := Text.Trim(query);
    match v
    case Single(_) =>
    case Multi(_) =>
      var xs := Values(v) + [entry];
      assert entry == xs[|xs| - 1];
      assert Values(Multi(xs)) == Lists.Filter(xs, NonBlank);
  }
}

=== FILE: client.dfy ===
/**
 * The HTTP client built by `createApi(getToken)`: one logical request attaches
 * a bearer token when one is held, sends `If-None-Match` for GETs whose URL has
 * a cached ETag, answers a 304 from that cache, retries exactly once on 401,
 * unwraps a `{data: ...}` envelope and raises `ApiError` for any other non-2xx
 * reply.
 *
 * `getToken` and `fetch` are not called here: each attempt is given as the
 * token `getToken` yielded and the reply the network gave. The retry attempt
 * is only consulted when the first reply is 401.
 */
module Client {
  import opened Wrappers
  import opened Json

  datatype Credentials = Include | SameOrigin | Omit

  /** The parts of `RequestInit` the client reads or passes on. */
  datatype Init = Init(
    verb: Option<string>,
    headers: map<string, string>,
    body: Option<Json>,
    credentials: Option<Credentials>)

  /** What one `fetch(url, {...})` call receives. */
  datatype FetchCall = FetchCall(
    url: string,
    verb: Option<string>,
    headers: map<string, string>,
    body: Option<Json>,
    credentials: Credentials)

  /** A reply's body text: empty, valid JSON, or text `JSON.parse` rejects. */
  datatype ReplyBody = Empty | Parsed(value: Json) | Malformed

  /** A network reply: status, the `ETag` header if any, and the body. */
  datatype Reply = Reply(status: int, etag: Option<string>, body: ReplyBody)

  /**
   * One attempt: what `getToken()` yielded and what `fetch` answered; or
   * `getToken()` rejected, so no fetch was made; or the fetch itself
   * rejected (a network failure) after being called with the token.
   */
  datatype Attempt = Attempt(token: Option<string>, reply: Reply) | TokenRejected | FetchRejected(token: Option<string>)

  datatype CacheEntry = CacheEntry(etag: string, body: Json)

  /** A client instance: its base URL and its own ETag map. */
  datatype Api = Api(base: string, cache: map<string, CacheEntry>)

  datatype ApiError = ApiError(status: int, message: string, code: Option<Json>, details: Option<Json>)

  /** How a request ends: a value, an `ApiError`, the `JSON.parse` exception, or a rejection passed on from `getToken` or `fetch`. */
  datatype Outcome = Data(value: Json) | Failed(error: ApiError) | ParseFailure | Rejected

  /** The outcome, the client afterwards, the fetches made and the `getToken` calls made. */
  datatype Result = Result(outcome: Outcome, api: Api, calls: seq<FetchCall>, tokenCalls: nat)

  const JsonContentType := "application/json"

  /** `!init.verb || init.verb === 'GET'`. */
  predicate IsGet(verb: Option<string>) {
    verb.None? || verb.value == "" || verb.value == "GET"
  }

  /** `res.ok`. */
  predicate IsOk(status: int) {
    200 <= status <= 299
  }

  /** A string header or token is truthy when present and non-empty. */
  predicate Present(v: Option<string>) {
    v.Some? && v.value != ""
  }

  predicate HeaderSet(h: map<string, string>, k: string) {
    k in h && h[k] != ""
  }

  function CacheLookup(api: Api, url: string): (r: Option<CacheEntry>)
    ensures r.Some? <==> url in api.cache
    ensures r.Some? ==> r.value == api.cache[url]
  {
    if url in api.cache then Some(api.cache[url]) else None
  }

  /** Every cache entry holds a truthy ETag: entries are only written with one. */
  predicate WellFormed(api: Api) {
    forall u :: u in api.cache ==> api.cache[u].etag != ""
  }

  /**
   * The header object `doFetch(tok)` builds: JSON content type, then the bearer
   * token if truthy, then the caller's headers (which win on a clash), then
   * `If-None-Match` for a GET with a cached ETag the caller did not override.
   */
  function Headers(init: Init, cached: Option<CacheEntry>, tok: Option<string>): (h: map<string, string>)
    ensures "content-type" in h
    ensures "content-type" !in init.headers ==> h["content-type"] == JsonContentType
    ensures "authorization" !in init.headers ==>
      ("authorization" in h <==> Present(tok))
      && (Present(tok) ==> h["authorization"] == "Bearer " + tok.value)
    ensures forall k :: k in init.headers && k != "If-None-Match" ==> k in h && h[k] == init.headers[k]
    ensures ("If-None-Match" in h && "If-None-Match" !in init.headers) ==>
      IsGet(init.verb) && cached.Some? && cached.value.etag != "" && h["If-None-Match"] == cached.value.etag
    ensures IsGet(init.verb) && cached.Some? && cached.value.etag != ""
      && !HeaderSet(init.headers, "If-None-Match") && !HeaderSet(init.headers, "if-none-match")
      ==> "If-None-Match" in h && h["If-None-Match"] == cached.value.etag
  {
    var base := map["content-type" := JsonContentType];
    var withAuth := if Present(tok) then base["authorization" := "Bearer " + tok.value] else base;
    var h := withAuth + init.headers;
    if IsGet(init.verb) && cached.Some? && cached.value.etag != ""
      && !HeaderSet(h, "If-None-Match") && !HeaderSet(h, "if-none-match")
    then h["If-None-Match" := cached.value.etag]
    else h
  }

  /** `doFetch(tok)`: the call made for one attempt; credentials are always included. */
  function Call(url: string, init: Init, cached: Option<CacheEntry>, tok: Option<string>): (c: FetchCall)
    ensures c.url == url && c.verb == init.verb && c.body == init.body
    ensures c.credentials == Include
    ensures c.headers == Headers(init, cached, tok)
  {
    FetchCall(url, init.verb, Headers(init, cached, tok), init.body, Include)
  }

  /** `new ApiError(status, body)`. */
  function MakeError(status: int, body: Json): (e: ApiError)
    ensures e.status == status
    ensures var m := Field(Field(Some(body), "error"), "message");
      e.message == if Truthy(m) then ToJsString(m.value) else "API Error"
    ensures e.code == Field(Field(Some(body), "error"), "code")
    ensures e.details == Field(Field(Some(body), "error"), "details")
  {
    var err := Field(Some(body), "error");
    var m := Field(err, "message");
    ApiError(status, if Truthy(m) then ToJsString(m.value) else "API Error",
             Field(err, "code"), Field(err, "details"))
  }

  /** `body?.data ?? body`. */
  function Unwrap(body: Json): (r: Json)
    ensures body.JObj? && "data" in body.fields && !body.fields["data"].JNull? ==> r == body.fields["data"]
    ensures !(body.JObj? && "data" in body.fields) ==> r == body
    ensures body.JObj? && "data" in body.fields && body.fields["data"].JNull? ==> r == body
  {
    Coalesce(Field(Some(body), "data"), body)
  }

  /** `text ? JSON.parse(text) : {}` for a body that parses. */
  function Decoded(b: ReplyBody): Json
    requires !b.Malformed?
  {
    if b.Empty? then JObj(map[]) else b.value
  }

  /** The first attempt was answered 401, so the request tries again. */
  predicate Retries(first: Attempt) {
    first.Attempt? && first.reply.status == 401
  }

  /** An attempt the request awaits rejected, so the request rejects too. */
  predicate Rejects(first: Attempt, retry: Attempt) {
    !first.Attempt? || (Retries(first) && !retry.Attempt?)
  }

  /** The reply the request finishes with: the retry's on a 401, else the first. */
  function FinalReply(first: Attempt, retry: Attempt): Reply
    requires !Rejects(first, retry)
  {
    if Retries(first) then retry.reply else first.reply
  }

  /** The 304 short-circuit: a GET that had a cache entry when it started. */
  predicate FromCache(api: Api, url: string, init: Init, reply: Reply) {
    reply.status == 304 && IsGet(init.verb) && url in api.cache
  }

  /** A reply that writes the cache: a fresh 2xx GET reply carrying an ETag. */
  predicate Stores(init: Init, reply: Reply) {
    IsGet(init.verb) && IsOk(reply.status) && !reply.body.Malformed? && Present(reply.etag)
  }

  /** Reads the final reply, after the 304 short-circuit did not apply. */
  function Finish(api: Api, url: string, init: Init, res: Reply, calls: seq<FetchCall>): (r: Result)
    ensures r.calls == calls && r.tokenCalls == |calls|
    ensures res.body.Malformed? ==> r.outcome == ParseFailure && r.api == api
    ensures !res.body.Malformed? && !IsOk(res.status) ==>
      r.outcome == Failed(MakeError(res.status, Decoded(res.body))) && r.api == api
    ensures !res.body.Malformed? && IsOk(res.status) ==> r.outcome == Data(Unwrap(Decoded(res.body)))
    ensures r.api.base == api.base
    ensures Stores(init, res) ==> r.api.cache == api.cache[url := CacheEntry(res.etag.value, Unwrap(Decoded(res.body)))]
    ensures !Stores(init, res) ==> r.api == api
  {
    if res.body.Malformed? then Result(ParseFailure, api, calls, |calls|)
    else
      var body := Decoded(res.body);
      if !IsOk(res.status) then Result(Failed(MakeError(res.status, body)), api, calls, |calls|)
      else
        var data := Unwrap(body);
        var api' := if IsGet(init.verb) && Present(res.etag)
          then api.(cache := api.cache[url := CacheEntry(res.etag.value, data)])
          else api;
        Result(Data(data), api', calls, |calls|)
  }

  /** `request(path, init)`. */
  function Request(api: Api, path: string, init: Init, first: Attempt, retry: Attempt): (r: Result)
    // one getToken call, and a second only after a 401
    ensures r.tokenCalls == if Retries(first) then 2 else 1
    // a fetch follows every getToken call that resolved
    ensures |r.calls| == (if first.TokenRejected? then 0 else if Retries(first) && !retry.TokenRejected? then 2 else 1)
    ensures |r.calls| >= 1 ==> r.calls[0] == Call(api.base + path, init, CacheLookup(api, api.base + path), first.token)
    ensures |r.calls| == 2 ==>
      r.calls[1] == Call(api.base + path, init, CacheLookup(api, api.base + path), retry.token)
    // a rejected getToken or fetch rejects the request, with no further attempt and the cache untouched
    ensures Rejects(first, retry) <==> r.outcome == Rejected
    ensures Rejects(first, retry) ==> r.api == api
    // a 304 on a GET that had an entry returns the entry and changes nothing
    ensures !Rejects(first, retry) && FromCache(api, api.base + path, init, FinalReply(first, retry)) ==>
      r.outcome == Data(api.cache[api.base + path].body) && r.api == api
    // otherwise a non-2xx becomes ApiError with that status (or the parse failure)
    ensures !Rejects(first, retry) ==> var res := FinalReply(first, retry);
      !FromCache(api, api.base + path, init, res) && !IsOk(res.status) ==>
        r.api == api &&
        (if res.body.Malformed? then r.outcome == ParseFailure
         else r.outcome.Failed? && r.outcome.error.status == res.status)
    // success returns the unwrapped body
    ensures !Rejects(first, retry) ==> var res := FinalReply(first, retry);
      IsOk(res.status) && !res.body.Malformed? ==> r.outcome == Data(Unwrap(Decoded(res.body)))
    // the cache changes only for a fresh GET carrying an ETag, and only at this URL
    ensures r.api.base == api.base
    ensures !Rejects(first, retry) ==> var res := FinalReply(first, retry);
      r.api.cache == if Stores(init, res)
        then api.cache[api.base + path := CacheEntry(res.etag.value, Unwrap(Decoded(res.body)))]
        else api.cache
  {
    var url := api.base + path;
    var cached := CacheLookup(api, url);
    match first
    case TokenRejected => Result(Rejected, api, [], 1)
    case FetchRejected(tok) => Result(Rejected, api, [Call(url, init, cached, tok)], 1)
    case Attempt(tok, reply) =>
      var call1 := Call(url, init, cached, tok);
      if FromCache(api, url, init, reply) then
        Result(Data(cached.value.body), api, [call1], 1)
      else if reply.status == 401 then
        match retry
        case TokenRejected => Result(Rejected, api, [call1], 2)
        case FetchRejected(tok2) => Result(Rejected, api, [call1, Call(url, init, cached, tok2)], 2)
        case Attempt(tok2, reply2) =>
          var calls := [call1, Call(url, init, cached, tok2)];
          if FromCache(api, url, init, reply2) then Result(Data(cached.value.body), api, calls, 2)
          else Finish(api, url, init, reply2, calls)
      else
        Finish(api, url, init, reply, [call1])
  }

  /**
   * A rejection from `getToken` or `fetch` reaches the caller as is: the
   * cache is unchanged, and a rejected first attempt is never retried.
   */
  lemma RejectionPassesThrough(api: Api, path: string, init: Init, first: Attempt, retry: Attempt)
    requires !first.Attempt?
    ensures var r := Request(api, path, init, first, retry);
      r.outcome == Rejected && r.api == api && r.tokenCalls == 1 && |r.calls| <= 1
  {
  }

  /** No request ever stores an entry without a truthy ETag. */
  lemma RequestKeepsWellFormed(api: Api, path: string, init: Init, first: Attempt, retry: Attempt)
    requires WellFormed(api)
    ensures WellFormed(Request(api, path, init, first, retry).api)
  {
  }

  /** Requests other than GET never read or write the cache. */
  lemma NonGetLeavesCache(api: Api, path: string, init: Init, first: Attempt, retry: Attempt)
    requires !IsGet(init.verb)
    ensures Request(api, path, init, first, retry).api == api
    ensures forall c :: c in Request(api, path, init, first, retry).calls ==>
      ("If-None-Match" in c.headers <==> "If-None-Match" in init.headers)
  {
  }

  /**
   * The ETag round trip: a GET that stored data under an ETag, followed by a
   * GET of the same path answered 304, returns that data without a retry,
   * having sent the stored ETag as `If-None-Match`.
   */
  lemma EtagRoundTrip(api: Api, path: string, a1: Attempt, r1: Attempt, a2: Attempt, r2: Attempt)
    requires a1.Attempt? && a1.reply.status != 401
    requires Stores(Init(None, map[], None, None), a1.reply)
    requires a2.Attempt? && a2.reply.status == 304
    ensures var first := Request(api, path, Init(None, map[], None, None), a1, r1);
      var second := Request(first.api, path, Init(None, map[], None, None), a2, r2);
      && first.outcome.Data?
      && second.outcome == first.outcome
      && second.api == first.api
      && |second.calls| == 1
      && second.calls[0].headers["If-None-Match"] == a1.reply.etag.value
  {
  }

  /** `get/post/put/patch/del`: the RequestInit each convenience method passes. */
  function GetInit(): Init { Init(None, map[], None, None) }
  function PostInit(b: Option<Json>): Init { Init(Some("POST"), map[], b, None) }
  function PutInit(b: Option<Json>): Init { Init(Some("PUT"), map[], b, None) }
  function PatchInit(b: Option<Json>): Init { Init(Some("PATCH"), map[], b, None) }
  function DelInit(): Init { Init(Some("DELETE"), map[], None, None) }

  /**
   * The convenience methods pass no headers, so every call they make carries
   * the JSON content type, `authorization` exactly when the token is truthy,
   * and `If-None-Match` exactly for a GET whose URL has a cached entry.
   */
  lemma ConvenienceHeaders(api: Api, url: string, init: Init, tok: Option<string>)
    requires WellFormed(api)
    requires init in {GetInit(), PostInit(init.body), PutInit(init.body), PatchInit(init.body), DelInit()}
    ensures var c := Call(url, init, CacheLookup(api, url), tok);
      && c.headers["content-type"] == JsonContentType
      && ("authorization" in c.headers <==> Present(tok))
      && (Present(tok) ==> c.headers["authorization"] == "Bearer " + tok.value)
      && ("If-None-Match" in c.headers <==> init == GetInit() && url in api.cache)
      && c.credentials == Include
  {
  }
}

=== FILE: errors.dfy ===
/** `humanizeApiError`: the status of an API error mapped to a user-facing message. */
module Errors {
  import opened Wrappers

  const SignIn := "Please sign in to continue."
  const NotAuthorized := "You are not authorized for this action."
  const Conflict := "Conflict. Please refresh."
  const Validation := "Validation error. Check your inputs."
  const Generic := "Something went wrong. Try again."

  /** `e?.status`, absent for a value without one. */
  function Humanize(status: Option<int>): (m: string)
    ensures status == Some(401) <==> m == SignIn
    ensures status == Some(403) <==> m == NotAuthorized
    ensures status == Some(409) <==> m == Conflict
    ensures status == Some(422) <==> m == Validation
    ensures m in {SignIn, NotAuthorized, Conflict, Validation, Generic}
  {
    if status == Some(401) then SignIn
    else if status == Some(403) then NotAuthorized
    else if status == Some(409) then Conflict
    else if status == Some(422) then Validation
    else Generic
  }

  /** Every other status, and a missing one, gives the generic message. */
  lemma OtherStatusesAreGeneric(status: Option<int>)
    requires status !in {Some(401), Some(403), Some(409), Some(422)}
    ensures Humanize(status) == Generic
  {
  }
}

=== FILE: exercise_detail.dfy ===
/**
 * The exercise detail page: which muscle lists the Stimulus tab receives,
 * how it turns region codes into display names, how an empty list is shown,
 * and when the coaching-cue and common-fault sections appear.
 */
module ExerciseDetail {
  import opened Wrappers
  import Lists
  import Text
  import ExerciseTypes

  /** `a || b` on an optional array: any present array is truthy, even an empty one. */
  function OrList(a: Option<seq<string>>, b: Option<seq<string>>): (r: Option<seq<string>>)
    ensures a.Some? ==> r == a
    ensures a.None? ==> r == b
  {
    if a.Some? then a else b
  }

  /** The lists handed to Stimulus: codes when present, else names, else `[]` (`primary || []`). */
  function StimulusInput(codes: Option<seq<string>>, names: Option<seq<string>>): (r: seq<string>)
    ensures codes.Some? ==> r == codes.value
    ensures codes.None? && names.Some? ==> r == names.value
    ensures codes.None? && names.None? ==> r == []
  {
    OrList(codes, names).GetOr([])
  }

  /**
   * A parsed exercise always carries both code lists (defaulted to `[]`), so
   * Stimulus receives the codes even when they are empty and the name lists
   * are not.
   */
  lemma ParsedUsesCodes(primary: Option<seq<string>>, secondary: Option<seq<string>>,
                        primaryCodes: Option<seq<string>>, secondaryCodes: Option<seq<string>>)
    ensures var m := ExerciseTypes.MuscleDefaults(primary, secondary, primaryCodes, secondaryCodes);
      StimulusInput(Some(m.primaryCodes), Some(m.primary)) == primaryCodes.GetOr([]) &&
      StimulusInput(Some(m.secondaryCodes), Some(m.secondary)) == secondaryCodes.GetOr([])
  {
  }

  /** With the codes absent from the payload, the names are ignored all the same once parsed. */
  lemma NamesNeverShownWhenParsed(names: seq<string>)
    requires |names| > 0
    ensures var m := ExerciseTypes.MuscleDefaults(Some(names), Some(names), None, None);
      StimulusInput(Some(m.primaryCodes), Some(m.primary)) == [] &&
      StimulusInput(Some(m.secondaryCodes), Some(m.secondary)) == []
  {
  }

  /** `codeToName` built from the metadata regions; no metadata gives an empty map. */
  function RegionNames(regions: Option<seq<ExerciseTypes.MuscleRegion>>): map<string, string> {
    ExerciseTypes.CodeToName(regions.GetOr([]))
  }

  /** `arr.map(v => codeToName.get(v) || v)`. */
  function NormalizeNames(arr: seq<string>, codeToName: map<string, string>): (r: seq<string>)
    ensures |r| == |arr|
    ensures forall i :: 0 <= i < |arr| ==> r[i] == arr[i] || (arr[i] in codeToName && r[i] == codeToName[arr[i]])
    ensures forall i :: 0 <= i < |arr| && arr[i] !in codeToName ==> r[i] == arr[i]
    ensures forall i :: 0 <= i < |arr| && arr[i] in codeToName && codeToName[arr[i]] != "" ==> r[i] == codeToName[arr[i]]
    ensures forall i :: 0 <= i < |arr| && arr[i] in codeToName && codeToName[arr[i]] == "" ==> r[i] == arr[i]
  {
    Lists.Map(arr, (v: string) => ExerciseTypes.LookupOr(codeToName, v))
  }

  /**
   * A value that is the code of region `j`, where no later region reuses that
   * code and the region's name is non-empty, is shown as that name.
   */
  lemma KnownCodeShowsName(arr: seq<string>, regions: seq<ExerciseTypes.MuscleRegion>, i: int, j: int)
    requires 0 <= i < |arr| && 0 <= j < |regions|
    requires arr[i] == regions[j].code && regions[j].name != ""
    requires forall k :: j < k < |regions| ==> regions[k].code != regions[j].code
    ensures NormalizeNames(arr, RegionNames(Some(regions)))[i] == regions[j].name
  {
    var ps := ExerciseTypes.CodePairs(regions);
    assert Lists.LastForKey(ps, j);
    Lists.FromPairsLastWins(ps, j);
  }

  /** A value that is no region's code is shown unchanged. */
  lemma UnknownValueUnchanged(arr: seq<string>, regions: seq<ExerciseTypes.MuscleRegion>, i: int)
    requires 0 <= i < |arr|
    requires forall k :: 0 <= k < |regions| ==> regions[k].code != arr[i]
    ensures NormalizeNames(arr, RegionNames(Some(regions)))[i] == arr[i]
  {
    var ps := ExerciseTypes.CodePairs(regions);
    Lists.FromPairsKeys(ps, arr[i]);
  }

  /** Without metadata every value is shown as given. */
  lemma NoMetaIdentity(arr: seq<string>)
    ensures NormalizeNames(arr, RegionNames(None)) == arr
  {
  }

  /** The dash shown for an empty muscle list. */
  const EmDash := "—"

  /** `names.join(', ') || '—'`. */
  function MuscleLine(names: seq<string>): (r: string)
    ensures r == EmDash <==> Text.Join(names, ", ") == "" || Text.Join(names, ", ") == EmDash
    ensures r != "" && (r != EmDash ==> r == Text.Join(names, ", "))
    ensures |names| == 0 ==> r == EmDash
  {
    var joined := Text.Join(names, ", ");
    if joined == "" then EmDash else joined
  }

  /** The dash appears for an empty list, or for a single empty name, and for nothing else without a dash in it. */
  lemma DashOnlyForEmpty(names: seq<string>)
    requires forall i :: 0 <= i < |names| ==> names[i] != EmDash
    ensures MuscleLine(names) == EmDash <==> |names| == 0 || (|names| == 1 && names[0] == "")
  {
    Text.JoinEmptyIff(names, ", ");
    if |names| >= 2 {
      assert |Text.Join(names, ", ")| >= 2;
      assert |EmDash| == 1;
    }
  }

  /** What the Stimulus tab shows beside the map. */
  datatype Stimulus = Stimulus(primaryNames: seq<string>, secondaryNames: seq<string>,
                               primaryLine: string, secondaryLine: string)

  /** The Stimulus tab for a muscle-list pair and the (possibly missing) metadata regions. */
  function StimulusView(primary: seq<string>, secondary: seq<string>,
                        regions: Option<seq<ExerciseTypes.MuscleRegion>>): (s: Stimulus)
    ensures |s.primaryNames| == |primary| && |s.secondaryNames| == |secondary|
    ensures regions.None? ==> s.primaryNames == primary && s.secondaryNames == secondary
    ensures |primary| == 0 ==> s.primaryLine == EmDash
    ensures |secondary| == 0 ==> s.secondaryLine == EmDash
  {
    var m := RegionNames(regions);
    var p := NormalizeNames(primary, m);
    var q := NormalizeNames(secondary, m);
    Stimulus(p, q, MuscleLine(p), MuscleLine(q))
  }

  /** `(xs && xs.length > 0)`: a section renders only for a present, non-empty list. */
  function ShowsSection(xs: Option<seq<string>>): (r: bool)
    ensures r <==> xs.Some? && |xs.value| > 0
  {
    match xs
    case None => false
    case Some(v) => |v| > 0
  }

  /** Which of the coaching-cue and common-fault sections the instructions tab shows. */
  datatype Sections = Sections(cues: bool, faults: bool)

  function InstructionSections(cues: Option<seq<string>>, faults: Option<seq<string>>): (r: Sections)
    ensures r.cues <==> cues.Some? && cues.value != []
    ensures r.faults <==> faults.Some? && faults.value != []
  {
    Sections(ShowsSection(cues), ShowsSection(faults))
  }
}

=== FILE: exercise_form.dfy ===
/**
 * The admin exercise form's data handling: toggling muscle codes, backfilling
 * codes from names, the cleaning and muscle sanitisation done on submit, the
 * schema check that gates the request, and inserting and removing
 * instruction steps.
 */
module ExerciseForm {
  import opened Wrappers
  import Lists
  import Text
  import ExerciseTypes
  import BodyPart

  /**
   * The form state. The demo start second is a whole number: the number input
   * yields either a number or nothing, never NaN.
   */
  datatype Form = Form(
    name: string,
    modality: string,
    category: string,
    equipment: seq<string>,
    bodyPartFocus: string,
    primaryCodes: seq<string>,
    secondaryCodes: seq<string>,
    primaryNames: seq<string>,
    secondaryNames: seq<string>,
    difficulty: Option<string>,
    instructions: seq<string>,
    tags: seq<string>,
    cues: seq<string>,
    faults: seq<string>,
    videoUrl: Option<string>,
    videoUrlHls: Option<string>,
    thumbnailUrl: Option<string>,
    demoStartSec: Option<int>)

  /** What is sent: the form without the two name lists. */
  datatype Payload = Payload(
    name: string,
    modality: string,
    category: string,
    equipment: seq<string>,
    bodyPartFocus: string,
    primaryCodes: seq<string>,
    secondaryCodes: seq<string>,
    difficulty: Option<string>,
    instructions: seq<string>,
    tags: seq<string>,
    cues: seq<string>,
    faults: seq<string>,
    videoUrl: Option<string>,
    videoUrlHls: Option<string>,
    thumbnailUrl: Option<string>,
    demoStartSec: Option<int>)

  datatype CodeList = PrimaryCodes | SecondaryCodes

  /**
   * `toggleCode(list, code)`: flips one code in one list, keeping first-seen
   * order and appending a new code; the other list is untouched. The form
   * defines this helper but none of its controls calls it: the muscle pickers
   * go through `SelectMuscles`.
   */
  function ToggleCode(f: Form, list: CodeList, code: string): (r: Form)
    ensures list == PrimaryCodes ==> r == f.(primaryCodes := r.primaryCodes)
    ensures list == SecondaryCodes ==> r == f.(secondaryCodes := r.secondaryCodes)
    ensures var before := if list == PrimaryCodes then f.primaryCodes else f.secondaryCodes;
      var after := if list == PrimaryCodes then r.primaryCodes else r.secondaryCodes;
      && Lists.NoDups(after)
      && (code in after <==> code !in before)
      && (forall c :: c != code ==> (c in after <==> c in before))
      && Lists.FirstSeenOrder(after, before)
      && (code !in before ==> |after| > 0 && after[|after| - 1] == code)
  {
    match list
    case PrimaryCodes => f.(primaryCodes := Lists.SetToggle(f.primaryCodes, code))
    case SecondaryCodes => f.(secondaryCodes := Lists.SetToggle(f.secondaryCodes, code))
  }

  /**
   * The backfill for one list: when the codes are empty and the names are
   * not, each name is replaced by its code (or kept); otherwise the codes stay.
   */
  function Backfill(codes: seq<string>, names: seq<string>, nameToCode: map<string, string>): (r: seq<string>)
    ensures !(|codes| == 0 && |names| > 0) ==> r == codes
    ensures |codes| == 0 && |names| > 0 ==>
      |r| == |names| && forall i :: 0 <= i < |names| ==>
        r[i] == names[i] || (names[i] in nameToCode && r[i] == nameToCode[names[i]])
    ensures |codes| == 0 && |names| > 0 ==>
      forall i :: 0 <= i < |names| && names[i] in nameToCode && nameToCode[names[i]] != "" ==>
        r[i] == nameToCode[names[i]]
    ensures |codes| == 0 && |names| > 0 ==>
      forall i :: 0 <= i < |names| && (names[i] !in nameToCode || nameToCode[names[i]] == "") ==>
        r[i] == names[i]
  {
    if |codes| == 0 && |names| > 0 then Lists.Map(names, n => ExerciseTypes.LookupOr(nameToCode, n)) else codes
  }

  /** The backfill effect when the muscle metadata arrives: both lists, nothing else. */
  function BackfillForm(f: Form, regions: seq<ExerciseTypes.MuscleRegion>): (r: Form)
    ensures r == f.(primaryCodes := r.primaryCodes, secondaryCodes := r.secondaryCodes)
    ensures r.primaryCodes == Backfill(f.primaryCodes, f.primaryNames, ExerciseTypes.NameToCode(regions))
    ensures r.secondaryCodes == Backfill(f.secondaryCodes, f.secondaryNames, ExerciseTypes.NameToCode(regions))
  {
    var m := ExerciseTypes.NameToCode(regions);
    f.(primaryCodes := Backfill(f.primaryCodes, f.primaryNames, m),
       secondaryCodes := Backfill(f.secondaryCodes, f.secondaryNames, m))
  }

  /** A region's name backfills to that region's code when no later region reuses the name. */
  lemma BackfillUsesRegionCode(regions: seq<ExerciseTypes.MuscleRegion>, k: int)
    requires 0 <= k < |regions| && regions[k].code != ""
    requires forall j :: k < j < |regions| ==> regions[j].name != regions[k].name
    ensures ExerciseTypes.LookupOr(ExerciseTypes.NameToCode(regions), regions[k].name) == regions[k].code
  {
    var ps := ExerciseTypes.NamePairs(regions);
    assert Lists.LastForKey(ps, k);
    Lists.FromPairsLastWins(ps, k);
  }

  /** No whitespace at either end and not empty: what a kept step or phrase looks like. */
  predicate Tidy(s: string) {
    s != "" && !Text.IsSpace(s[0]) && !Text.IsSpace(s[|s| - 1])
  }

  /** `Boolean` as a filter on strings. */
  predicate NonBlank(s: string) {
    s != ""
  }

  /** Instruction cleaning, `.map(s => s.trim()).filter(Boolean)`: the non-empty trimmed steps, in order. */
  function CleanSteps(xs: seq<string>): (r: seq<string>)
    ensures |r| <= |xs|
    ensures forall t :: t in r <==> t in Lists.Map(xs, Text.Trim) && t != ""
    ensures Lists.IsSubsequence(r, Lists.Map(xs, Text.Trim))
    ensures forall t {:trigger multiset(r)[t]} :: multiset(r)[t] == if t != "" then multiset(Lists.Map(xs, Text.Trim))[t] else 0
  {
    var trimmed := Lists.Map(xs, Text.Trim);
    Lists.FilterIsSubsequence(trimmed, NonBlank);
    Lists.Filter(trimmed, NonBlank)
  }

  /** A string is kept exactly when it is the non-empty cleaned form of some input. */
  lemma CleanStepsMembers(xs: seq<string>, t: string)
    ensures t in CleanSteps(xs) <==> t != "" && exists i :: 0 <= i < |xs| && t == Text.Trim(xs[i])
  {
    Lists.MapMembers(xs, Text.Trim);
  }

  /** Every kept step is non-empty with no whitespace at either end. */
  lemma CleanStepTidy(xs: seq<string>, t: string)
    requires t in CleanSteps(xs)
    ensures Tidy(t)
  {
    CleanStepsMembers(xs, t);
    var i :| 0 <= i < |xs| && t == Text.Trim(xs[i]);
  }

  /** Cleaning leaves no step exactly when every step was whitespace only. */
  lemma CleanStepsEmpty(xs: seq<string>)
    ensures CleanSteps(xs) == [] <==> forall i :: 0 <= i < |xs| ==> Text.AllSpace(xs[i])
  {
    var r := CleanSteps(xs);
    if r == [] {
      forall i | 0 <= i < |xs| ensures Text.AllSpace(xs[i]) {
        CleanStepsMembers(xs, Text.Trim(xs[i]));
      }
    } else {
      CleanStepsMembers(xs, r[0]);
    }
  }

  /** No whitespace other than a plain space, and never two whitespace characters in a row. */
  predicate Collapsed(s: string) {
    && (forall i :: 0 <= i < |s| ==> (Text.IsSpace(s[i]) ==> s[i] == ' '))
    && (forall i :: 0 <= i < |s| - 1 ==> !(Text.IsSpace(s[i]) && Text.IsSpace(s[i + 1])))
  }

  lemma InfixCollapsed(c: string, a: int, n: int)
    requires Collapsed(c) && 0 <= a <= a + n <= |c|
    ensures Collapsed(c[a..a + n])
  {
    var r := c[a..a + n];
    assert forall i :: 0 <= i < |r| ==> r[i] == c[a + i];
  }

  /** One cue or fault, `s.replace(/\s+/g, ' ').trim()`. */
  function CleanPhrase(s: string): (r: string)
    ensures |r| <= |s|
  {
    Text.Trim(Text.CollapseSpaces(s))
  }

  /**
   * Cleaning a phrase is an independent two-step recipe: turn every whitespace
   * character into a space, shorten each run of spaces to one, then trim.
   */
  lemma CleanPhraseIsTrimmedSqueeze(s: string)
    ensures CleanPhrase(s) == Text.Trim(Text.Squeeze(Text.SpaceOut(s)))
  {
    Text.CollapseIsSqueeze(s);
  }

  /** A cleaned phrase is empty or has no whitespace at its ends. */
  lemma CleanPhraseEnds(s: string)
    ensures CleanPhrase(s) == "" || Tidy(CleanPhrase(s))
  {
  }

  /** A cleaned phrase has only plain spaces and never two in a row. */
  lemma CleanPhraseCollapsed(s: string)
    ensures Collapsed(CleanPhrase(s))
  {
    var c := Text.CollapseSpaces(s);
    var r := Text.Trim(c);
    Text.TrimMargins(c);
    InfixCollapsed(c, Text.LeadingSpaces(c), |r|);
  }

  /** A cleaned phrase is empty exactly when the input was whitespace only. */
  lemma CleanPhraseEmpty(s: string)
    ensures CleanPhrase(s) == "" <==> Text.AllSpace(s)
  {
    if Text.AllSpace(s) {
      AllSpaceCollapse(s);
    } else {
      NonSpaceSurvives(s);
    }
  }

  /** Whitespace-only input collapses to nothing or a single space. */
  lemma AllSpaceCollapse(s: string)
    requires Text.AllSpace(s)
    ensures Text.AllSpace(Text.CollapseSpaces(s))
  {
    if s != "" {
      var rest := Text.TrimStart(s);
      assert Text.CollapseSpaces(s) == " ";
    }
  }

  /** A non-whitespace character survives `CollapseSpaces`. */
  lemma NonSpaceSurvives(s: string)
    requires !Text.AllSpace(s)
    ensures !Text.AllSpace(Text.CollapseSpaces(s))
  {
    var c := Text.CollapseSpaces(s);
    if !Text.IsSpace(s[0]) {
      assert !Text.IsSpace(c[0]);
    } else {
      var rest := Text.TrimStart(s);
      assert rest != "" by {
        assert s[..|s|] == s;
      }
      assert c == " " + Text.CollapseSpaces(rest);
      assert !Text.IsSpace(c[1]);
    }
  }

  /** Cue and fault cleaning, `.map(clean).filter(Boolean)`: the non-empty cleaned phrases, in order. */
  function CleanPhrases(xs: seq<string>): (r: seq<string>)
    ensures |r| <= |xs|
    ensures forall t :: t in r <==> t in Lists.Map(xs, CleanPhrase) && t != ""
    ensures Lists.IsSubsequence(r, Lists.Map(xs, CleanPhrase))
    ensures forall t {:trigger multiset(r)[t]} :: multiset(r)[t] == if t != "" then multiset(Lists.Map(xs, CleanPhrase))[t] else 0
  {
    var cleaned := Lists.Map(xs, CleanPhrase);
    Lists.FilterIsSubsequence(cleaned, NonBlank);
    Lists.Filter(cleaned, NonBlank)
  }

  /** A string is kept exactly when it is the non-empty cleaned form of some input. */
  lemma CleanPhrasesMembers(xs: seq<string>, t: string)
    ensures t in CleanPhrases(xs) <==> t != "" && exists i :: 0 <= i < |xs| && t == CleanPhrase(xs[i])
  {
    Lists.MapMembers(xs, CleanPhrase);
  }

  /** Every kept cue or fault is non-empty, has no whitespace at its ends, and no whitespace run. */
  lemma CleanPhraseKept(xs: seq<string>, t: string)
    requires t in CleanPhrases(xs)
    ensures Tidy(t) && Collapsed(t)
  {
    CleanPhrasesMembers(xs, t);
    var i :| 0 <= i < |xs| && t == CleanPhrase(xs[i]);
    CleanPhraseEnds(xs[i]);
    CleanPhraseCollapsed(xs[i]);
  }

  /** The `cleaned` object of `onSubmit`, before sanitisation. */
  function Clean(f: Form): (r: Form)
    ensures r.name == Text.Trim(f.name) && r.category == Text.Trim(f.category)
    ensures r.instructions == CleanSteps(f.instructions)
    ensures r.cues == CleanPhrases(f.cues) && r.faults == CleanPhrases(f.faults)
    ensures r.modality == f.modality && r.equipment == f.equipment && r.bodyPartFocus == f.bodyPartFocus
    ensures r.primaryCodes == f.primaryCodes && r.secondaryCodes == f.secondaryCodes
    ensures r.primaryNames == f.primaryNames && r.secondaryNames == f.secondaryNames
    ensures r.difficulty == f.difficulty && r.tags == f.tags
    ensures r.videoUrl == f.videoUrl && r.videoUrlHls == f.videoUrlHls
    ensures r.thumbnailUrl == f.thumbnailUrl && r.demoStartSec == f.demoStartSec
  {
    f.(name := Text.Trim(f.name), category := Text.Trim(f.category),
       instructions := CleanSteps(f.instructions),
       cues := CleanPhrases(f.cues), faults := CleanPhrases(f.faults))
  }

  /** The primaries kept: the first three primary codes that are known, in order. */
  function KeptPrimaries(primary: seq<string>, known: set<string>): (r: seq<string>)
    ensures |r| <= 3
    ensures forall c :: c in r ==> c in known && c in primary
    ensures Lists.IsSubsequence(r, primary)
    ensures known == {} ==> r == []
  {
    var prim := Lists.Filter(primary, c => c in known);
    var kept := Lists.Take(prim, 3);
    Lists.FilterIsSubsequence(primary, c => c in known);
    Lists.PrefixIsSubsequence(prim, |kept|);
    Lists.SubsequenceTrans(kept, prim, primary);
    assert forall c :: c in kept ==> c in prim;
    assert known == {} ==> kept == [] by {
      if known == {} {
        Lists.NoMembersEmpty(kept);
      }
    }
    kept
  }

  /** The secondaries kept: every occurrence of a known secondary code that is not a kept primary, in order. */
  function KeptSecondaries(secondary: seq<string>, known: set<string>, primaries: seq<string>): (r: seq<string>)
    ensures forall c :: c in r <==> c in known && c in secondary && c !in primaries
    ensures Lists.IsSubsequence(r, secondary)
    ensures forall c {:trigger multiset(r)[c]} :: multiset(r)[c] == if c in known && c !in primaries then multiset(secondary)[c] else 0
  {
    var sec0 := Lists.Filter(secondary, c => c in known);
    var sec := Lists.Filter(sec0, c => c !in primaries);
    Lists.FilterIsSubsequence(secondary, c => c in known);
    Lists.FilterIsSubsequence(sec0, c => c !in primaries);
    Lists.SubsequenceTrans(sec, sec0, secondary);
    sec
  }

  /**
   * Muscle sanitisation against the known region codes: the primaries are the
   * first three known primary codes, and the secondaries the known secondary
   * codes that are not among those primaries.
   */
  function Sanitize(primary: seq<string>, secondary: seq<string>, known: set<string>): (r: (seq<string>, seq<string>))
    ensures |r.0| <= 3
    ensures forall c :: c in r.0 ==> c in known && c in primary
    ensures forall c :: c in r.1 ==> c in known && c in secondary && c !in r.0
    ensures forall c :: c in secondary && c in known && c !in r.0 ==> c in r.1
    ensures Lists.IsSubsequence(r.0, primary) && Lists.IsSubsequence(r.1, secondary)
    ensures forall c {:trigger multiset(r.1)[c]} :: multiset(r.1)[c] == if c in known && c !in r.0 then multiset(secondary)[c] else 0
    ensures known == {} ==> r.0 == [] && r.1 == []
  {
    var prim := KeptPrimaries(primary, known);
    var sec := KeptSecondaries(secondary, known, prim);
    assert known == {} ==> sec == [] by {
      if known == {} {
        Lists.NoMembersEmpty(sec);
      }
    }
    (prim, sec)
  }

  /** Sanitisation keeps the first known primaries: as many as exist, up to three. */
  lemma SanitizeKeepsFirstThree(primary: seq<string>, secondary: seq<string>, known: set<string>)
    ensures var prim := Lists.Filter(primary, c => c in known);
      Sanitize(primary, secondary, known).0 == prim[..if |prim| < 3 then |prim| else 3]
  {
  }

  const Modalities: set<string> := {"Gymnastics", "Weightlifting", "Monostructural"}
  const Difficulties: set<string> := {"Beginner", "Intermediate", "Advanced"}

  /** An optional URL field passes `z.string().url().optional()`: absent, or a string the URL test accepts. */
  predicate UrlOk(u: Option<string>, isUrl: string -> bool) {
    u.None? || isUrl(u.value)
  }

  /** The form fields the schema can reject, named as in `fieldErrors`. */
  datatype FieldKey = NameKey | CategoryKey | InstructionsKey | ModalityKey | BodyPartFocusKey | DifficultyKey
                    | VideoUrlKey | VideoUrlHlsKey | ThumbnailUrlKey

  /**
   * The fields `ExerciseSchema.safeParse` reports for a cleaned form; `isUrl`
   * is the URL test zod applies to the three media fields.
   */
  function SchemaErrors(f: Form, isUrl: string -> bool): (e: set<FieldKey>)
    ensures NameKey in e <==> f.name == ""
    ensures CategoryKey in e <==> f.category == ""
    ensures InstructionsKey in e <==> f.instructions == []
    ensures ModalityKey in e <==> f.modality !in Modalities
    ensures BodyPartFocusKey in e <==> f.bodyPartFocus !in BodyPart.BodyParts
    ensures DifficultyKey in e <==> f.difficulty.Some? && f.difficulty.value !in Difficulties
    ensures VideoUrlKey in e <==> !UrlOk(f.videoUrl, isUrl)
    ensures VideoUrlHlsKey in e <==> !UrlOk(f.videoUrlHls, isUrl)
    ensures ThumbnailUrlKey in e <==> !UrlOk(f.thumbnailUrl, isUrl)
  {
    set k | k in AllKeys && Rejected(f, isUrl, k)
  }

  const AllKeys: set<FieldKey> := {NameKey, CategoryKey, InstructionsKey, ModalityKey, BodyPartFocusKey,
                                   DifficultyKey, VideoUrlKey, VideoUrlHlsKey, ThumbnailUrlKey}

  /** Whether the schema rule for field `k` rejects the cleaned form. */
  predicate Rejected(f: Form, isUrl: string -> bool, k: FieldKey) {
    match k
    case NameKey => f.name == ""
    case CategoryKey => f.category == ""
    case InstructionsKey => f.instructions == []
    case ModalityKey => f.modality !in Modalities
    case BodyPartFocusKey => f.bodyPartFocus !in BodyPart.BodyParts
    case DifficultyKey => f.difficulty.Some? && f.difficulty.value !in Difficulties
    case VideoUrlKey => !UrlOk(f.videoUrl, isUrl)
    case VideoUrlHlsKey => !UrlOk(f.videoUrlHls, isUrl)
    case ThumbnailUrlKey => !UrlOk(f.thumbnailUrl, isUrl)
  }

  /** What submitting does: report field errors, or send a create or an update. */
  datatype Submission = Invalid(fields: set<FieldKey>) | Create(payload: Payload) | Update(id: string, payload: Payload)

  function ToPayload(f: Form): Payload {
    Payload(f.name, f.modality, f.category, f.equipment, f.bodyPartFocus, f.primaryCodes, f.secondaryCodes,
            f.difficulty, f.instructions, f.tags, f.cues, f.faults,
            f.videoUrl, f.videoUrlHls, f.thumbnailUrl, f.demoStartSec)
  }

  /** `onSubmit`: clean, sanitise against the known codes, validate, then create or update. */
  function Submit(f: Form, regions: seq<ExerciseTypes.MuscleRegion>, initialId: Option<string>, isUrl: string -> bool): (r: Submission)
    ensures var c := Clean(f);
      var (p, s) := Sanitize(c.primaryCodes, c.secondaryCodes, KnownCodes(regions));
      var checked := c.(primaryCodes := p, secondaryCodes := s);
      && (r.Invalid? <==> SchemaErrors(checked, isUrl) != {})
      && (r.Invalid? ==> r.fields == SchemaErrors(checked, isUrl))
      && (!r.Invalid? ==> r.payload == ToPayload(checked))
      && (r.Update? <==> SchemaErrors(checked, isUrl) == {} && initialId.Some? && initialId.value != "")
      && (r.Update? ==> r.id == initialId.value)
  {
    var c := Clean(f);
    var (p, s) := Sanitize(c.primaryCodes, c.secondaryCodes, KnownCodes(regions));
    var checked := c.(primaryCodes := p, secondaryCodes := s);
    var errors := SchemaErrors(checked, isUrl);
    if errors != {} then Invalid(errors)
    else if initialId.Some? && initialId.value != "" then Update(initialId.value, ToPayload(checked))
    else Create(ToPayload(checked))
  }

  /** The codes of the metadata regions; empty without metadata. */
  function KnownCodes(regions: seq<ExerciseTypes.MuscleRegion>): (k: set<string>)
    ensures forall c :: c in k <==> exists i :: 0 <= i < |regions| && regions[i].code == c
  {
    set i | 0 <= i < |regions| :: regions[i].code
  }

  /** All-blank instructions fail validation, so nothing is sent. */
  lemma BlankInstructionsBlockSubmit(f: Form, regions: seq<ExerciseTypes.MuscleRegion>, initialId: Option<string>, isUrl: string -> bool)
    requires forall i :: 0 <= i < |f.instructions| ==> Text.AllSpace(f.instructions[i])
    ensures Submit(f, regions, initialId, isUrl).Invalid?
    ensures InstructionsKey in Submit(f, regions, initialId, isUrl).fields
  {
    CleanStepsEmpty(f.instructions);
  }

  /** Without muscle metadata both code lists are sent empty. */
  lemma NoMetadataNoCodes(f: Form, initialId: Option<string>, isUrl: string -> bool)
    ensures var r := Submit(f, [], initialId, isUrl);
      !r.Invalid? ==> r.payload.primaryCodes == [] && r.payload.secondaryCodes == []
  {
  }

  /**
   * A stored media URL that fails the URL test (say an empty string loaded
   * from the server) blocks the submit; valid or absent media are sent as they are.
   */
  lemma MediaUrlsChecked(f: Form, regions: seq<ExerciseTypes.MuscleRegion>, initialId: Option<string>, isUrl: string -> bool)
    ensures var r := Submit(f, regions, initialId, isUrl);
      && (!UrlOk(f.videoUrl, isUrl) ==> r.Invalid? && VideoUrlKey in r.fields)
      && (!UrlOk(f.videoUrlHls, isUrl) ==> r.Invalid? && VideoUrlHlsKey in r.fields)
      && (!UrlOk(f.thumbnailUrl, isUrl) ==> r.Invalid? && ThumbnailUrlKey in r.fields)
      && (!r.Invalid? ==> r.payload.videoUrl == f.videoUrl && r.payload.videoUrlHls == f.videoUrlHls
                          && r.payload.thumbnailUrl == f.thumbnailUrl && r.payload.demoStartSec == f.demoStartSec)
  {
  }

  /** `arr.splice(i + 1, 0, '')` with JavaScript's clamping of the start index. */
  function AddStepAt(steps: seq<string>, i: int): (r: seq<string>)
    ensures |r| == |steps| + 1
    ensures var p := SpliceIndex(|steps|, i + 1);
      r[p] == "" && r[..p] == steps[..p] && r[p + 1..] == steps[p..]
  {
    var p := SpliceIndex(|steps|, i + 1);
    steps[..p] + [""] + steps[p..]
  }

  /** Where `splice(start, ...)` acts on a list of length `n`. */
  function SpliceIndex(n: nat, start: int): (p: nat)
    ensures p <= n
    ensures 0 <= start <= n ==> p == start
  {
    if start > n then n
    else if start >= 0 then start
    else if n + start > 0 then n + start else 0
  }

  /** `removeStep(i)`: drops index `i` only, if it exists. */
  function RemoveStep(steps: seq<string>, i: int): (r: seq<string>)
    ensures 0 <= i < |steps| ==> |r| == |steps| - 1 && r == steps[..i] + steps[i + 1..]
    ensures !(0 <= i < |steps|) ==> r == steps
  {
    if 0 <= i < |steps| then steps[..i] + steps[i + 1..] else steps
  }

  /** Removing the step just inserted after `i` gives the list back. */
  lemma RemoveUndoesAdd(steps: seq<string>, i: int)
    requires 0 <= i < |steps|
    ensures RemoveStep(AddStepAt(steps, i), i + 1) == steps
  {
    var r := AddStepAt(steps, i);
    assert r[..i + 1] == steps[..i + 1];
    assert r[i + 2..] == steps[i + 1..];
    assert steps == steps[..i + 1] + steps[i + 1..];
  }

  /** Backspace in step `i`: removes it only when it is empty and not the only step. */
  function Backspace(steps: seq<string>, i: int, current: string): (r: seq<string>)
    ensures |steps| <= 1 || current != "" ==> r == steps
    ensures current == "" && |steps| > 1 && 0 <= i < |steps| ==> |r| == |steps| - 1
    ensures |r| >= 1 || |steps| == 0
  {
    if current == "" && |steps| > 1 then RemoveStep(steps, i) else steps
  }

  /** Typing in step `i`: that step gets the new text, the others stay. */
  function EditStep(steps: seq<string>, i: int, text: string): (r: seq<string>)
    ensures |r| == |steps|
    ensures forall j :: 0 <= j < |steps| ==> r[j] == (if j == i then text else steps[j])
  {
    seq(|steps|, j requires 0 <= j < |steps| => if j == i then text else steps[j])
  }

  /** The name a code has in the metadata, or the empty string (`codeToName.get(c)` then `filter(Boolean)`). */
  function CodeName(codeToName: map<string, string>, c: string): string {
    if c in codeToName then codeToName[c] else ""
  }

  /** `c => codeToName.get(c)`, with a missing name read as the empty string. */
  function NameLookup(codeToName: map<string, string>): string -> string {
    c => CodeName(codeToName, c)
  }

  /**
   * A muscle multi-select change: the codes become the selection and, once
   * the metadata is there, the names become the known, non-empty names of
   * the selected codes.
   */
  function SelectMuscles(f: Form, list: CodeList, next: seq<string>, meta: Option<seq<ExerciseTypes.MuscleRegion>>): (r: Form)
    ensures list == PrimaryCodes ==> r == f.(primaryCodes := next, primaryNames := r.primaryNames)
    ensures list == SecondaryCodes ==> r == f.(secondaryCodes := next, secondaryNames := r.secondaryNames)
    ensures meta.None? ==> r.primaryNames == f.primaryNames && r.secondaryNames == f.secondaryNames
    ensures meta.Some? ==>
      var names := if list == PrimaryCodes then r.primaryNames else r.secondaryNames;
      var m := ExerciseTypes.CodeToName(meta.value);
      && |names| <= |next|
      && (forall n :: n in names <==> n != "" && exists i :: 0 <= i < |next| && next[i] in m && m[next[i]] == n)
      && Lists.IsSubsequence(names, Lists.Map(next, NameLookup(m)))
      && forall n {:trigger multiset(names)[n]} ::
           multiset(names)[n] == if n != "" then multiset(Lists.Map(next, NameLookup(m)))[n] else 0
  {
    var names := if meta.Some? then SelectedNames(next, ExerciseTypes.CodeToName(meta.value)) else [];
    match list
    case PrimaryCodes =>
      f.(primaryCodes := next, primaryNames := if meta.Some? then names else f.primaryNames)
    case SecondaryCodes =>
      f.(secondaryCodes := next, secondaryNames := if meta.Some? then names else f.secondaryNames)
  }

  function SelectedNames(next: seq<string>, m: map<string, string>): (r: seq<string>)
    ensures |r| <= |next|
    ensures forall n :: n in r <==> n != "" && exists i :: 0 <= i < |next| && next[i] in m && m[next[i]] == n
    ensures Lists.IsSubsequence(r, Lists.Map(next, NameLookup(m)))
    ensures forall n {:trigger multiset(r)[n]} :: multiset(r)[n] == if n != "" then multiset(Lists.Map(next, NameLookup(m)))[n] else 0
  {
    var looked := Lists.Map(next, NameLookup(m));
    Lists.MapMembers(next, NameLookup(m));
    Lists.FilterIsSubsequence(looked, NonBlank);
    Lists.Filter(looked, NonBlank)
  }
}

=== FILE: exercise_types.dfy ===
/**
 * The hand-written parts of the exercise schemas: the body-part-focus
 * normaliser that runs before the enum check, and the defaults the schemas
 * supply for absent fields.
 */
module ExerciseTypes {
  import opened Wrappers
  import opened Json
  import Text
  import Lists
  import BodyPart

  /**
   * The preprocess step: a string whose squashed form is one of the four
   * known spellings becomes the canonical value; anything else, strings and
   * non-strings alike, passes through unchanged.
   */
  function Normalize(v: Json): (r: Json)
    ensures !v.JStr? ==> r == v
    ensures v.JStr? && BodyPart.Canonical(BodyPart.Squash(v.s)).Some? ==> r == JStr(BodyPart.Canonical(BodyPart.Squash(v.s)).value)
    ensures v.JStr? && BodyPart.Canonical(BodyPart.Squash(v.s)).None? ==> r == v
    ensures r == v || (r.JStr? && r.s in BodyPart.BodyParts)
  {
    match v
    case JStr(s) =>
      var c := BodyPart.Canonical(BodyPart.Squash(s));
      if c.Some? then JStr(c.value) else v
    case _ => v
  }

  /** Each canonical value normalises to itself. */
  lemma NormalizeFixesCanonical(b: string)
    requires b in BodyPart.BodyParts
    ensures Normalize(JStr(b)) == JStr(b)
  {
    BodyPart.CanonicalRoundTrip(b);
  }

  /** Normalising twice is normalising once. */
  lemma NormalizeIdempotent(v: Json)
    ensures Normalize(Normalize(v)) == Normalize(v)
  {
    if Normalize(v) != v {
      NormalizeFixesCanonical(Normalize(v).s);
    }
  }

  /** The preprocess followed by the enum: the canonical value, or a parse failure. */
  function ParseBodyPartFocus(v: Json): (r: Option<string>)
    ensures r.Some? ==> r.value in BodyPart.BodyParts
    ensures r.Some? <==> Normalize(v).JStr? && Normalize(v).s in BodyPart.BodyParts
    ensures r.Some? ==> r.value == Normalize(v).s
  {
    var n := Normalize(v);
    if n.JStr? && n.s in BodyPart.BodyParts then Some(n.s) else None
  }

  /**
   * For every input: a string parses exactly when its squashed form is a known
   * spelling, to the value that spelling stands for; anything else fails.
   */
  lemma ParseIsSquashLookup(v: Json)
    ensures v.JStr? ==> ParseBodyPartFocus(v) == BodyPart.Canonical(BodyPart.Squash(v.s))
    ensures !v.JStr? ==> ParseBodyPartFocus(v).None?
  {
    if v.JStr? && BodyPart.Canonical(BodyPart.Squash(v.s)).None? && v.s in BodyPart.BodyParts {
      BodyPart.CanonicalRoundTrip(v.s);
    }
  }

  /** A hyphenated spelling is not one of the known ones: it passes through and fails the enum. */
  lemma HyphenatedFails()
    ensures Normalize(JStr("full-body")) == JStr("full-body")
    ensures ParseBodyPartFocus(JStr("full-body")).None?
  {
    BodyPart.HyphenatedUnknown();
  }

  /** The four muscle lists of a parsed Exercise. */
  datatype Muscles = Muscles(primary: seq<string>, secondary: seq<string>,
                             primaryCodes: seq<string>, secondaryCodes: seq<string>)

  /** The four optional lists with `.default([])`: absent lists become empty. */
  function MuscleDefaults(primary: Option<seq<string>>, secondary: Option<seq<string>>,
                          primaryCodes: Option<seq<string>>, secondaryCodes: Option<seq<string>>): (m: Muscles)
    ensures primary.None? ==> m.primary == []
    ensures secondary.None? ==> m.secondary == []
    ensures primaryCodes.None? ==> m.primaryCodes == []
    ensures secondaryCodes.None? ==> m.secondaryCodes == []
    ensures primary.Some? ==> m.primary == primary.value
    ensures secondary.Some? ==> m.secondary == secondary.value
    ensures primaryCodes.Some? ==> m.primaryCodes == primaryCodes.value
    ensures secondaryCodes.Some? ==> m.secondaryCodes == secondaryCodes.value
  {
    Muscles(primary.GetOr([]), secondary.GetOr([]), primaryCodes.GetOr([]), secondaryCodes.GetOr([]))
  }

  /** Paging fields of a lean list response. */
  datatype ListMeta = ListMeta(page: int, limit: int, total: int)

  /** `LeanExerciseListResponse`: page 1, limit 24 and total 0 when absent. */
  function LeanListMeta(page: Option<int>, limit: Option<int>, total: Option<int>): (m: ListMeta)
    ensures m.page == (if page.Some? then page.value else 1)
    ensures m.limit == (if limit.Some? then limit.value else 24)
    ensures m.total == (if total.Some? then total.value else 0)
  {
    ListMeta(page.GetOr(1), limit.GetOr(24), total.GetOr(0))
  }

  /** A region of the muscle-map metadata; a null and an absent SVG id are both None. */
  datatype MuscleRegion = MuscleRegion(code: string, name: string, svgIdFront: Option<string>, svgIdBack: Option<string>)

  /** `(name, code)` for each region, in order. */
  function NamePairs(regions: seq<MuscleRegion>): (ps: seq<(string, string)>)
    ensures |ps| == |regions|
    ensures forall i :: 0 <= i < |regions| ==> ps[i] == (regions[i].name, regions[i].code)
  {
    Lists.Map(regions, (r: MuscleRegion) => (r.name, r.code))
  }

  /** `(code, name)` for each region, in order. */
  function CodePairs(regions: seq<MuscleRegion>): (ps: seq<(string, string)>)
    ensures |ps| == |regions|
    ensures forall i :: 0 <= i < |regions| ==> ps[i] == (regions[i].code, regions[i].name)
  {
    Lists.Map(regions, (r: MuscleRegion) => (r.code, r.name))
  }

  /** Region names to codes, filled region by region, so a later region wins on a repeated name. */
  function NameToCode(regions: seq<MuscleRegion>): map<string, string> {
    Lists.FromPairs(NamePairs(regions))
  }

  /** Region codes to names, filled region by region, so a later region wins on a repeated code. */
  function CodeToName(regions: seq<MuscleRegion>): map<string, string> {
    Lists.FromPairs(CodePairs(regions))
  }

  /** `m.get(n) || n`: the mapped value when present and non-empty, else the key itself. */
  function LookupOr(m: map<string, string>, n: string): (r: string)
    ensures r == n || (n in m && r == m[n])
    ensures n in m && m[n] != "" ==> r == m[n]
    ensures n !in m || m[n] == "" ==> r == n
  {
    if n in m && m[n] != "" then m[n] else n
  }
}

=== FILE: exercises_api.dfy ===
/**
 * The exercise data hooks: the default `fields` hint on list requests, the
 * page metadata of a list response that is not in the canonical shape, the
 * next-page prefetch, the facet-option fallback to the filter lists, the
 * routing of exercise updates, and the update error message.
 */
module ExercisesApi {
  import opened Wrappers
  import Lists
  import Text
  import SearchParams

  const FieldsHint := "id,name,thumbnailUrl,modality,bodyPartFocus,tags,musclesPrimaryCodes,musclesSecondaryCodes"

  /** The list query's parameters: the `fields` hint is added when the param is absent or empty. */
  function WithFields(s: SearchParams.Params): (r: SearchParams.Params)
    ensures SearchParams.Get(r, "fields").Some? && SearchParams.Get(r, "fields").value != ""
    ensures SearchParams.Get(s, "fields").Some? && SearchParams.Get(s, "fields").value != "" ==> r == s
    ensures SearchParams.Get(s, "fields").None? || SearchParams.Get(s, "fields").value == "" ==>
      SearchParams.GetAll(r, "fields") == [FieldsHint]
    ensures forall k :: k != "fields" ==> SearchParams.GetAll(r, k) == SearchParams.GetAll(s, k)
  {
    var f := SearchParams.Get(s, "fields");
    if f.Some? && f.value != "" then s else SearchParams.Set(s, "fields", FieldsHint)
  }

  /**
   * Page metadata for a response outside the canonical shapes: each of page,
   * limit and total comes from the response when it has it, then from the
   * query parameters (page and limit only), then from the default. None stands
   * for NaN.
   */
  datatype ListMeta = ListMeta(page: Option<int>, limit: Option<int>, total: Option<int>)

  /** `Number(data.x ?? s.get(x) ?? d)`. */
  function MetaValue(fromResponse: Option<int>, s: SearchParams.Params, key: string, default: int): (r: Option<int>)
    ensures fromResponse.Some? ==> r == fromResponse
    ensures fromResponse.None? && SearchParams.Get(s, key).None? ==> r == Some(default)
    ensures fromResponse.None? && SearchParams.Get(s, key).Some? ==> r == Text.NumberOf(SearchParams.Get(s, key).value)
  {
    if fromResponse.Some? then fromResponse
    else match SearchParams.Get(s, key)
      case Some(v) => Text.NumberOf(v)
      case None => Some(default)
  }

  function FallbackMeta(page: Option<int>, limit: Option<int>, total: Option<int>, items: nat, s: SearchParams.Params): (r: ListMeta)
    ensures r.page == MetaValue(page, s, "page", 1)
    ensures r.limit == MetaValue(limit, s, "limit", 24)
    ensures total.Some? ==> r.total == total
    ensures total.None? ==> r.total == Some(items)
  {
    ListMeta(MetaValue(page, s, "page", 1), MetaValue(limit, s, "limit", 24), if total.Some? then total else Some(items))
  }

  /** A response without any metadata, for a query without page or limit, reads as page 1 of 24 holding its items. */
  lemma BareResponseDefaults(items: nat, s: SearchParams.Params)
    requires SearchParams.Get(s, "page").None? && SearchParams.Get(s, "limit").None?
    ensures FallbackMeta(None, None, None, items, s) == ListMeta(Some(1), Some(24), Some(items))
  {
  }

  /**
   * `Number(s.get(key) || d)`: an absent or empty param gives the default
   * (the default texts '1' and '24' read as the numbers 1 and 24), any
   * other text is read as a number.
   */
  function ParamOr(s: SearchParams.Params, key: string, default: nat): (r: Option<int>)
    ensures SearchParams.Get(s, key).Some? && SearchParams.Get(s, key).value != "" ==>
      r == Text.NumberOf(SearchParams.Get(s, key).value)
    ensures SearchParams.Get(s, key).None? || SearchParams.Get(s, key).value == "" ==> r == Some(default)
  {
    var v := SearchParams.Get(s, key);
    if v.Some? && v.value != "" then Text.NumberOf(v.value) else Some(default)
  }

  /**
   * The prefetch decision: when the loaded page holds exactly `limit` items,
   * the query for the following page is the current one with `page` set to
   * `current + 1` (the text "NaN" when the current page is not a number).
   */
  function PrefetchNext(s: SearchParams.Params, loaded: Option<nat>): (r: Option<SearchParams.Params>)
    ensures r.Some? <==> ParamOr(s, "limit", 24) == Some(if loaded.Some? then loaded.value else 0)
    ensures r.Some? ==> SearchParams.GetAll(r.value, "page") == [NextPageText(ParamOr(s, "page", 1))]
    ensures r.Some? ==> forall k :: k != "page" ==> SearchParams.GetAll(r.value, k) == SearchParams.GetAll(s, k)
  {
    var count := if loaded.Some? then loaded.value else 0;
    if ParamOr(s, "limit", 24) == Some(count) then
      Some(SearchParams.Set(s, "page", NextPageText(ParamOr(s, "page", 1))))
    else None
  }

  /** `String(current + 1)`. */
  function NextPageText(current: Option<int>): string {
    if current.Some? then Text.IntToString(current.value + 1) else "NaN"
  }

  /** A page holding exactly `limit` items prefetches the page after the current one. */
  lemma FullPagePrefetchesNext(s: SearchParams.Params, limit: nat, page: nat)
    requires SearchParams.Get(s, "limit") == Some(Text.NatToString(limit))
    requires SearchParams.Get(s, "page") == Some(Text.NatToString(page))
    ensures PrefetchNext(s, Some(limit)).Some?
    ensures SearchParams.Get(PrefetchNext(s, Some(limit)).value, "page") == Some(Text.NatToString(page + 1))
  {
    Text.NumberOfRendered(limit);
    Text.NumberOfRendered(page);
    assert ParamOr(s, "limit", 24) == Some(limit);
    assert ParamOr(s, "page", 1) == Some(page);
    assert NextPageText(Some(page)) == Text.NatToString(page + 1);
  }

  /** A page holding fewer or more items than `limit` prefetches nothing. */
  lemma PartialPageNoPrefetch(s: SearchParams.Params, limit: nat, loaded: nat)
    requires SearchParams.Get(s, "limit") == Some(Text.NatToString(limit))
    requires loaded != limit
    ensures PrefetchNext(s, Some(loaded)).None?
  {
    Text.NumberOfRendered(limit);
  }

  // ---- facet options ------------------------------------------------------

  datatype FacetOption = FacetOption(value: string, count: int)

  const FacetLimit := 20

  /** `!search || v.toLowerCase().includes(search.toLowerCase())`. */
  predicate Matches(search: string, v: string) {
    search == "" || Text.Contains(Text.Lower(v), Text.Lower(search))
  }

  /**
   * The facet options shown: the returned list, or, when it is empty for any
   * facet but `modalities` and the filter lists could be fetched, the first
   * twenty matching filter values with count 0.
   */
  function FacetOptions(facet: string, search: string, list: seq<FacetOption>, filters: Option<seq<string>>): (r: seq<FacetOption>)
    ensures !(|list| == 0 && facet != "modalities" && filters.Some?) ==> r == list
    ensures |list| == 0 && facet != "modalities" && filters.Some? ==>
      && |r| <= FacetLimit
      && (forall o :: o in r ==> o.count == 0 && o.value in filters.value && Matches(search, o.value))
      && (|Lists.Filter(filters.value, v => Matches(search, v))| <= FacetLimit ==>
            forall v :: v in filters.value && Matches(search, v) ==> FacetOption(v, 0) in r)
  {
    if |list| == 0 && facet != "modalities" && filters.Some? then
      var kept := Lists.Filter(filters.value, v => Matches(search, v));
      var shown := Lists.Take(kept, FacetLimit);
      assert forall i :: 0 <= i < |shown| ==> shown[i] in kept;
      Lists.MapMembers(shown, v => FacetOption(v, 0));
      Lists.Map(shown, v => FacetOption(v, 0))
    else list
  }

  // ---- updates -------------------------------------------------------------

  const MuscleKeys: set<string> := {"musclesPrimaryCodes", "musclesSecondaryCodes", "musclesPrimary", "musclesSecondary"}

  /** The two ways an update is sent. */
  datatype UpdateVerb = Put | Patch

  datatype Call = Call(verb: UpdateVerb, url: string)

  /** The patch has at least one of the four muscle fields as its own key. */
  predicate TouchesMuscles(patchKeys: set<string>) {
    exists k :: k in patchKeys && k in MuscleKeys
  }

  /** The update request: PATCH with `?async=1` when the patch carries any muscle field as its own key, PUT otherwise. */
  function UpdateCall(id: string, patchKeys: set<string>): (r: Call)
    ensures r.verb == Patch <==> TouchesMuscles(patchKeys)
    ensures r.verb == Patch ==> r.url == "/api/exercises/" + id + "?async=1"
    ensures r.verb == Put ==> r.url == "/api/exercises/" + id
  {
    if patchKeys * MuscleKeys != {} then
      assert TouchesMuscles(patchKeys) by {
        var k :| k in patchKeys * MuscleKeys;
      }
      Call(Patch, "/api/exercises/" + id + "?async=1")
    else
      assert !TouchesMuscles(patchKeys) by {
        forall k | k in patchKeys ensures k !in MuscleKeys {
          assert k !in patchKeys * MuscleKeys;
        }
      }
      Call(Put, "/api/exercises/" + id)
  }

  /** `details.invalidMuscles`: either list may be missing. */
  datatype InvalidMuscles = InvalidMuscles(primary: Option<seq<string>>, secondary: Option<seq<string>>)

  const InvalidPrefix := "Invalid muscles: "
  const UpdateFailed := "Failed to update exercise"

  /** `xs?.join(', ')`, with a missing list giving the empty string. */
  function JoinedOrEmpty(xs: Option<seq<string>>): string {
    if xs.Some? then Text.Join(xs.value, ", ") else ""
  }

  /** The part for one list: its heading and names, or nothing when it joins to the empty string. */
  function Part(heading: string, xs: Option<seq<string>>): (r: seq<string>)
    ensures JoinedOrEmpty(xs) == "" <==> r == []
    ensures r != [] ==> r == [heading + JoinedOrEmpty(xs)]
  {
    var j := JoinedOrEmpty(xs);
    if j == "" then [] else [heading + j]
  }

  /** The toast for a failed update. */
  function UpdateErrorMessage(status: Option<int>, invalid: Option<InvalidMuscles>, message: Option<string>): (r: string)
    ensures status == Some(422) && invalid.Some? ==>
      r == InvalidPrefix + Text.Join(Part("primary: ", invalid.value.primary) + Part("secondary: ", invalid.value.secondary), " • ")
    ensures !(status == Some(422) && invalid.Some?) ==>
      r == (if message.Some? && message.value != "" then message.value else UpdateFailed)
  {
    if status == Some(422) && invalid.Some? then
      InvalidPrefix + Text.Join(Part("primary: ", invalid.value.primary) + Part("secondary: ", invalid.value.secondary), " • ")
    else if message.Some? && message.value != "" then message.value
    else UpdateFailed
  }

  /** With both lists non-empty the message names both, primary first, joined by a bullet. */
  lemma BothListsNamed(p: seq<string>, s: seq<string>, message: Option<string>)
    requires Text.Join(p, ", ") != "" && Text.Join(s, ", ") != ""
    ensures UpdateErrorMessage(Some(422), Some(InvalidMuscles(Some(p), Some(s))), message)
      == InvalidPrefix + "primary: " + Text.Join(p, ", ") + " • " + "secondary: " + Text.Join(s, ", ")
  {
    var a := "primary: " + Text.Join(p, ", ");
    var b := "secondary: " + Text.Join(s, ", ");
    assert Part("primary: ", Some(p)) + Part("secondary: ", Some(s)) == [a, b];
    assert Text.Join([a, b], " • ") == a + " • " + Text.Join([b], " • ");
  }

  /** An empty primary list is left out entirely, with no dangling bullet. */
  lemma EmptyPrimaryOmitted(s: seq<string>, message: Option<string>)
    requires Text.Join(s, ", ") != ""
    ensures UpdateErrorMessage(Some(422), Some(InvalidMuscles(Some([]), Some(s))), message)
      == InvalidPrefix + "secondary: " + Text.Join(s, ", ")
  {
    assert Part("primary: ", Some([])) == [];
    assert Part("primary: ", Some([])) + Part("secondary: ", Some(s)) == ["secondary: " + Text.Join(s, ", ")];
  }
}

=== FILE: exercises_page.dfy ===
/**
 * The exercise library page: its starting parameters, the page and limit it
 * reads, the count of active filters, the admin test, and which list items
 * get their detail prefetched.
 */
module ExercisesPage {
  import opened Wrappers
  import opened Json
  import SearchParams
  import Lists
  import Text
  import Roles
  import ExercisesApi

  type Params = SearchParams.Params

  /** The parameters the page starts from when the URL has none. */
  const InitialParams: Params := [("page", "1"), ("limit", "24")]

  /** On mount, a missing or empty `page` is set to "1"; anything else is kept. */
  function EnsurePage(params: Params): (r: Params)
    ensures SearchParams.Get(params, "page").None? || SearchParams.Get(params, "page") == Some("") ==>
      SearchParams.GetAll(r, "page") == ["1"]
    ensures SearchParams.Get(params, "page").Some? && SearchParams.Get(params, "page") != Some("") ==> r == params
    ensures forall k :: k != "page" ==> SearchParams.GetAll(r, k) == SearchParams.GetAll(params, k)
  {
    var p := SearchParams.Get(params, "page");
    if p.None? || p == Some("") then SearchParams.Set(params, "page", "1") else params
  }

  /** `Number(params.get('page') || 1)` and `Number(params.get('limit') || 24)`; None stands for NaN. */
  function PageAndLimit(params: Params): (r: (Option<int>, Option<int>))
    ensures SearchParams.Get(params, "page").None? ==> r.0 == Some(1)
    ensures SearchParams.Get(params, "limit").None? ==> r.1 == Some(24)
    ensures SearchParams.Get(params, "page") == Some("") ==> r.0 == Some(1)
    ensures SearchParams.Get(params, "limit") == Some("") ==> r.1 == Some(24)
    ensures var v := SearchParams.Get(params, "page"); v.Some? && v.value != "" ==> r.0 == Text.NumberOf(v.value)
    ensures var v := SearchParams.Get(params, "limit"); v.Some? && v.value != "" ==> r.1 == Text.NumberOf(v.value)
  {
    (ExercisesApi.ParamOr(params, "page", 1), ExercisesApi.ParamOr(params, "limit", 24))
  }

  /** The starting parameters already carry a page, so the mount step keeps them. */
  lemma InitialKeepsPage()
    ensures EnsurePage(InitialParams) == InitialParams
  {
    assert SearchParams.Get(InitialParams, "page") == Some("1");
  }

  /** Keys that are not filters. */
  predicate Counted(k: string) {
    k != "page" && k != "limit" && k != "search"
  }

  /** `activeFilters`: the entries whose key is not page, limit or search, each repeat counted. */
  function ActiveFilters(params: Params): (r: nat)
    ensures r <= |params|
    ensures r > 0 <==> exists i :: 0 <= i < |params| && Counted(params[i].0)
  {
    if |params| == 0 then 0
    else
      var rest := ActiveFilters(params[1..]);
      assert forall i :: 1 <= i < |params| ==> params[i] == params[1..][i - 1];
      (if Counted(params[0].0) then 1 else 0) + rest
  }

  /** `hasFilters`. */
  predicate HasFilters(params: Params) {
    ActiveFilters(params) > 0
  }

  /** Every value of a counted key counts once. */
  lemma {:induction false} ActiveFiltersAppend(params: Params, k: string, v: string)
    ensures ActiveFilters(params + [(k, v)]) == ActiveFilters(params) + (if Counted(k) then 1 else 0)
    decreases |params|
  {
    if |params| > 0 {
      assert (params + [(k, v)])[1..] == params[1..] + [(k, v)];
      ActiveFiltersAppend(params[1..], k, v);
    }
  }

  /** Removing a key that is not a filter leaves the count alone. */
  lemma {:induction false} DeleteUncountedKeeps(params: Params, k: string)
    requires !Counted(k)
    ensures ActiveFilters(SearchParams.Delete(params, k)) == ActiveFilters(params)
    decreases |params|
  {
    if |params| > 0 {
      DeleteUncountedKeeps(params[1..], k);
    }
  }

  /** Moving to another page, or changing the limit or search, leaves the count alone. */
  lemma {:induction false} SetUncountedKeeps(params: Params, k: string, v: string)
    requires !Counted(k)
    ensures ActiveFilters(SearchParams.Set(params, k, v)) == ActiveFilters(params)
    decreases |params|
  {
    if |params| > 0 {
      if params[0].0 == k {
        DeleteUncountedKeeps(params[1..], k);
      } else {
        SetUncountedKeeps(params[1..], k, v);
      }
    }
  }

  /** The library page's admin test: signed in with an admin role; readiness is not consulted. */
  function IsAdmin(authenticated: bool, role: Option<string>): (r: bool)
    ensures r <==> authenticated && (role == Some("admin") || role == Some("superadmin"))
  {
    authenticated && Roles.IsAdminRole(role)
  }

  /** How many leading items are considered for prefetching. */
  const PrefetchCount := 8

  /** `it?.id` is truthy. */
  predicate HasId(it: Json) {
    Truthy(Field(Some(it), "id"))
  }

  /** The ids of the items that have a truthy one, in order. */
  function TruthyIds(xs: seq<Json>): (r: seq<Json>)
    ensures |r| <= |xs|
    ensures forall x :: x in r ==> Truthy(Some(x))
    ensures forall i :: 0 <= i < |xs| && HasId(xs[i]) ==> Field(Some(xs[i]), "id").value in r
    ensures forall x :: x in r ==> exists i :: 0 <= i < |xs| && HasId(xs[i]) && Field(Some(xs[i]), "id").value == x
    decreases |xs|
  {
    if |xs| == 0 then []
    else
      var rest := TruthyIds(xs[1..]);
      assert forall i :: 1 <= i < |xs| ==> xs[i] == xs[1..][i - 1];
      if HasId(xs[0]) then [Field(Some(xs[0]), "id").value] + rest else rest
  }

  /** The ids whose details are prefetched: of the first eight items, those with a truthy id, in order. */
  function PrefetchIds(items: seq<Json>): (r: seq<Json>)
    ensures |r| <= PrefetchCount && |r| <= |items|
    ensures forall x :: x in r ==> Truthy(Some(x))
    ensures forall i :: 0 <= i < |items| && i < PrefetchCount && HasId(items[i]) ==>
      Field(Some(items[i]), "id").value in r
    ensures forall x :: x in r ==> exists i :: 0 <= i < |items| && i < PrefetchCount && HasId(items[i]) && Field(Some(items[i]), "id").value == x
  {
    var head := Lists.Take(items, PrefetchCount);
    assert forall i :: 0 <= i < |head| ==> items[i] == head[i];
    TruthyIds(head)
  }

  /** Only the first eight items matter: whatever follows them is never prefetched. */
  lemma LaterItemsIgnored(items: seq<Json>, more: seq<Json>)
    requires |items| >= PrefetchCount
    ensures PrefetchIds(items + more) == PrefetchIds(items)
  {
    assert Lists.Take(items + more, PrefetchCount) == Lists.Take(items, PrefetchCount);
  }

  /** The detail path of a prefetched id. */
  function DetailPath(id: Json): (r: string)
    ensures Text.StartsWith(r, "/api/exercises/")
  {
    "/api/exercises/" + ToJsString(id)
  }
}

=== FILE: filter_panel.dfy ===
/**
 * The exercise filter panel's edits of the URL parameters: single-valued
 * filters (`setSingle`), multi-valued filters (`toggleMulti`) and `reset`.
 * Both edits go back to page 1.
 */
module FilterPanel {
  import SearchParams
  import Lists
  import opened Wrappers

  type Params = SearchParams.Params

  /** Every key other than the edited one and `page` keeps its values. */
  ghost predicate OthersKept(before: Params, after: Params, key: string) {
    forall k :: k != key && k != "page" ==> SearchParams.GetAll(after, k) == SearchParams.GetAll(before, k)
  }

  /** `setSingle(key, value)`: a truthy value becomes the key's only entry, otherwise the key goes. */
  function SetSingle(params: Params, key: string, value: Option<string>): (r: Params)
    requires key != "page"
    ensures value.Some? && value.value != "" ==> SearchParams.GetAll(r, key) == [value.value]
    ensures !(value.Some? && value.value != "") ==> SearchParams.GetAll(r, key) == []
    ensures SearchParams.GetAll(r, "page") == ["1"]
    ensures OthersKept(params, r, key)
  {
    var p := if value.Some? && value.value != "" then SearchParams.Set(params, key, value.value)
             else SearchParams.Delete(params, key);
    SearchParams.Set(p, "page", "1")
  }

  /**
   * `toggleMulti(key, value)`: the key's values, de-duplicated in first-seen
   * order, with `value` removed if present or appended if absent.
   */
  function ToggleMulti(params: Params, key: string, value: string): (r: Params)
    requires key != "page"
    ensures var after := SearchParams.GetAll(r, key);
      && Lists.NoDups(after)
      && (value in after <==> value !in SearchParams.GetAll(params, key))
      && (forall v :: v != value ==> (v in after <==> v in SearchParams.GetAll(params, key)))
      && Lists.FirstSeenOrder(after, SearchParams.GetAll(params, key))
      && (value !in SearchParams.GetAll(params, key) ==> |after| > 0 && after[|after| - 1] == value)
    ensures SearchParams.GetAll(r, "page") == ["1"]
    ensures OthersKept(params, r, key)
  {
    var current := Lists.SetToggle(SearchParams.GetAll(params, key), value);
    var p := SearchParams.AppendAll(SearchParams.Delete(params, key), key, current);
    var r := SearchParams.Set(p, "page", "1");
    assert SearchParams.GetAll(r, key) == current;
    r
  }

  /** Toggling the same value twice restores the key's set of values. */
  lemma ToggleMultiTwice(params: Params, key: string, value: string)
    requires key != "page"
    ensures var twice := ToggleMulti(ToggleMulti(params, key, value), key, value);
      forall v :: (v in SearchParams.GetAll(twice, key) <==> v in SearchParams.GetAll(params, key))
  {
  }

  /** `reset()`: an empty parameter list, so page, limit and search go too. */
  function Reset(): (r: Params)
    ensures forall k :: SearchParams.Get(r, k).None?
  {
    []
  }

  /** The argument a single-valued chip passes: clicking the active chip clears the filter. */
  function SingleChipValue(params: Params, key: string, chip: string): (r: Option<string>)
    ensures r.None? <==> SearchParams.Get(params, key) == Some(chip)
    ensures r.Some? ==> r.value == chip
  {
    if SearchParams.Get(params, key) == Some(chip) then None else Some(chip)
  }

  /** Clicking a single-valued chip twice from a state where it is inactive clears it again. */
  lemma SingleChipClickTwice(params: Params, key: string, chip: string)
    requires key != "page" && chip != ""
    requires SearchParams.Get(params, key) != Some(chip)
    ensures var once := SetSingle(params, key, SingleChipValue(params, key, chip));
      && SearchParams.Get(once, key) == Some(chip)
      && SearchParams.GetAll(SetSingle(once, key, SingleChipValue(once, key, chip)), key) == []
  {
  }

  /** A muscle chip shows as active when the muscle is among either primary or secondary muscles. */
  predicate MuscleChipActive(params: Params, m: string) {
    m in SearchParams.GetAll(params, "musclesPrimary") || m in SearchParams.GetAll(params, "musclesSecondary")
  }

  /**
   * Clicking a muscle chip always toggles `musclesPrimary`: a chip active only
   * through `musclesSecondary` gains a primary entry and stays active.
   */
  function ClickMuscle(params: Params, m: string): (r: Params)
    ensures SearchParams.GetAll(r, "musclesSecondary") == SearchParams.GetAll(params, "musclesSecondary")
    ensures m in SearchParams.GetAll(r, "musclesPrimary") <==> m !in SearchParams.GetAll(params, "musclesPrimary")
  {
    ToggleMultiKeepsKey(params, "musclesPrimary", m, "musclesSecondary");
    ToggleMulti(params, "musclesPrimary", m)
  }

  lemma ToggleMultiKeepsKey(params: Params, key: string, value: string, other: string)
    requires key != "page" && other != key && other != "page"
    ensures SearchParams.GetAll(ToggleMulti(params, key, value), other) == SearchParams.GetAll(params, other)
  {
  }

  /** A chip active only through `musclesSecondary` stays active after a click. */
  lemma SecondaryMuscleStaysActive(params: Params, m: string)
    requires m in SearchParams.GetAll(params, "musclesSecondary")
    ensures MuscleChipActive(ClickMuscle(params, m), m)
  {
  }

  /** The muscle chips offered: the first thirty muscles of the filter metadata. */
  function MuscleChips(muscles: seq<string>): (r: seq<string>)
    ensures |r| <= 30
    ensures r == muscles[..if |muscles| < 30 then |muscles| else 30]
  {
    Lists.Take(muscles, 30)
  }
}

=== FILE: guards.dfy ===
/** Route guards: `RequireAuth` and the role admission of `RequireRole`. */
module Guards {
  import opened Wrappers
  import Roles

  /** The role a route asks for. */
  datatype RouteRole = Member | Coach | Admin | Superadmin

  /** The user profile, as far as the guard reads it. */
  datatype Profile = Profile(role: Option<string>)

  /** What a guard renders. */
  datatype View = Children | Nothing | Redirect(to: string)

  function RouteRoleName(r: RouteRole): string {
    match r
    case Member => Roles.MemberRole
    case Coach => Roles.CoachRole
    case Admin => Roles.AdminRole
    case Superadmin => Roles.SuperadminRole
  }

  /** `RequireAuth`: the children when authenticated, otherwise a redirect to /login. */
  function RequireAuth(isAuthenticated: bool): (v: View)
    ensures v == Redirect("/login") <==> !isAuthenticated
    ensures v == Children <==> isAuthenticated
  {
    if !isAuthenticated then Redirect("/login") else Children
  }

  /** The `ok` test of `RequireRole`: an exact match, or superadmin on a coach route, or admin/superadmin on an admin route. */
  predicate Admits(route: RouteRole, userRole: Option<string>) {
    userRole == Some(RouteRoleName(route))
    || (route == Coach && userRole == Some(Roles.SuperadminRole))
    || (route == Admin && (userRole == Some(Roles.SuperadminRole) || userRole == Some(Roles.AdminRole)))
  }

  /** The admission table: the user roles each route lets through. */
  function Allowed(route: RouteRole): set<string> {
    match route
    case Member => {"member"}
    case Coach => {"coach", "superadmin"}
    case Admin => {"admin", "superadmin"}
    case Superadmin => {"superadmin"}
  }

  /** `Admits` agrees with the admission table for every route and every role string. */
  lemma AdmitsMatchesTable(route: RouteRole, userRole: Option<string>)
    ensures Admits(route, userRole) <==> userRole.Some? && userRole.value in Allowed(route)
  {
  }

  /** A member route rejects a superadmin; coach and admin routes do not admit each other's role. */
  lemma NoCrossAdmission()
    ensures !Admits(Member, Some("superadmin"))
    ensures !Admits(Admin, Some("coach"))
    ensures !Admits(Coach, Some("admin"))
    ensures forall route :: Admits(route, Some("superadmin")) <==> route != Member
  {
  }

  /** `RequireRole`: nothing while loading, home without a profile or without admission. */
  function RequireRole(route: RouteRole, loading: bool, profile: Option<Profile>): (v: View)
    ensures loading ==> v == Nothing
    ensures !loading && profile.None? ==> v == Redirect("/")
    ensures !loading && profile.Some? ==>
      (v == Children <==> Admits(route, profile.value.role))
    ensures v != Nothing ==> v == Children || v == Redirect("/")
  {
    if loading then Nothing
    else if profile.None? then Redirect("/")
    else if !Admits(route, profile.value.role) then Redirect("/")
    else Children
  }
}

=== FILE: home_page.dfy ===
/**
 * The home page hero: who counts as an admin there, which slides endpoint
 * is read, the fallback slide, and the edit that replaces the first slide.
 */
module HomePage {
  import opened Wrappers
  import opened Json
  import Roles

  /** `!!ready && !!isAuthenticated && (role is admin or superadmin)`. */
  function IsAdmin(ready: bool, authenticated: bool, role: Option<string>): (r: bool)
    ensures r <==> ready && authenticated && (role == Some("admin") || role == Some("superadmin"))
  {
    ready && authenticated && Roles.IsAdminRole(role)
  }

  const AdminSlidesPath := "/api/home/slides"
  const PublicSlidesPath := "/api/home/slides/public"

  /** Admins read every slide; everyone else reads the public ones. */
  function SlidesPath(isAdmin: bool): (r: string)
    ensures isAdmin <==> r == AdminSlidesPath
    ensures !isAdmin <==> r == PublicSlidesPath
  {
    if isAdmin then AdminSlidesPath else PublicSlidesPath
  }

  /** The built-in slide shown when the server offers none. */
  const DefaultSlide: Json := JObj(map[
    "title" := JStr("Exercise Library"),
    "copy" := JStr("Want to understand exercises better or discover new ones? Browse through our library including videos."),
    "cta" := JStr("Discover"),
    "to" := JStr("/exercises"),
    "image" := JStr("https://images.unsplash.com/photo-1517963628607-235ccdd5476b?q=80&w=1974&auto=format&fit=crop")])

  /** `res?.slides ?? res ?? []`. */
  function SlidesField(res: Option<Json>): (r: Json)
    ensures !Nullish(Field(res, "slides")) ==> r == Field(res, "slides").value
    ensures Nullish(Field(res, "slides")) && !Nullish(res) ==> r == res.value
    ensures Nullish(Field(res, "slides")) && Nullish(res) ==> r == JArr([])
  {
    Coalesce(Field(res, "slides"), Coalesce(res, JArr([])))
  }

  /** The slide list: the server's array when it is a non-empty array, else the default slide alone. */
  function SlidesOf(res: Option<Json>): (r: seq<Json>)
    ensures |r| >= 1
    ensures SlidesField(res).JArr? && |SlidesField(res).items| > 0 ==> r == SlidesField(res).items
    ensures !(SlidesField(res).JArr? && |SlidesField(res).items| > 0) ==> r == [DefaultSlide]
  {
    var list := SlidesField(res);
    if list.JArr? && |list.items| > 0 then list.items else [DefaultSlide]
  }

  /** A `{slides: []}` reply, a bare `[]`, a null and an object without slides all fall back. */
  lemma FallbackCases(other: map<string, Json>)
    requires "slides" !in other
    ensures SlidesOf(Some(JObj(map["slides" := JArr([])]))) == [DefaultSlide]
    ensures SlidesOf(Some(JArr([]))) == [DefaultSlide]
    ensures SlidesOf(Some(JNull)) == [DefaultSlide]
    ensures SlidesOf(None) == [DefaultSlide]
    ensures SlidesOf(Some(JObj(other))) == [DefaultSlide]
  {
  }

  /** A reply `{slides: s}` with a non-empty `s` is shown as is, and so is a bare non-empty array. */
  lemma ServerSlidesShown(s: seq<Json>)
    requires |s| > 0
    ensures SlidesOf(Some(JObj(map["slides" := JArr(s)]))) == s
    ensures SlidesOf(Some(JArr(s))) == s
  {
  }

  /** The PUT that `saveSlide` sends. */
  datatype Put = Put(path: string, body: Json)

  /**
   * `saveSlide(next)`: `[next, ...slides.slice(1)]` becomes the slide list
   * at once, and the same list is sent. The reply to the PUT is not an input:
   * a failure is swallowed and the new list stays.
   */
  function SaveSlide(slides: seq<Json>, next: Json): (r: (seq<Json>, Put))
    ensures |r.0| == (if |slides| == 0 then 1 else |slides|)
    ensures r.0[0] == next
    ensures forall i :: 1 <= i < |slides| ==> r.0[i] == slides[i]
    ensures r.1.path == AdminSlidesPath && r.1.body == JObj(map["slides" := JArr(r.0)])
  {
    var updated := [next] + (if |slides| == 0 then [] else slides[1..]);
    (updated, Put(AdminSlidesPath, JObj(map["slides" := JArr(updated)])))
  }

  /** Saving the same slide again changes nothing further. */
  lemma SaveSlideIdempotent(slides: seq<Json>, next: Json)
    ensures SaveSlide(SaveSlide(slides, next).0, next).0 == SaveSlide(slides, next).0
  {
    var once := SaveSlide(slides, next).0;
    assert once[1..] == (if |slides| == 0 then [] else slides[1..]);
  }
}

=== FILE: json.dfy ===
/**
 * Decoded JSON values and the JavaScript operators the client applies to
 * them: truthiness, optional chaining `v?.k`, nullish coalescing `??`, and the
 * string conversion `Error(message)` performs. Numbers are integers here.
 */
module Json {
  import opened Wrappers
  import Text

  datatype Json =
    | JNull
    | JBool(b: bool)
    | JNum(n: int)
    | JStr(s: string)
    | JArr(items: seq<Json>)
    | JObj(fields: map<string, Json>)

  /** JavaScript truthiness; `undefined` (None) is falsy. */
  predicate Truthy(v: Option<Json>) {
    match v
    case None => false
    case Some(JNull) => false
    case Some(JBool(b)) => b
    case Some(JNum(n)) => n != 0
    case Some(JStr(s)) => s != ""
    case Some(_) => true
  }

  /** `v == null`: undefined or null. */
  predicate Nullish(v: Option<Json>) {
    v.None? || v.value.JNull?
  }

  /** `v?.[k]`: only objects carry named properties among decoded JSON values. */
  function Field(v: Option<Json>, k: string): (r: Option<Json>)
    ensures r.Some? <==> v.Some? && v.value.JObj? && k in v.value.fields
    ensures r.Some? ==> r.value == v.value.fields[k]
  {
    match v
    case Some(JObj(m)) => if k in m then Some(m[k]) else None
    case _ => None
  }

  /** `v ?? d`. */
  function Coalesce(v: Option<Json>, d: Json): (r: Json)
    ensures Nullish(v) ==> r == d
    ensures !Nullish(v) ==> Some(r) == v
  {
    if Nullish(v) then d else v.value
  }

  /** `String(v)` on a decoded JSON value (`Array.prototype.join` for arrays). */
  function ToJsString(v: Json): string
    decreases v, 1
  {
    match v
    case JNull => "null"
    case JBool(b) => if b then "true" else "false"
    case JNum(n) => Text.IntToString(n)
    case JStr(s) => s
    case JArr(items) => JoinElements(v, items)
    case JObj(_) => "[object Object]"
  }

  /** Array elements joined by ",", with null rendered as "". */
  function JoinElements(parent: Json, items: seq<Json>): string
    requires forall x :: x in items ==> x < parent
    decreases parent, 0, |items|
  {
    if |items| == 0 then ""
    else
      assert items[0] in items;
      assert forall x :: x in items[1..] ==> x in items;
      var head := if items[0].JNull? then "" else ToJsString(items[0]);
      if |items| == 1 then head else head + "," + JoinElements(parent, items[1..])
  }
}

=== FILE: leaderboard.dfy ===
/**
 * The members and coaches leaderboards: the request each page issues, the
 * rank column, the league filter and the Prev/Next footer.
 */
module Leaderboard {
  import Text
  import Paging

  /** `/leaderboard/members?leagueId=<id>&page=<page>&limit=10`: ten rows per page. */
  function MembersUrl(leagueId: string, page: int): (r: string)
    ensures Text.StartsWith(r, "/leaderboard/members?leagueId=" + leagueId + "&page=")
    ensures |r| >= 9 && r[|r| - 9..] == "&limit=10"
  {
    "/leaderboard/members?leagueId=" + leagueId + "&page=" + Text.IntToString(page) + "&limit=10"
  }

  /** `/leaderboard/coaches?page=<page>&limit=10`. */
  function CoachesUrl(page: int): (r: string)
    ensures Text.StartsWith(r, "/leaderboard/coaches?page=")
    ensures |r| >= 9 && r[|r| - 9..] == "&limit=10"
  {
    "/leaderboard/coaches?page=" + Text.IntToString(page) + "&limit=10"
  }

  /** The page segment of a URL with a known prefix and suffix is determined by the URL. */
  lemma MiddleDetermined(pre: string, a: string, b: string, post: string)
    requires pre + a + post == pre + b + post
    ensures a == b
  {
    var u := pre + a + post;
    assert |a| == |b|;
    assert a == u[|pre|..|pre| + |a|];
    assert b == (pre + b + post)[|pre|..|pre| + |b|];
  }

  /** Two different pages of one league never share a request URL. */
  lemma MembersUrlsDistinct(leagueId: string, p: int, q: int)
    requires p != q
    ensures MembersUrl(leagueId, p) != MembersUrl(leagueId, q)
  {
    if MembersUrl(leagueId, p) == MembersUrl(leagueId, q) {
      var pre := "/leaderboard/members?leagueId=" + leagueId + "&page=";
      assert pre + Text.IntToString(p) + "&limit=10" == MembersUrl(leagueId, p);
      assert pre + Text.IntToString(q) + "&limit=10" == MembersUrl(leagueId, q);
      MiddleDetermined(pre, Text.IntToString(p), Text.IntToString(q), "&limit=10");
      Text.IntToStringInjective(p, q);
    }
  }

  /** The rank column for `n` rows of page `page`: `(page - 1) * limit + i + 1`. */
  function Ranks(page: int, limit: int, n: nat): (r: seq<int>)
    ensures |r| == n
    ensures n > 0 ==> r[0] == (page - 1) * limit + 1
    ensures forall i :: 0 <= i < n - 1 ==> r[i + 1] == r[i] + 1
  {
    seq(n, i => Paging.Rank(page, limit, i))
  }

  /** A full page's last rank is one below the next page's first. */
  lemma PagesContinue(page: int, limit: int)
    requires limit > 0
    ensures Ranks(page + 1, limit, limit)[0] == Ranks(page, limit, limit)[limit - 1] + 1
  {
    Paging.RankContinuesAcrossPages(page, limit);
  }

  /** The members leaderboard's own state: the league filter and the page asked for. */
  datatype Board = Board(leagueId: string, page: int)

  /** The board starts on all leagues, page 1. */
  const Initial := Board("all", 1)

  /** Choosing a league resets the page. */
  function ChangeLeague(b: Board, leagueId: string): (r: Board)
    ensures r.leagueId == leagueId && r.page == 1
  {
    Board(leagueId, 1)
  }

  /** Prev's updater on the local page, `p - 1` with no clamp. */
  function Prev(b: Board): (r: Board)
    ensures r.leagueId == b.leagueId && r.page + 1 == b.page
  {
    b.(page := b.page - 1)
  }

  /** Next's updater on the local page, `p + 1` with no clamp. */
  function Next(b: Board): (r: Board)
    ensures r.leagueId == b.leagueId && r.page == b.page + 1
  {
    b.(page := b.page + 1)
  }
}

=== FILE: lists.dfy ===
/**
 * Sequence helpers that mirror the JavaScript idioms the client uses on
 * arrays: `Array.from(new Set(xs))` (deduplicate, first occurrence wins),
 * toggling membership in such a set, and `filter`.
 */
module Lists {

  predicate NoDups<T(==,!new)>(xs: seq<T>) {
    forall i, j :: 0 <= i < j < |xs| ==> xs[i] != xs[j]
  }

  /** Where `v` first occurs in `xs`. */
  function FirstIndex<T(==)>(xs: seq<T>, v: T): (i: nat)
    requires v in xs
    ensures i < |xs| && xs[i] == v && v !in xs[..i]
  {
    if xs[0] == v then 0
    else
      assert xs == [xs[0]] + xs[1..];
      var k := FirstIndex(xs[1..], v);
      assert xs[..k + 1] == [xs[0]] + xs[1..][..k];
      k + 1
  }

  /** An index holding `v` with no `v` before it is the first index of `v`. */
  lemma FirstIndexUnique<T>(xs: seq<T>, v: T, i: nat)
    requires i < |xs| && xs[i] == v && v !in xs[..i]
    ensures FirstIndex(xs, v) == i
  {
  }

  /** A value occurring in a prefix has the same first index in the prefix and the whole. */
  lemma FirstIndexPrefix<T>(xs: seq<T>, n: nat, v: T)
    requires n <= |xs| && v in xs[..n]
    ensures v in xs && FirstIndex(xs, v) == FirstIndex(xs[..n], v)
  {
    var k := FirstIndex(xs[..n], v);
    assert xs[..n][..k] == xs[..k];
    FirstIndexUnique(xs, v, k);
  }

  /** The members of `r` that occur in `xs` come in the order of their first occurrence in `xs`. */
  predicate FirstSeenOrder<T(==)>(r: seq<T>, xs: seq<T>) {
    forall i, j :: 0 <= i < j < |r| && r[i] in xs && r[j] in xs ==> FirstIndex(xs, r[i]) < FirstIndex(xs, r[j])
  }

  /** `Array.from(new Set(xs))`: insertion order, each value once. */
  function Dedup<T(==,!new)>(xs: seq<T>): (r: seq<T>)
    ensures NoDups(r)
    ensures forall x :: x in r <==> x in xs
    ensures |r| <= |xs|
    ensures FirstSeenOrder(r, xs)
  {
    if |xs| == 0 then []
    else
      var n := |xs| - 1;
      var init := Dedup(xs[..n]);
      var last := xs[n];
      assert forall x :: x in xs <==> x in xs[..n] || x == last;
      var r := if last in init then init else init + [last];
      forall i, j | 0 <= i < j < |r|
        ensures FirstIndex(xs, r[i]) < FirstIndex(xs, r[j])
      {
        FirstIndexPrefix(xs, n, r[i]);
        if j < |init| {
          FirstIndexPrefix(xs, n, r[j]);
        } else {
          FirstIndexUnique(xs, last, n);
        }
      }
      r
  }

  /** `xs.filter(v => v !== x)`: every other value keeps its place and its repeats. */
  function RemoveAll<T(==,!new)>(xs: seq<T>, x: T): (r: seq<T>)
    ensures x !in r
    ensures forall y :: y != x ==> (y in r <==> y in xs)
    ensures |r| <= |xs|
    ensures NoDups(xs) ==> NoDups(r)
    ensures IsSubsequence(r, xs)
    ensures forall y {:trigger multiset(r)[y]} :: multiset(r)[y] == if y == x then 0 else multiset(xs)[y]
  {
    if |xs| == 0 then []
    else
      assert xs == [xs[0]] + xs[1..];
      if xs[0] == x then RemoveAll(xs[1..], x)
      else
        var rest := RemoveAll(xs[1..], x);
        assert forall y :: y in xs <==> y == xs[0] || y in xs[1..];
        ConsKeepsNoDups(xs, rest);
        assert ([xs[0]] + rest)[1..] == rest;
        [xs[0]] + rest
  }

  lemma ConsKeepsNoDups<T(!new)>(xs: seq<T>, rest: seq<T>)
    requires |xs| > 0
    requires forall y :: y in rest ==> y in xs[1..]
    ensures NoDups(xs) && NoDups(rest) ==> NoDups([xs[0]] + rest)
  {
    if NoDups(xs) && NoDups(rest) {
      NoDupsCons(xs[0], rest);
    }
  }

  lemma NoDupsCons<T(!new)>(a: T, rest: seq<T>)
    requires a !in rest && NoDups(rest)
    ensures NoDups([a] + rest)
  {
    var r := [a] + rest;
    forall i, j | 0 <= i < j < |r|
      ensures r[i] != r[j]
    {
      if i == 0 {
        assert r[j] == rest[j - 1];
      } else {
        assert r[i] == rest[i - 1] && r[j] == rest[j - 1];
      }
    }
  }

  /**
   * The set idiom used by every multi-select in the client:
   * `const s = new Set(xs); s.has(v) ? s.delete(v) : s.add(v); Array.from(s)`.
   */
  function SetToggle<T(==,!new)>(xs: seq<T>, v: T): (r: seq<T>)
    ensures NoDups(r)
    ensures v in r <==> v !in xs
    ensures forall y :: y != v ==> (y in r <==> y in xs)
    ensures FirstSeenOrder(r, xs)
    ensures v !in xs ==> |r| > 0 && r[|r| - 1] == v
  {
    var s := Dedup(xs);
    if v in s then
      var r := RemoveAll(s, v);
      SubsequenceKeepsOrder(r, s, xs);
      r
    else
      var r := s + [v];
      assert forall i :: 0 <= i < |s| ==> r[i] == s[i];
      r
  }

  /** Toggling the same value twice gives back the original membership. */
  lemma SetToggleTwice<T(!new)>(xs: seq<T>, v: T)
    ensures forall y :: y in SetToggle(SetToggle(xs, v), v) <==> y in xs
  {
  }

  /** `xs.filter(p)`, order kept: every occurrence of a kept value survives, nothing else does. */
  function Filter<T(!new)>(xs: seq<T>, p: T -> bool): (r: seq<T>)
    ensures |r| <= |xs|
    ensures forall x :: x in r <==> x in xs && p(x)
    ensures forall x {:trigger multiset(r)[x]} :: multiset(r)[x] == if p(x) then multiset(xs)[x] else 0
  {
    if |xs| == 0 then []
    else
      var rest := Filter(xs[1..], p);
      assert forall x :: x in xs <==> x == xs[0] || x in xs[1..];
      assert xs == [xs[0]] + xs[1..];
      if p(xs[0]) then [xs[0]] + rest else rest
  }

  /** Filtering a non-empty list: its head, if kept, followed by the filtered tail. */
  lemma FilterCons<T(!new)>(xs: seq<T>, p: T -> bool)
    requires |xs| > 0
    ensures Filter(xs, p) == (if p(xs[0]) then [xs[0]] else []) + Filter(xs[1..], p)
  {
  }

  /** Mapping distributes over concatenation. */
  lemma MapAppend<T, U>(a: seq<T>, b: seq<T>, f: T -> U)
    ensures Map(a + b, f) == Map(a, f) + Map(b, f)
  {
    assert forall i :: 0 <= i < |a + b| ==> Map(a + b, f)[i] == (Map(a, f) + Map(b, f))[i];
  }

  /** Filtering keeps the relative order: the result is a subsequence. */
  predicate IsSubsequence<T(==,!new)>(r: seq<T>, xs: seq<T>)
    decreases |xs|
  {
    if |r| == 0 then true
    else if |xs| == 0 then false
    else if r[0] == xs[0] then IsSubsequence(r[1..], xs[1..])
    else IsSubsequence(r, xs[1..])
  }

  lemma {:induction false} FilterIsSubsequence<T(!new)>(xs: seq<T>, p: T -> bool)
    ensures IsSubsequence(Filter(xs, p), xs)
  {
    if |xs| > 0 {
      FilterIsSubsequence(xs[1..], p);
    }
  }

  /** `xs.map(f)`. */
  function Map<T, U>(xs: seq<T>, f: T -> U): (r: seq<U>)
    ensures |r| == |xs|
    ensures forall i :: 0 <= i < |xs| ==> r[i] == f(xs[i])
  {
    seq(|xs|, i requires 0 <= i < |xs| => f(xs[i]))
  }

  /** `xs.slice(0, n)` for n >= 0. */
  function Take<T>(xs: seq<T>, n: nat): (r: seq<T>)
    ensures |r| == if n < |xs| then n else |xs|
    ensures r == xs[..|r|]
  {
    if n < |xs| then xs[..n] else xs
  }

  /** Entry `i` is the last one for its key. */
  predicate LastForKey<K(==), V>(ps: seq<(K, V)>, i: int)
    requires 0 <= i < |ps|
  {
    forall j :: i < j < |ps| ==> ps[j].0 != ps[i].0
  }

  /** A `Map` filled by calling `set(k, v)` for each pair in order. */
  function FromPairs<K, V>(ps: seq<(K, V)>): map<K, V>
    decreases |ps|
  {
    if |ps| == 0 then map[] else FromPairs(ps[..|ps| - 1])[ps[|ps| - 1].0 := ps[|ps| - 1].1]
  }

  /** Exactly the keys that occur in some pair are present. */
  lemma {:induction false} FromPairsKeys<K(!new), V>(ps: seq<(K, V)>, k: K)
    ensures k in FromPairs(ps) <==> exists i :: 0 <= i < |ps| && ps[i].0 == k
    decreases |ps|
  {
    if |ps| > 0 {
      var init := ps[..|ps| - 1];
      FromPairsKeys(init, k);
      if k in FromPairs(init) {
        var i :| 0 <= i < |init| && init[i].0 == k;
        assert ps[i].0 == k;
      }
      if exists i :: 0 <= i < |ps| && ps[i].0 == k {
        var i :| 0 <= i < |ps| && ps[i].0 == k;
        if i < |ps| - 1 {
          assert init[i].0 == k;
        }
      }
    }
  }

  /** A key holds the value of its last pair: later `set` calls override earlier ones. */
  lemma {:induction false} FromPairsLastWins<K(!new), V>(ps: seq<(K, V)>, i: int)
    requires 0 <= i < |ps| && LastForKey(ps, i)
    ensures ps[i].0 in FromPairs(ps) && FromPairs(ps)[ps[i].0] == ps[i].1
    decreases |ps|
  {
    if i < |ps| - 1 {
      var init := ps[..|ps| - 1];
      assert init[i] == ps[i];
      assert LastForKey(init, i) by {
        forall j | i < j < |init| ensures init[j].0 != init[i].0 {
          assert init[j] == ps[j];
        }
      }
      FromPairsLastWins(init, i);
    }
  }

  /** A subsequence of the tail is a subsequence of the whole. */
  lemma {:induction false} SubsequenceWeaken<T(!new)>(r: seq<T>, xs: seq<T>)
    requires |xs| > 0 && IsSubsequence(r, xs[1..])
    ensures IsSubsequence(r, xs)
    decreases |xs|, 0
  {
    if |r| > 0 && r[0] == xs[0] {
      SubsequenceTail(r, xs[1..]);
    }
  }

  /** Dropping the first element keeps a subsequence. */
  lemma {:induction false} SubsequenceTail<T(!new)>(a: seq<T>, xs: seq<T>)
    requires |a| > 0 && IsSubsequence(a, xs)
    ensures IsSubsequence(a[1..], xs)
    decreases |xs|, 1
  {
    if a[0] == xs[0] {
      SubsequenceWeaken(a[1..], xs);
    } else {
      SubsequenceTail(a, xs[1..]);
      SubsequenceWeaken(a[1..], xs);
    }
  }

  lemma {:induction false} PrefixIsSubsequence<T(!new)>(xs: seq<T>, n: nat)
    requires n <= |xs|
    ensures IsSubsequence(xs[..n], xs)
    decreases |xs|
  {
    if n > 0 {
      assert xs[..n][1..] == xs[1..][..n - 1];
      PrefixIsSubsequence(xs[1..], n - 1);
    }
  }

  /** Being a subsequence is transitive. */
  lemma {:induction false} SubsequenceTrans<T(!new)>(a: seq<T>, b: seq<T>, c: seq<T>)
    requires IsSubsequence(a, b) && IsSubsequence(b, c)
    ensures IsSubsequence(a, c)
    decreases |c|
  {
    if |a| > 0 {
      if b[0] == c[0] {
        if a[0] == b[0] {
          SubsequenceTrans(a[1..], b[1..], c[1..]);
        } else {
          SubsequenceTrans(a, b[1..], c[1..]);
        }
      } else {
        SubsequenceTrans(a, b, c[1..]);
        SubsequenceWeaken(a, c);
      }
    }
  }

  /** A subsequence only holds members of the whole. */
  lemma {:induction false} SubsequenceMembers<T(!new)>(r: seq<T>, xs: seq<T>)
    requires IsSubsequence(r, xs)
    ensures forall x :: x in r ==> x in xs
    decreases |xs|
  {
    if |r| > 0 {
      assert xs == [xs[0]] + xs[1..];
      if r[0] == xs[0] {
        SubsequenceMembers(r[1..], xs[1..]);
        assert r == [r[0]] + r[1..];
      } else {
        SubsequenceMembers(r, xs[1..]);
      }
    }
  }

  /** A subsequence keeps the first-occurrence order of the whole. */
  lemma {:induction false} SubsequenceKeepsOrder<T(!new)>(r: seq<T>, s: seq<T>, ys: seq<T>)
    requires IsSubsequence(r, s) && FirstSeenOrder(s, ys)
    ensures FirstSeenOrder(r, ys)
    decreases |s|
  {
    if |r| > 0 {
      var t := s[1..];
      assert FirstSeenOrder(t, ys) by {
        forall i, j | 0 <= i < j < |t| && t[i] in ys && t[j] in ys
          ensures FirstIndex(ys, t[i]) < FirstIndex(ys, t[j])
        {
          assert t[i] == s[i + 1] && t[j] == s[j + 1];
        }
      }
      if r[0] == s[0] {
        SubsequenceKeepsOrder(r[1..], t, ys);
        SubsequenceMembers(r[1..], t);
        forall i, j | 0 <= i < j < |r| && r[i] in ys && r[j] in ys
          ensures FirstIndex(ys, r[i]) < FirstIndex(ys, r[j])
        {
          if i == 0 {
            assert r[j] == r[1..][j - 1];
            assert r[j] in r[1..];
            var k :| 0 <= k < |t| && t[k] == r[j];
            assert s[k + 1] == r[j];
          } else {
            assert r[i] == r[1..][i - 1] && r[j] == r[1..][j - 1];
          }
        }
      } else {
        SubsequenceKeepsOrder(r, t, ys);
      }
    }
  }

  /** A sequence with no members is empty. */
  lemma NoMembersEmpty<T>(xs: seq<T>)
    ensures (forall x :: x !in xs) ==> xs == []
  {
    if |xs| > 0 {
      assert xs[0] in xs;
    }
  }

  /** The members of `xs.map(f)` are exactly the images of members of `xs`. */
  lemma MapMembers<T, U>(xs: seq<T>, f: T -> U)
    ensures forall y :: y in Map(xs, f) <==> exists i :: 0 <= i < |xs| && y == f(xs[i])
  {
    var r := Map(xs, f);
    forall y | y in r ensures exists i :: 0 <= i < |xs| && y == f(xs[i]) {
      var j :| 0 <= j < |r| && r[j] == y;
      assert y == f(xs[j]);
    }
  }

  /** `new Map([...a, ...b])`: the entries of `b` override those of `a`. */
  lemma {:induction false} FromPairsAppend<K(!new), V>(a: seq<(K, V)>, b: seq<(K, V)>)
    ensures FromPairs(a + b) == FromPairs(a) + FromPairs(b)
    decreases |b|
  {
    if |b| == 0 {
      assert a + b == a;
    } else {
      var b' := b[..|b| - 1];
      assert (a + b)[..|a + b| - 1] == a + b';
      FromPairsAppend(a, b');
    }
  }
}

=== FILE: members_page.dfy ===
/**
 * The admin members page: the page count taken from the server's reply,
 * the clamped Prev/Next buttons, the page reset on a search edit, the
 * invite form's guard and clearing, and the role select of each row.
 */
module MembersPage {
  import opened Wrappers
  import Paging

  /** The page size the page asks for. */
  const LocalLimit := 20

  /** `x || d` on an optional number: absent and zero both fall back. */
  function OrNumber(x: Option<int>, d: int): (r: int)
    ensures x.Some? && x.value != 0 ==> r == x.value
    ensures x.None? || x.value == 0 ==> r == d
  {
    if x.Some? && x.value != 0 then x.value else d
  }

  /** The paging fields of the list reply, each possibly missing; no reply at all has none of them. */
  datatype ListReply = ListReply(page: Option<int>, limit: Option<int>, total: Option<int>)

  /**
   * `max(1, ceil((total || 0) / (limit || local limit)))`. The divisor is never
   * zero; a negative one divides like its negation into the negated total.
   */
  function TotalPages(reply: ListReply): (r: int)
    ensures r >= 1
    ensures reply.total.None? || reply.total.value == 0 ==> r == 1
    ensures var limit := OrNumber(reply.limit, LocalLimit);
      var total := OrNumber(reply.total, 0);
      && limit != 0
      && (limit > 0 && total > 0 ==> (r - 1) * limit < total <= r * limit)
      && (limit > 0 && total <= 0 ==> r == 1)
      && (limit < 0 && total >= 0 ==> r == 1)
      && (limit < 0 && total < 0 ==> (r - 1) * -limit < -total <= r * -limit)
  {
    var limit := OrNumber(reply.limit, LocalLimit);
    var total := OrNumber(reply.total, 0);
    if limit > 0 then Paging.PageCount(total, limit) else Paging.PageCount(-total, -limit)
  }

  /** The page the footer reads: the reply's page, else the local one. */
  function ShownPage(reply: ListReply, page: int): (r: int)
    ensures reply.page.Some? && reply.page.value != 0 ==> r == reply.page.value
    ensures reply.page.Some? && reply.page.value == 0 ==> r == page
    ensures reply.page.None? ==> r == page
  {
    OrNumber(reply.page, page)
  }

  /** Whether Prev and Next are disabled. */
  datatype Buttons = Buttons(prevDisabled: bool, nextDisabled: bool)

  function Footer(reply: ListReply, page: int): (b: Buttons)
    ensures b.prevDisabled <==> ShownPage(reply, page) <= 1
    ensures b.nextDisabled <==> ShownPage(reply, page) >= TotalPages(reply)
  {
    var shown := ShownPage(reply, page);
    Buttons(shown <= 1, shown >= TotalPages(reply))
  }

  /** Prev's updater: `max(1, p - 1)` on the local page. */
  function Prev(page: int): (r: int)
    ensures r >= 1
    ensures page > 1 ==> r == page - 1
    ensures page <= 1 ==> r == 1
  {
    if page - 1 > 1 then page - 1 else 1
  }

  /** Next's updater: `min(totalPages, p + 1)` on the local page. */
  function Next(page: int, totalPages: int): (r: int)
    ensures r <= totalPages
    ensures page < totalPages ==> r == page + 1
    ensures page >= totalPages ==> r == totalPages
  {
    if page + 1 < totalPages then page + 1 else totalPages
  }

  /** Clicking Prev or Next keeps a page that lies in `[1, totalPages]` inside that range. */
  lemma ButtonsKeepPageInRange(reply: ListReply, page: int)
    requires 1 <= page <= TotalPages(reply)
    ensures 1 <= Prev(page) <= TotalPages(reply)
    ensures 1 <= Next(page, TotalPages(reply)) <= TotalPages(reply)
  {
  }

  /** The search box and the local page. */
  datatype Search = Search(input: string, page: int)

  /** Typing in the search box resets the page. */
  function EditSearch(s: Search, text: string): (r: Search)
    ensures r.input == text && r.page == 1
  {
    Search(text, 1)
  }

  /** The clear button empties the box and resets the page. */
  function ClearSearch(s: Search): (r: Search)
    ensures r.input == "" && r.page == 1
  {
    Search("", 1)
  }

  /** The roles the invite form offers. */
  datatype InviteRole = InviteMember | InviteAdmin

  datatype InviteForm = InviteForm(email: string, name: string, password: string, role: InviteRole)

  /** The invite request; `password || undefined` and `name || undefined` drop empty fields. */
  datatype InviteRequest = InviteRequest(email: string, role: InviteRole, password: Option<string>, name: Option<string>)

  datatype InviteOutcome = Refused(message: string) | Send(request: InviteRequest)

  const EmailRequired := "Email is required"

  /** Send invite: refused with a message on an empty email, else the request. */
  function Invite(f: InviteForm): (r: InviteOutcome)
    ensures r.Refused? <==> f.email == ""
    ensures r.Refused? ==> r.message == EmailRequired
    ensures r.Send? ==> r.request.email == f.email && r.request.role == f.role
    ensures r.Send? ==> (r.request.password.None? <==> f.password == "")
    ensures r.Send? ==> (r.request.name.None? <==> f.name == "")
    ensures r.Send? && r.request.password.Some? ==> r.request.password.value == f.password
    ensures r.Send? && r.request.name.Some? ==> r.request.name.value == f.name
  {
    if f.email == "" then Refused(EmailRequired)
    else Send(InviteRequest(f.email, f.role,
                            if f.password == "" then None else Some(f.password),
                            if f.name == "" then None else Some(f.name)))
  }

  /** The form after the invite settles: email, password and name cleared only on success. */
  function InviteSettled(f: InviteForm, succeeded: bool): (r: InviteForm)
    ensures succeeded ==> r.email == "" && r.password == "" && r.name == ""
    ensures !succeeded ==> r == f
    ensures r.role == f.role
  {
    if succeeded then InviteForm("", "", "", f.role) else f
  }

  /** A member row's role select. */
  datatype RoleSelect = RoleSelect(disabled: bool, options: seq<string>)

  /** Disabled for a superadmin, which is also the only role that gets its own option. */
  function RoleSelectFor(role: string): (r: RoleSelect)
    ensures r.disabled <==> role == "superadmin"
    ensures |r.options| >= 2 && r.options[0] == "member" && r.options[1] == "admin"
    ensures "superadmin" in r.options <==> role == "superadmin"
  {
    if role == "superadmin" then RoleSelect(true, ["member", "admin", "superadmin"])
    else RoleSelect(false, ["member", "admin"])
  }

  /** The row's main label: the name, else the email. */
  function DisplayName(name: Option<string>, email: string): (r: string)
    ensures name.Some? && name.value != "" ==> r == name.value
    ensures name.None? || name.value == "" ==> r == email
  {
    if name.Some? && name.value != "" then name.value else email
  }
}

=== FILE: multi_select.dfy ===
/**
 * The muscle multi-select's button label: the placeholder, the labels of up
 * to two chosen options, or a count.
 */
module MultiSelect {
  import opened Wrappers
  import Lists
  import Text

  datatype Choice = Choice(value: string, caption: string)

  const DefaultPlaceholder := "Select"

  /** The labels of the options whose value is chosen, in the order of the options. */
  function ChosenLabels(chosen: seq<string>, options: seq<Choice>): (r: seq<string>)
    ensures |r| <= |options|
    ensures forall l :: l in r <==> exists i :: 0 <= i < |options| && options[i].value in chosen && options[i].caption == l
  {
    if |options| == 0 then []
    else
      var rest := ChosenLabels(chosen, options[1..]);
      assert forall i :: 1 <= i < |options| ==> options[i] == options[1..][i - 1];
      if options[0].value in chosen then [options[0].caption] + rest else rest
  }

  /** The labels are `options.filter(chosen).map(label)`: the captions of the chosen options, in option order, each occurrence kept. */
  lemma {:induction false} LabelsAreCaptionsOfChosen(chosen: seq<string>, options: seq<Choice>)
    ensures ChosenLabels(chosen, options) == Lists.Map(Lists.Filter(options, IsChosen(chosen)), Caption)
    decreases |options|
  {
    if |options| > 0 {
      LabelsAreCaptionsOfChosen(chosen, options[1..]);
      var head := if options[0].value in chosen then [options[0]] else [];
      Lists.FilterCons(options, IsChosen(chosen));
      Lists.MapAppend(head, Lists.Filter(options[1..], IsChosen(chosen)), Caption);
    }
  }

  /** `o => selectedSet.has(o.value)`. */
  function IsChosen(chosen: seq<string>): Choice -> bool {
    (o: Choice) => o.value in chosen
  }

  /** `o => o.label`. */
  function Caption(o: Choice): string {
    o.caption
  }

  /** `display`. */
  function Display(chosen: seq<string>, options: seq<Choice>, placeholder: Option<string>): (r: string)
    ensures |chosen| == 0 ==> r == placeholder.GetOr(DefaultPlaceholder)
    ensures 1 <= |chosen| <= 2 ==> r == Text.Join(ChosenLabels(chosen, options), ", ")
    ensures |chosen| > 2 ==> (
      && |r| > |" selected"|
      && r[|r| - |" selected"|..] == " selected"
      && Text.ParseDecimal(r[..|r| - |" selected"|]) == Some(|chosen|))
  {
    if |chosen| == 0 then placeholder.GetOr(DefaultPlaceholder)
    else if |chosen| <= 2 then Text.Join(ChosenLabels(chosen, options), ", ")
    else
      var n := Text.NatToString(|chosen|);
      Text.ParseRendered(|chosen|);
      assert (n + " selected")[..|n|] == n;
      n + " selected"
  }

  /** The labels depend only on which values are chosen, not on their order or repetition. */
  lemma {:induction false} LabelsIgnoreSelectionOrder(a: seq<string>, b: seq<string>, options: seq<Choice>)
    requires forall x :: x in a <==> x in b
    ensures ChosenLabels(a, options) == ChosenLabels(b, options)
    decreases |options|
  {
    if |options| > 0 {
      LabelsIgnoreSelectionOrder(a, b, options[1..]);
    }
  }

  /** A chosen value that no option carries adds no label. */
  lemma {:induction false} UnknownValueAddsNothing(chosen: seq<string>, x: string, options: seq<Choice>)
    requires forall i :: 0 <= i < |options| ==> options[i].value != x
    ensures ChosenLabels(chosen + [x], options) == ChosenLabels(chosen, options)
    decreases |options|
  {
    if |options| > 0 {
      assert options[0].value in chosen + [x] <==> options[0].value in chosen;
      UnknownValueAddsNothing(chosen, x, options[1..]);
    }
  }
}

=== FILE: muscle_map.dfy ===
/**
 * The muscle map's highlighting. The SVG document is abstracted as the set
 * of element ids it contains; highlighting yields the set of ids that carry
 * the primary class and the set that carry the secondary class.
 */
module MuscleMap {
  import opened Wrappers
  import Lists
  import Text
  import ExerciseTypes

  datatype Side = Front | Back

  /** The region's SVG id on one side, the empty string when it has none. */
  function SvgId(r: ExerciseTypes.MuscleRegion, side: Side): string {
    var id := if side == Front then r.svgIdFront else r.svgIdBack;
    if id.Some? then id.value else ""
  }

  predicate HasId(side: Side, r: ExerciseTypes.MuscleRegion) {
    SvgId(r, side) != ""
  }

  /** The `set` calls of one side's map, in region order: name (or code) to SVG id, for regions with an id. */
  function Entries(regions: seq<ExerciseTypes.MuscleRegion>, side: Side, byCode: bool): (ps: seq<(string, string)>)
    ensures forall i :: 0 <= i < |ps| ==> ps[i].1 != ""
  {
    var withId := Lists.Filter(regions, r => HasId(side, r));
    assert forall i :: 0 <= i < |withId| ==> withId[i] in withId;
    Lists.Map(withId, (r: ExerciseTypes.MuscleRegion) => (if byCode then r.code else r.name, SvgId(r, side)))
  }

  function KeyOf(r: ExerciseTypes.MuscleRegion, byCode: bool): string {
    if byCode then r.code else r.name
  }

  /** `byNameFront` and friends. */
  function RegionMap(regions: seq<ExerciseTypes.MuscleRegion>, side: Side, byCode: bool): map<string, string> {
    Lists.FromPairs(Entries(regions, side, byCode))
  }

  /** Every entry comes from a region with that key and an id on that side. */
  lemma EntriesSound(regions: seq<ExerciseTypes.MuscleRegion>, side: Side, byCode: bool, i: int)
    requires 0 <= i < |Entries(regions, side, byCode)|
    ensures exists j :: 0 <= j < |regions| &&
              KeyOf(regions[j], byCode) == Entries(regions, side, byCode)[i].0 && HasId(side, regions[j])
  {
    var withId := Lists.Filter(regions, r => HasId(side, r));
    assert withId[i] in withId;
    var j :| 0 <= j < |regions| && regions[j] == withId[i];
    assert KeyOf(regions[j], byCode) == Entries(regions, side, byCode)[i].0;
  }

  /** Every region with an id on that side has an entry under its key. */
  lemma EntriesComplete(regions: seq<ExerciseTypes.MuscleRegion>, side: Side, byCode: bool, j: int)
    requires 0 <= j < |regions| && HasId(side, regions[j])
    ensures exists i :: 0 <= i < |Entries(regions, side, byCode)| &&
              Entries(regions, side, byCode)[i].0 == KeyOf(regions[j], byCode)
  {
    var withId := Lists.Filter(regions, r => HasId(side, r));
    assert regions[j] in withId;
    var i :| 0 <= i < |withId| && withId[i] == regions[j];
    assert Entries(regions, side, byCode)[i].0 == KeyOf(regions[j], byCode);
  }

  /** A key is in a side's map exactly when some region with that key has an id on that side. */
  lemma RegionMapKeys(regions: seq<ExerciseTypes.MuscleRegion>, side: Side, byCode: bool, k: string)
    ensures k in RegionMap(regions, side, byCode) <==>
      exists j :: 0 <= j < |regions| && KeyOf(regions[j], byCode) == k && HasId(side, regions[j])
  {
    var ps := Entries(regions, side, byCode);
    Lists.FromPairsKeys(ps, k);
    if k in RegionMap(regions, side, byCode) {
      var i :| 0 <= i < |ps| && ps[i].0 == k;
      EntriesSound(regions, side, byCode, i);
    }
    if exists j :: 0 <= j < |regions| && KeyOf(regions[j], byCode) == k && HasId(side, regions[j]) {
      var j :| 0 <= j < |regions| && KeyOf(regions[j], byCode) == k && HasId(side, regions[j]);
      EntriesComplete(regions, side, byCode, j);
    }
  }

  /** Every id a side's map yields is non-empty. */
  lemma RegionMapIdsTruthy(regions: seq<ExerciseTypes.MuscleRegion>, side: Side, byCode: bool, k: string)
    requires k in RegionMap(regions, side, byCode)
    ensures RegionMap(regions, side, byCode)[k] != ""
  {
    var ps := Entries(regions, side, byCode);
    LastValueFromPairs(ps, k);
  }

  lemma {:induction false} LastValueFromPairs(ps: seq<(string, string)>, k: string)
    requires k in Lists.FromPairs(ps)
    ensures exists i :: 0 <= i < |ps| && ps[i].0 == k && ps[i].1 == Lists.FromPairs(ps)[k]
    decreases |ps|
  {
    var init := ps[..|ps| - 1];
    if ps[|ps| - 1].0 != k {
      LastValueFromPairs(init, k);
      var i :| 0 <= i < |init| && init[i].0 == k && init[i].1 == Lists.FromPairs(init)[k];
      assert ps[i] == init[i];
    }
  }

  /** `byAnyFront` / `byAnyBack`: names first, then codes. */
  function AnyMap(regions: seq<ExerciseTypes.MuscleRegion>, side: Side): (m: map<string, string>)
    ensures forall k :: k in m <==> k in RegionMap(regions, side, false) || k in RegionMap(regions, side, true)
    ensures forall k :: k in RegionMap(regions, side, true) ==> m[k] == RegionMap(regions, side, true)[k]
    ensures forall k :: k in RegionMap(regions, side, false) && k !in RegionMap(regions, side, true) ==>
      m[k] == RegionMap(regions, side, false)[k]
  {
    Lists.FromPairsAppend(Entries(regions, side, false), Entries(regions, side, true));
    Lists.FromPairs(Entries(regions, side, false) + Entries(regions, side, true))
  }

  // ---- highlighting ---------------------------------------------------------

  /** Aggregate names that stand for several SVG parts. */
  function Fallback(code: string): Option<seq<string>> {
    if code == "rectus_abdominis" then Some(["abs_upper", "abs_lower"])
    else if code == "quadriceps" then Some(["quads_outer", "quads_inner"])
    else if code == "trapezius" then Some(["traps"])
    else None
  }

  /** Codes whose SVG ids may be spelled differently. */
  function Aliases(code: string): seq<string> {
    if code == "quads_medial" then ["vastus_medialis", "vm", "quads_medialis", "vastusmedialis"]
    else if code == "quads_outer" then ["vastus_lateralis", "vl", "vastuslateralis"]
    else if code == "quads_inner" then ["vastus_intermedius", "vi", "vastusintermedius"]
    else if code == "gluteus_maximus" then ["glute_max", "gluteusmaximus", "gluteus-maximus"]
    else []
  }

  /** `getElementById(id)` finds an element. */
  predicate Found(present: set<string>, id: string) {
    id != "" && id in present
  }

  /** The spellings tried, in order, when neither the map nor the fallbacks know the key. */
  function Variants(key: string): (vs: seq<string>)
    ensures |vs| >= 3 && vs[0] == key
  {
    [key, Text.ReplaceChar(key, '_', '-'), Text.RemoveWhere(key, c => c == '_')] + Aliases(Text.Lower(key))
  }

  /** The first variant that names an element, if any. */
  function FirstFound(present: set<string>, vs: seq<string>): (r: Option<string>)
    ensures r.Some? ==> r.value in vs && Found(present, r.value)
    ensures r.Some? ==> exists i :: 0 <= i < |vs| && vs[i] == r.value && forall j :: 0 <= j < i ==> !Found(present, vs[j])
    ensures r.None? <==> forall i :: 0 <= i < |vs| ==> !Found(present, vs[i])
    decreases |vs|
  {
    if |vs| == 0 then None
    else if Found(present, vs[0]) then Some(vs[0])
    else
      var rest := FirstFound(present, vs[1..]);
      if rest.Some? then
        var i :| 0 <= i < |vs[1..]| && vs[1..][i] == rest.value && forall j :: 0 <= j < i ==> !Found(present, vs[1..][j]);
        assert vs[i + 1] == rest.value;
        rest
      else rest
  }

  /** The ids one selected name or code highlights. */
  function Targets(key: string, byAny: map<string, string>, present: set<string>): (ids: set<string>)
    ensures key in byAny && byAny[key] != "" ==> ids <= {byAny[key]}
    ensures key in byAny && byAny[key] != "" && Found(present, byAny[key]) ==> ids == {byAny[key]}
    ensures !(key in byAny && byAny[key] != "") && Fallback(Text.Lower(key)).Some? ==>
      ids == (set a | a in Fallback(Text.Lower(key)).value && Found(present, a))
    ensures !(key in byAny && byAny[key] != "") && Fallback(Text.Lower(key)).None? ==>
      |ids| <= 1 && (ids == {} <==> FirstFound(present, Variants(key)).None?)
    ensures !(key in byAny && byAny[key] != "") && Fallback(Text.Lower(key)).None? && FirstFound(present, Variants(key)).Some? ==>
      ids == {FirstFound(present, Variants(key)).value}
    ensures forall id :: id in ids ==> Found(present, id)
  {
    if key in byAny && byAny[key] != "" then
      if Found(present, byAny[key]) then {byAny[key]} else {}
    else match Fallback(Text.Lower(key))
      case Some(alts) => set a | a in alts && Found(present, a)
      case None =>
        match FirstFound(present, Variants(key))
        case Some(v) => {v}
        case None => {}
  }

  /** The ids a list of selected names or codes highlights (`add(arr, cls)`). */
  function TargetsOf(keys: seq<string>, byAny: map<string, string>, present: set<string>): (ids: set<string>)
    ensures forall id :: id in ids <==> exists i :: 0 <= i < |keys| && id in Targets(keys[i], byAny, present)
    decreases |keys|
  {
    if |keys| == 0 then {}
    else
      var rest := TargetsOf(keys[1..], byAny, present);
      assert forall i :: 1 <= i < |keys| ==> keys[i] == keys[1..][i - 1];
      Targets(keys[0], byAny, present) + rest
  }

  /** The classes after a highlight pass: primary and secondary ids. */
  datatype Highlight = Highlight(primaryIds: set<string>, secondaryIds: set<string>)

  /**
   * A highlight pass: earlier classes are cleared, then primaries and then
   * secondaries are applied through the front map.
   */
  function Rehighlight(regions: seq<ExerciseTypes.MuscleRegion>, primary: seq<string>, secondary: seq<string>, present: set<string>): (r: Highlight)
    ensures r.primaryIds == TargetsOf(primary, AnyMap(regions, Front), present)
    ensures r.secondaryIds == TargetsOf(secondary, AnyMap(regions, Front), present)
    ensures r.primaryIds <= present && r.secondaryIds <= present
  {
    var byAny := AnyMap(regions, Front);
    Highlight(TargetsOf(primary, byAny, present), TargetsOf(secondary, byAny, present))
  }

  /** A code found in the front map highlights exactly its region's id, when the document has it. */
  lemma CodeHitIsExact(regions: seq<ExerciseTypes.MuscleRegion>, code: string, present: set<string>)
    requires code in RegionMap(regions, Front, true)
    requires RegionMap(regions, Front, true)[code] in present
    ensures Targets(code, AnyMap(regions, Front), present) == {RegionMap(regions, Front, true)[code]}
  {
    RegionMapIdsTruthy(regions, Front, true, code);
  }

  /** Without metadata, `quadriceps` highlights both quadriceps parts that the document has. */
  lemma QuadricepsFallback(present: set<string>)
    requires "quads_outer" in present && "quads_inner" in present
    ensures Targets("quadriceps", map[], present) == {"quads_outer", "quads_inner"}
  {
    LowerQuadriceps();
  }

  lemma LowerQuadriceps()
    ensures Text.Lower("quadriceps") == "quadriceps"
  {
    assert forall i :: 0 <= i < |"quadriceps"| ==> Text.LowerChar("quadriceps"[i]) == "quadriceps"[i];
  }
}

=== FILE: paginator.dfy ===
/** The exercise-list paginator: page count, the visible window of page buttons, and `goto`. */
module Paginator {
  import SearchParams
  import Text
  import opened Wrappers

  /**
   * The page buttons: consecutive pages from `max(1, page - 2)` up to
   * `min(pages, start + 4)`, so never more than five, never outside
   * `[1, pages]`, and containing `page` exactly when `page` is in range.
   */
  function Window(page: int, pages: int): (r: seq<int>)
    ensures |r| <= 5
    ensures forall i :: 0 <= i < |r| ==> 1 <= r[i] <= pages
    ensures forall i :: 0 <= i < |r| ==> r[i] == r[0] + i
    ensures page in r <==> 1 <= page <= pages
    ensures 1 <= page <= pages ==> |r| >= 3 || |r| == pages
    ensures |r| > 0 ==> r[0] == WindowStart(page)
    ensures forall q :: q in r <==> WindowStart(page) <= q <= pages && q <= WindowStart(page) + 4
  {
    var start := if page - 2 > 1 then page - 2 else 1;
    var end := if pages < start + 4 then pages else start + 4;
    var n := if end - start + 1 > 0 then end - start + 1 else 0;
    var r := seq(n, i => start + i);
    forall q
      ensures q in r <==> start <= q <= end
    {
      if start <= q <= end {
        assert r[q - start] == q;
      }
    }
    r
  }

  /** The first button: two pages back from the current one, but not before page 1. */
  function WindowStart(page: int): int {
    if page - 2 > 1 then page - 2 else 1
  }

  /** Away from both ends the window is the current page with two neighbours on each side. */
  lemma WindowCentred(page: int, pages: int)
    requires 3 <= page && page + 2 <= pages
    ensures Window(page, pages) == [page - 2, page - 1, page, page + 1, page + 2]
  {
  }

  /** Within the first three pages the window starts at page 1 and holds up to five pages. */
  lemma WindowNearStart(page: int, pages: int)
    requires page <= 3 && pages >= 1
    ensures Window(page, pages)[0] == 1
    ensures |Window(page, pages)| == if pages < 5 then pages else 5
  {
  }

  /** Within two pages of the end the window still starts two pages back and stops at the last page. */
  lemma WindowNearEnd(page: int, pages: int)
    requires 3 <= page <= pages < page + 2
    ensures var r := Window(page, pages);
      |r| == pages - page + 3 && r[0] == page - 2 && r[|r| - 1] == pages
  {
  }

  /** Near the last page the window shrinks instead of shifting left. */
  lemma WindowAtLastPage()
    ensures Window(10, 10) == [8, 9, 10]
    ensures Window(1, 10) == [1, 2, 3, 4, 5]
  {
  }

  /** `goto(p)`: only `page` changes, and it reads back as `p`. */
  function Goto(params: SearchParams.Params, p: nat): (r: SearchParams.Params)
    ensures SearchParams.GetAll(r, "page") == [Text.NatToString(p)]
    ensures forall k :: k != "page" ==> SearchParams.GetAll(r, k) == SearchParams.GetAll(params, k)
  {
    SearchParams.Set(params, "page", Text.NatToString(p))
  }

  lemma GotoReadsBack(params: SearchParams.Params, p: nat)
    ensures var v := SearchParams.Get(Goto(params, p), "page");
      v.Some? && Text.ParseDecimal(v.value) == Some(p)
  {
    Text.ParseRendered(p);
  }

  predicate PrevDisabled(page: int) { page <= 1 }
  predicate NextDisabled(page: int, pages: int) { page >= pages }

  /** From a page in range, an enabled Prev or Next lands on a page still in range. */
  lemma NavigationStaysInRange(page: int, pages: int)
    requires 1 <= page <= pages
    ensures !PrevDisabled(page) ==> 1 <= page - 1 <= pages
    ensures !NextDisabled(page, pages) ==> 1 <= page + 1 <= pages
  {
  }
}

=== FILE: paging.dfy ===
/**
 * The page arithmetic shared by the list pages: `Math.ceil(total / limit)`,
 * the displayed page count `Math.max(1, ...)` of it, the Prev/Next footer
 * and leaderboard ranks.
 * Limits are positive; a zero limit (which the pages would turn into
 * `Infinity` or `NaN`) is not modelled.
 */
module Paging {

  /** `Math.ceil(total / limit)` for a positive limit: the least `r` with `total <= r * limit`. */
  function CeilDiv(total: int, limit: int): (r: int)
    requires limit > 0
    ensures (r - 1) * limit < total <= r * limit
  {
    var q := total / limit;
    var m := total % limit;
    assert total == q * limit + m;
    if m == 0 then q else q + 1
  }

  /** `Math.max(1, Math.ceil(total / limit))`. */
  function PageCount(total: int, limit: int): (r: int)
    requires limit > 0
    ensures r >= 1
    ensures total > 0 ==> (r - 1) * limit < total <= r * limit
    ensures total <= 0 ==> r == 1
  {
    var c := CeilDiv(total, limit);
    if c < 1 then 1 else c
  }

  /** The rank shown for row `i` (0-based) on page `page`: `(page - 1) * limit + i + 1`. */
  function Rank(page: int, limit: int, i: int): int {
    (page - 1) * limit + i + 1
  }

  /**
   * Ranks number the rows of all pages without gaps or repeats: from a rank
   * one recovers the page and the row, so two different cells never share a rank.
   */
  lemma RankInverse(page: int, limit: int, i: int)
    requires limit > 0 && 0 <= i < limit
    ensures (Rank(page, limit, i) - 1) / limit == page - 1
    ensures (Rank(page, limit, i) - 1) % limit == i
  {
    DivModUnique(Rank(page, limit, i) - 1, limit, page - 1, i);
  }

  /** The last row of one page and the first row of the next have consecutive ranks. */
  lemma RankContinuesAcrossPages(page: int, limit: int)
    requires limit > 0
    ensures Rank(page + 1, limit, 0) == Rank(page, limit, limit - 1) + 1
  {
  }

  /** The footer of a list page: the page count shown and whether Prev and Next are disabled. */
  datatype Footer = Footer(count: int, prevDisabled: bool, nextDisabled: bool)

  /**
   * Prev is disabled at page 1 or below; Next at `ceil(total / limit)` or
   * beyond, a bound that, unlike the count shown, is not raised to 1.
   */
  function FooterOf(page: int, limit: int, total: int): (f: Footer)
    requires limit > 0
    ensures f.count >= 1
    ensures f.prevDisabled <==> page <= 1
    ensures f.nextDisabled <==> page * limit >= total
  {
    var last := CeilDiv(total, limit);
    NextBound(page, last, total, limit);
    Footer(PageCount(total, limit), page <= 1, page >= last)
  }

  /** `p >= ceil(total / limit)` said without division: pages 1 to `p` hold every item. */
  lemma NextBound(p: int, last: int, total: int, limit: int)
    requires limit > 0 && (last - 1) * limit < total <= last * limit
    ensures p >= last <==> p * limit >= total
  {
    if p >= last {
      MulMonoLe(last, p, limit);
    } else {
      MulMonoLe(p, last - 1, limit);
    }
  }

  /** With at least one item, Next is disabled exactly from the last counted page on. */
  lemma NextMatchesCount(page: int, limit: int, total: int)
    requires limit > 0 && total > 0
    ensures FooterOf(page, limit, total).nextDisabled <==> page >= FooterOf(page, limit, total).count
  {
    NextBound(page, PageCount(total, limit), total, limit);
  }

  /** With no items the count reads 1, yet Next is disabled on every page from 0 up. */
  lemma EmptyListNextDisabled(page: int, limit: int)
    requires limit > 0 && page >= 0
    ensures FooterOf(page, limit, 0).count == 1
    ensures FooterOf(page, limit, 0).nextDisabled
  {
  }

  lemma DivModUnique(n: int, d: int, q: int, m: int)
    requires d > 0 && 0 <= m < d && n == q * d + m
    ensures n / d == q && n % d == m
  {
    var q' := n / d;
    var m' := n % d;
    assert n == q' * d + m';
    if q' < q { MulMono(q', q, d); }
    else if q < q' { MulMono(q, q', d); }
  }

  lemma MulMono(a: int, b: int, d: int)
    requires d > 0 && a < b
    ensures a * d + d <= b * d
  {
    assert b * d - a * d == (b - a) * d;
    MulPos(b - a, d);
  }

  lemma MulMonoLe(a: int, b: int, d: int)
    requires d > 0 && a <= b
    ensures a * d <= b * d
  {
    if a < b { MulMono(a, b, d); }
  }

  lemma MulPos(k: int, d: int)
    requires k >= 1 && d > 0
    ensures k * d >= d
  {
  }
}

=== FILE: programs_page.dfy ===
/**
 * The programs catalogue: filter edits on the URL parameters and the
 * Prev/Next footer driven by the reply's paging metadata.
 */
module ProgramsPage {
  import opened Wrappers
  import SearchParams
  import Paging
  import Text

  type Params = SearchParams.Params

  /** `onFilterChange`: a non-empty value sets the key, an empty one deletes it; `page` is not reset. */
  function OnFilterChange(params: Params, key: string, value: string): (r: Params)
    ensures SearchParams.GetAll(r, key) == (if value == "" then [] else [value])
    ensures forall k :: k != key ==> SearchParams.GetAll(r, k) == SearchParams.GetAll(params, k)
  {
    if value != "" then SearchParams.Set(params, key, value) else SearchParams.Delete(params, key)
  }

  /** A goal or level change leaves the current page where it was. */
  lemma FilterKeepsPage(params: Params, key: string, value: string)
    requires key != "page"
    ensures SearchParams.Get(OnFilterChange(params, key, value), "page") == SearchParams.Get(params, "page")
  {
  }

  /** The reply's paging metadata; `page` may be missing. */
  datatype Meta = Meta(page: Option<int>, limit: int, total: int)

  /** `meta.page ?? 1`. */
  function CurrentPage(m: Meta): (r: int)
    ensures m.page.Some? ==> r == m.page.value
    ensures m.page.None? ==> r == 1
  {
    m.page.GetOr(1)
  }

  /** The footer for the reply's page, which defaults to 1. */
  function FooterOf(m: Meta): (f: Paging.Footer)
    requires m.limit > 0
    ensures f.count >= 1
    ensures f.prevDisabled <==> CurrentPage(m) <= 1
    ensures f.nextDisabled <==> CurrentPage(m) * m.limit >= m.total
  {
    Paging.FooterOf(CurrentPage(m), m.limit, m.total)
  }

  /** With no items at all the count reads 1 while Next is already disabled on the default page. */
  lemma EmptyCatalogue(limit: int)
    requires limit > 0
    ensures var f := FooterOf(Meta(None, limit, 0));
      f.count == 1 && f.prevDisabled && f.nextDisabled
  {
  }

  /** Prev: `page` set to `String(page - 1)`, everything else kept. */
  function Prev(params: Params, m: Meta): (r: Params)
    ensures SearchParams.Get(r, "page") == Some(Text.IntToString(CurrentPage(m) - 1))
    ensures forall k :: k != "page" ==> SearchParams.GetAll(r, k) == SearchParams.GetAll(params, k)
  {
    OnFilterChange(params, "page", Text.IntToString(CurrentPage(m) - 1))
  }

  /** Next: `page` set to `String(page + 1)`, everything else kept. */
  function Next(params: Params, m: Meta): (r: Params)
    ensures SearchParams.Get(r, "page") == Some(Text.IntToString(CurrentPage(m) + 1))
    ensures forall k :: k != "page" ==> SearchParams.GetAll(r, k) == SearchParams.GetAll(params, k)
  {
    OnFilterChange(params, "page", Text.IntToString(CurrentPage(m) + 1))
  }

  /** From an enabled Prev, the page written reads back as the number one below the current page. */
  lemma PrevReadsBack(params: Params, m: Meta)
    requires CurrentPage(m) > 1
    ensures Text.ParseDecimal(SearchParams.Get(Prev(params, m), "page").value) == Some(CurrentPage(m) - 1)
  {
    Text.ParseRendered(CurrentPage(m) - 1);
  }
}

=== FILE: roles.dfy ===
/** User roles as the profile reports them, and the admin test several pages share. */
module Roles {
  import opened Wrappers

  const MemberRole := "member"
  const CoachRole := "coach"
  const AdminRole := "admin"
  const SuperadminRole := "superadmin"

  /** `profile?.role === 'admin' || profile?.role === 'superadmin'`; a missing profile is not admin. */
  predicate IsAdminRole(role: Option<string>) {
    role == Some(AdminRole) || role == Some(SuperadminRole)
  }
}

=== FILE: search_params.dfy ===
/**
 * `URLSearchParams` as an ordered list of key/value entries. Keys may repeat;
 * `set` keeps the position of the first entry for its key.
 */
module SearchParams {
  import opened Wrappers

  type Params = seq<(string, string)>

  /** `p.getAll(k)`: the values for `k`, in entry order. */
  function GetAll(p: Params, k: string): (r: seq<string>)
    ensures |r| <= |p|
    ensures forall v :: v in r <==> (k, v) in p
  {
    if |p| == 0 then []
    else (if p[0].0 == k then [p[0].1] else []) + GetAll(p[1..], k)
  }

  /** `p.get(k)`: the first value for `k`, or null. */
  function Get(p: Params, k: string): (r: Option<string>)
    ensures r.None? <==> GetAll(p, k) == []
    ensures r.Some? ==> r.value == GetAll(p, k)[0]
  {
    if |p| == 0 then None
    else if p[0].0 == k then Some(p[0].1)
    else Get(p[1..], k)
  }

  predicate Has(p: Params, k: string) {
    exists i :: 0 <= i < |p| && p[i].0 == k
  }

  /** `p.delete(k)`: every entry for `k` goes; the rest keep their order. */
  function Delete(p: Params, k: string): (r: Params)
    ensures |r| <= |p|
    ensures GetAll(r, k) == []
    ensures forall j :: j != k ==> GetAll(r, j) == GetAll(p, j)
  {
    if |p| == 0 then []
    else if p[0].0 == k then Delete(p[1..], k)
    else [p[0]] + Delete(p[1..], k)
  }

  /** `p.append(k, v)`. */
  function Append(p: Params, k: string, v: string): (r: Params)
    ensures GetAll(r, k) == GetAll(p, k) + [v]
    ensures forall j :: j != k ==> GetAll(r, j) == GetAll(p, j)
  {
    GetAllAppend(p, (k, v), k);
    forall j | j != k ensures GetAll(p + [(k, v)], j) == GetAll(p, j) {
      GetAllAppend(p, (k, v), j);
    }
    p + [(k, v)]
  }

  lemma GetAllAppend(p: Params, e: (string, string), k: string)
    ensures GetAll(p + [e], k) == GetAll(p, k) + (if e.0 == k then [e.1] else [])
  {
    if |p| > 0 {
      assert (p + [e])[1..] == p[1..] + [e];
    }
  }

  /**
   * `p.set(k, v)`: the first entry for `k` takes the value `v`, later ones go;
   * with no entry for `k`, `(k, v)` is appended.
   */
  function Set(p: Params, k: string, v: string): (r: Params)
    ensures GetAll(r, k) == [v]
    ensures forall j :: j != k ==> GetAll(r, j) == GetAll(p, j)
    ensures |r| <= |p| + 1
  {
    if |p| == 0 then [(k, v)]
    else if p[0].0 == k then [(k, v)] + Delete(p[1..], k)
    else [p[0]] + Set(p[1..], k, v)
  }

  /** Appending each value of a list in turn. */
  function AppendAll(p: Params, k: string, vs: seq<string>): (r: Params)
    ensures GetAll(r, k) == GetAll(p, k) + vs
    ensures forall j :: j != k ==> GetAll(r, j) == GetAll(p, j)
    decreases |vs|
  {
    if |vs| == 0 then p
    else AppendAll(Append(p, k, vs[0]), k, vs[1..])
  }

  /** Setting a key that is already exactly `[v]` changes nothing a reader can see. */
  lemma {:induction false} SetIdempotent(p: Params, k: string, v: string)
    ensures Set(Set(p, k, v), k, v) == Set(p, k, v)
  {
    if |p| == 0 {
    } else if p[0].0 == k {
      DeleteAbsent(Delete(p[1..], k), k);
    } else {
      SetIdempotent(p[1..], k, v);
    }
  }

  lemma {:induction false} DeleteAbsent(p: Params, k: string)
    requires GetAll(p, k) == []
    ensures Delete(p, k) == p
  {
    if |p| > 0 {
      DeleteAbsent(p[1..], k);
    }
  }
}

=== FILE: shell.dfy ===
/**
 * The application shell: the navigation tabs, the throttle on the global
 * "please log in" event, and which auth buttons the header shows.
 */
module Shell {
  import opened Wrappers
  import Roles

  datatype Tab = Tab(to: string, caption: string)

  const HomeTab := Tab("/home", "Home")
  const LibraryTab := Tab("/exercises", "Library")
  const MembersTab := Tab("/admin/members", "Members")
  const ProfileTab := Tab("/profile", "Profile")

  /** Home and Library always; Members for a ready, signed-in admin; Profile last for anyone signed in. */
  function Tabs(ready: bool, authenticated: bool, role: Option<string>): (r: seq<Tab>)
    ensures |r| >= 2 && r[0] == HomeTab && r[1] == LibraryTab
    ensures MembersTab in r <==> ready && authenticated && (role == Some("admin") || role == Some("superadmin"))
    ensures ProfileTab in r <==> ready && authenticated
    ensures ready && authenticated ==> r[|r| - 1] == ProfileTab
    ensures |r| <= 4
    ensures |r| == 2 + (if ready && authenticated && (role == Some("admin") || role == Some("superadmin")) then 1 else 0)
                     + (if ready && authenticated then 1 else 0)
  {
    var base := [HomeTab, LibraryTab];
    var admin := if ready && authenticated && Roles.IsAdminRole(role) then [MembersTab] else [];
    var profile := if ready && authenticated then [ProfileTab] else [];
    base + admin + profile
  }

  /** The minimum gap between two accepted login redirects, in milliseconds. */
  const ThrottleMs := 2000

  /** The delay after which the in-flight flag is cleared again. */
  const InFlightMs := 500

  /** The two refs of the handler: a redirect in flight, and when the last one was accepted. */
  datatype Throttle = Throttle(inFlight: bool, lastLoginAt: int)

  const InitialThrottle := Throttle(false, 0)

  /** Why a login event did or did not redirect. */
  datatype Outcome = Redirected | AlreadySignedIn | Throttled

  /** The `app-auth-login` handler at time `now`. */
  function OnLoginEvent(t: Throttle, authenticated: bool, now: int): (r: (Throttle, Outcome))
    ensures r.1 == Redirected <==> !authenticated && !t.inFlight && now - t.lastLoginAt >= ThrottleMs
    ensures r.1 == Redirected ==> r.0 == Throttle(true, now)
    ensures r.1 != Redirected ==> r.0 == t
    ensures authenticated ==> r.1 == AlreadySignedIn
  {
    if authenticated then (t, AlreadySignedIn)
    else if t.inFlight || now - t.lastLoginAt < ThrottleMs then (t, Throttled)
    else (Throttle(true, now), Redirected)
  }

  /** The timer armed on a redirect fires: only the in-flight flag clears. */
  function OnInFlightTimer(t: Throttle): (r: Throttle)
    ensures !r.inFlight && r.lastLoginAt == t.lastLoginAt
  {
    t.(inFlight := false)
  }

  /** What reaches the handler: a login event, or the clearing timer firing. */
  datatype Event = LoginEvent(authenticated: bool, now: int) | TimerFired

  /** The throttle after a sequence of events, and the times of the redirects it accepted. */
  function Run(events: seq<Event>): (r: (Throttle, seq<int>))
    decreases |events|
  {
    if |events| == 0 then (InitialThrottle, [])
    else
      var (t, accepted) := Run(events[..|events| - 1]);
      match events[|events| - 1]
      case TimerFired => (OnInFlightTimer(t), accepted)
      case LoginEvent(auth, now) =>
        var (t', outcome) := OnLoginEvent(t, auth, now);
        if outcome == Redirected then (t', accepted + [now]) else (t', accepted)
  }

  /** Accepted times, each at least `ThrottleMs` after the one before, the first after time `ThrottleMs`. */
  predicate Spaced(accepted: seq<int>) {
    (|accepted| > 0 ==> accepted[0] >= ThrottleMs) &&
    forall i :: 0 <= i < |accepted| - 1 ==> accepted[i + 1] - accepted[i] >= ThrottleMs
  }

  /**
   * Whatever the events and whatever the clock does, accepted redirects are
   * at least two seconds apart, and the throttle remembers the last of them.
   */
  lemma {:induction false} RedirectsSpaced(events: seq<Event>)
    ensures Spaced(Run(events).1)
    ensures |Run(events).1| == 0 ==> Run(events).0.lastLoginAt == 0
    ensures |Run(events).1| > 0 ==> Run(events).0.lastLoginAt == Run(events).1[|Run(events).1| - 1]
    decreases |events|
  {
    if |events| > 0 {
      RedirectsSpaced(events[..|events| - 1]);
    }
  }

  /** Which auth controls the header shows. */
  datatype Controls = SignOut | SignInAndUp | NoControls

  function AuthControls(ready: bool, authenticated: bool): (r: Controls)
    ensures r == SignOut <==> ready && authenticated
    ensures r == SignInAndUp <==> ready && !authenticated
    ensures r == NoControls <==> !ready
  {
    if ready && authenticated then SignOut
    else if ready then SignInAndUp
    else NoControls
  }
}

=== FILE: text.dfy ===
/**
 * The JavaScript string operations the client relies on: the `\s` character
 * class (which is also what `String.prototype.trim` strips), `trim`,
 * `toLowerCase` on ASCII letters, `replace` with a global character class,
 * `join`, `includes`, `padStart`, and decimal rendering of integers.
 */
module Text {
  import Lists
  import opened Wrappers

  /** JavaScript's WhiteSpace and LineTerminator code points (the `\s` class). */
  predicate IsSpace(c: char) {
    var n := c as int;
    n == 0x09 || n == 0x0A || n == 0x0B || n == 0x0C || n == 0x0D || n == 0x20
    || n == 0xA0 || n == 0x1680 || (0x2000 <= n <= 0x200A) || n == 0x2028 || n == 0x2029
    || n == 0x202F || n == 0x205F || n == 0x3000 || n == 0xFEFF
  }

  predicate AllSpace(s: string) {
    forall i :: 0 <= i < |s| ==> IsSpace(s[i])
  }

  /** How many whitespace characters `s` starts with. */
  function LeadingSpaces(s: string): (n: nat)
    ensures n <= |s|
    ensures forall i :: 0 <= i < n ==> IsSpace(s[i])
    ensures n < |s| ==> !IsSpace(s[n])
  {
    if s == "" || !IsSpace(s[0]) then 0 else 1 + LeadingSpaces(s[1..])
  }

  /** How many whitespace characters `s` ends with. */
  function TrailingSpaces(s: string): (n: nat)
    ensures n <= |s|
    ensures forall i :: |s| - n <= i < |s| ==> IsSpace(s[i])
    ensures n < |s| ==> !IsSpace(s[|s| - n - 1])
  {
    if s == "" || !IsSpace(s[|s| - 1]) then 0 else 1 + TrailingSpaces(s[..|s| - 1])
  }

  /** Strips leading whitespace. */
  function TrimStart(s: string): (r: string)
    ensures |r| <= |s|
    ensures r == "" || !IsSpace(r[0])
    ensures s != "" && IsSpace(s[0]) ==> |r| < |s|
  {
    s[LeadingSpaces(s)..]
  }

  /** `r` is what is left of `s` once a whitespace prefix of length `a` and a whitespace suffix are cut. */
  predicate SpaceMargins(s: string, a: int, r: string) {
    && 0 <= a && a + |r| <= |s| && s[a..a + |r|] == r
    && (forall i :: 0 <= i < a ==> IsSpace(s[i]))
    && (forall i :: a + |r| <= i < |s| ==> IsSpace(s[i]))
  }

  /** `s.trim()`: no whitespace left at either end; empty exactly for all-whitespace input. */
  function Trim(s: string): (r: string)
    ensures r == "" || (!IsSpace(r[0]) && !IsSpace(r[|r| - 1]))
    ensures r == "" <==> AllSpace(s)
  {
    var a := LeadingSpaces(s);
    if a == |s| then "" else s[a..|s| - TrailingSpaces(s)]
  }

  /** What `Trim` removes is the leading whitespace and a whitespace suffix, nothing else. */
  lemma TrimMargins(s: string)
    ensures SpaceMargins(s, LeadingSpaces(s), Trim(s))
  {
    var a, r := LeadingSpaces(s), Trim(s);
    if a < |s| {
      var e := |s| - TrailingSpaces(s);
      assert r == s[a..e];
      assert a + |r| == e;
    }
  }

  /** Trimming a trimmed string changes nothing. */
  lemma TrimIdempotent(s: string)
    ensures Trim(Trim(s)) == Trim(s)
  {
  }

  /** ASCII case folding, the part of `toLowerCase` the model covers. */
  function LowerChar(c: char): char {
    if 'A' <= c <= 'Z' then (c as int + 32) as char else c
  }

  function Lower(s: string): (r: string)
    ensures |r| == |s|
    ensures forall i :: 0 <= i < |s| ==> r[i] == LowerChar(s[i])
  {
    Lists.Map(s, LowerChar)
  }

  lemma LowerIdempotent(s: string)
    ensures Lower(Lower(s)) == Lower(s)
  {
  }

  /** `s.replace(/<class>/g, '')` for a character class given as a predicate. */
  function RemoveWhere(s: string, p: char -> bool): (r: string)
    ensures forall c :: c in r <==> c in s && !p(c)
    ensures Lists.IsSubsequence(r, s)
    ensures forall c {:trigger multiset(r)[c]} :: multiset(r)[c] == if p(c) then 0 else multiset(s)[c]
  {
    var keep := c => !p(c);
    Lists.FilterIsSubsequence(s, keep);
    Lists.Filter(s, keep)
  }

  /** `s.replace(/<a>/g, <b>)` for single characters. */
  function ReplaceChar(s: string, a: char, b: char): (r: string)
    ensures |r| == |s|
    ensures forall i :: 0 <= i < |s| ==> r[i] == if s[i] == a then b else s[i]
  {
    Lists.Map(s, c => if c == a then b else c)
  }

  /** `s.replace(/\s+/g, ' ')`: every maximal run of whitespace becomes one space. */
  function CollapseSpaces(s: string): (r: string)
    ensures forall i :: 0 <= i < |r| ==> (IsSpace(r[i]) ==> r[i] == ' ')
    ensures forall i :: 0 <= i < |r| - 1 ==> !(IsSpace(r[i]) && IsSpace(r[i + 1]))
    ensures |r| <= |s|
    ensures s == "" <==> r == ""
    ensures r != "" ==> (IsSpace(r[0]) <==> IsSpace(s[0]))
    decreases |s|
  {
    if s == "" then ""
    else if IsSpace(s[0]) then
      var rest := TrimStart(s);
      var tail := CollapseSpaces(rest);
      " " + tail
    else
      [s[0]] + CollapseSpaces(s[1..])
  }

  /** Every whitespace character replaced by a plain space. */
  function SpaceOut(s: string): (r: string)
    ensures |r| == |s|
    ensures forall i :: 0 <= i < |s| ==> r[i] == if IsSpace(s[i]) then ' ' else s[i]
  {
    if s == "" then "" else [if IsSpace(s[0]) then ' ' else s[0]] + SpaceOut(s[1..])
  }

  /** Every run of plain spaces shortened to one space; nothing else changes. */
  function Squeeze(t: string): (r: string)
    ensures |r| <= |t|
  {
    if |t| < 2 then t
    else if t[0] == ' ' && t[1] == ' ' then Squeeze(t[1..])
    else [t[0]] + Squeeze(t[1..])
  }

  /** A leading whitespace run squeezes to a single space. */
  lemma {:induction false} SqueezeSpaceRun(s: string)
    requires s != "" && IsSpace(s[0])
    ensures Squeeze(SpaceOut(s)) == " " + Squeeze(SpaceOut(TrimStart(s)))
    decreases |s|
  {
    var t := SpaceOut(s);
    assert t == [' '] + SpaceOut(s[1..]);
    if |s| == 1 {
      assert TrimStart(s) == "";
    } else if IsSpace(s[1]) {
      SqueezeSpaceRun(s[1..]);
      assert LeadingSpaces(s) == 1 + LeadingSpaces(s[1..]);
      assert TrimStart(s) == TrimStart(s[1..]);
    } else {
      assert TrimStart(s) == s[1..];
    }
  }

  /** Collapsing whitespace runs is: every whitespace character to a space, then each run of spaces to one. */
  lemma {:induction false} CollapseIsSqueeze(s: string)
    ensures CollapseSpaces(s) == Squeeze(SpaceOut(s))
    decreases |s|
  {
    if s != "" {
      if IsSpace(s[0]) {
        SqueezeSpaceRun(s);
        CollapseIsSqueeze(TrimStart(s));
      } else {
        assert SpaceOut(s) == [s[0]] + SpaceOut(s[1..]);
        CollapseIsSqueeze(s[1..]);
      }
    }
  }

  /** `xs.join(sep)`. */
  function Join(xs: seq<string>, sep: string): (r: string)
    ensures |xs| == 0 ==> r == ""
    ensures |xs| >= 2 ==> |r| >= |sep|
    ensures |xs| >= 1 ==> StartsWith(r, xs[0])
    ensures |xs| == 1 ==> r == xs[0]
  {
    if |xs| == 0 then ""
    else if |xs| == 1 then xs[0]
    else xs[0] + sep + Join(xs[1..], sep)
  }

  /** A join also grows from the right: one more element adds the separator and that element. */
  lemma {:induction false} JoinSnoc(xs: seq<string>, x: string, sep: string)
    requires |xs| >= 1
    ensures Join(xs + [x], sep) == Join(xs, sep) + sep + x
  {
    if |xs| == 1 {
      assert (xs + [x])[1..] == [x];
    } else {
      assert (xs + [x])[1..] == xs[1..] + [x];
      JoinSnoc(xs[1..], x, sep);
    }
  }

  /** With a non-empty separator, a join is empty only for `[]` and `['']`. */
  lemma JoinEmptyIff(xs: seq<string>, sep: string)
    requires sep != ""
    ensures Join(xs, sep) == "" <==> |xs| == 0 || (|xs| == 1 && xs[0] == "")
  {
  }

  predicate StartsWith(s: string, p: string) {
    |p| <= |s| && s[..|p|] == p
  }

  /** `hay.includes(needle)`. */
  predicate Contains(hay: string, needle: string)
    decreases |hay|
  {
    StartsWith(hay, needle) || (|hay| > 0 && Contains(hay[1..], needle))
  }

  // ---- decimal numbers -------------------------------------------------

  predicate IsDigit(c: char) {
    '0' <= c <= '9'
  }

  predicate AllDigits(s: string) {
    forall i :: 0 <= i < |s| ==> IsDigit(s[i])
  }

  function DigitChar(d: nat): (c: char)
    requires d < 10
    ensures IsDigit(c) && (c as int) - ('0' as int) == d
  {
    ((d + '0' as int) as char)
  }

  /** `String(n)` for a non-negative integer. */
  function NatToString(n: nat): (r: string)
    ensures |r| >= 1 && AllDigits(r)
    ensures r[0] == '0' ==> n == 0
    decreases n
  {
    if n < 10 then [DigitChar(n)] else NatToString(n / 10) + [DigitChar(n % 10)]
  }

  /** `String(n)` for any integer. */
  function IntToString(n: int): (r: string)
    ensures |r| >= 1
    ensures r[0] == '-' <==> n < 0
  {
    if n < 0 then "-" + NatToString(-n) else NatToString(n)
  }

  /** The value of a string of decimal digits. */
  function DigitsValue(s: string): nat
    requires AllDigits(s)
  {
    if s == "" then 0 else DigitsValue(s[..|s| - 1]) * 10 + ((s[|s| - 1] as int) - ('0' as int))
  }

  /** Reading back a rendered number gives the number. */
  lemma {:induction false} NatToStringRoundTrip(n: nat)
    ensures DigitsValue(NatToString(n)) == n
    decreases n
  {
    if n >= 10 {
      NatToStringRoundTrip(n / 10);
      var r := NatToString(n);
      assert r[..|r| - 1] == NatToString(n / 10);
    }
  }

  /** Rendering is injective: distinct numbers give distinct strings. */
  lemma NatToStringInjective(m: nat, n: nat)
    ensures NatToString(m) == NatToString(n) ==> m == n
  {
    NatToStringRoundTrip(m);
    NatToStringRoundTrip(n);
  }

  /** Distinct integers, negative ones included, render differently. */
  lemma IntToStringInjective(m: int, n: int)
    ensures IntToString(m) == IntToString(n) ==> m == n
  {
    if IntToString(m) == IntToString(n) {
      if m < 0 {
        assert NatToString(-m) == IntToString(m)[1..];
        assert NatToString(-n) == IntToString(n)[1..];
        NatToStringInjective(-m, -n);
      } else {
        NatToStringInjective(m, n);
      }
    }
  }

  /**
   * `Number(s)` restricted to plain decimal digit strings; anything else is
   * reported as not a number (JavaScript's NaN, or a form not modelled).
   */
  function ParseDecimal(s: string): (r: Option<nat>)
    ensures r.Some? <==> s != "" && AllDigits(s)
  {
    if s != "" && AllDigits(s) then Some(DigitsValue(s)) else None
  }

  lemma ParseRendered(n: nat)
    ensures ParseDecimal(NatToString(n)) == Some(n)
  {
    NatToStringRoundTrip(n);
  }

  /**
   * `Number(s)` for a string: surrounding whitespace is ignored and a blank
   * string is 0; other forms than plain digits (signs, fractions, exponents)
   * are reported as None, like NaN.
   */
  function NumberOf(s: string): (r: Option<int>)
    ensures AllSpace(s) ==> r == Some(0)
    ensures r.Some? ==> r.value >= 0
  {
    var t := Trim(s);
    if t == "" then Some(0)
    else match ParseDecimal(t)
      case Some(n) => Some(n)
      case None => None
  }

  /** `Number(String(n))` is `n`. */
  lemma NumberOfRendered(n: nat)
    ensures NumberOf(NatToString(n)) == Some(n)
  {
    var s := NatToString(n);
    assert !IsSpace(s[0]) && !IsSpace(s[|s| - 1]);
    TrimKeepsTidy(s);
    ParseRendered(n);
  }

  /** A string with no whitespace at its ends is its own trim. */
  lemma TrimKeepsTidy(s: string)
    requires s != "" && !IsSpace(s[0]) && !IsSpace(s[|s| - 1])
    ensures Trim(s) == s
  {
  }

  /** `s.padStart(2, '0')`. */
  function PadStart2(s: string): (r: string)
    ensures |r| == if |s| >= 2 then |s| else 2
    ensures r[|r| - |s|..] == s
    ensures forall i :: 0 <= i < |r| - |s| ==> r[i] == '0'
  {
    if |s| >= 2 then s else seq(2 - |s|, _ => '0') + s
  }
}

=== FILE: workout_page.dfy ===
/**
 * The workout page: the clock label, the one-second ticker, the session
 * submit with its minimum-duration guard and error messages, and the set
 * editor's row table.
 */
module WorkoutPage {
  import opened Wrappers
  import Text
  import WorkoutStore

  // ---- clock label -----------------------------------------------------

  /** `fmt(sec)`: minutes, a colon, and the seconds padded to two digits. */
  function Fmt(sec: nat): (r: string)
    ensures var c := |Text.NatToString(sec / 60)|;
      && c < |r| && r[c] == ':' && ':' !in r[..c] && |r| == c + 3
      && Text.ParseDecimal(r[..c]) == Some(sec / 60)
      && Text.ParseDecimal(r[c + 1..]) == Some(sec % 60)
  {
    var m := Text.NatToString(sec / 60);
    var s := Text.PadStart2(Text.NatToString(sec % 60));
    var r := m + ":" + s;
    assert forall i :: 0 <= i < |m| ==> r[i] == m[i];
    assert r[..|m|] == m && r[|m| + 1..] == s;
    TwoDigitSeconds(sec % 60);
    Text.ParseRendered(sec / 60);
    SecondsReadBack(sec);
    r
  }

  /** A number below 60 renders in at most two digits. */
  lemma TwoDigitSeconds(n: nat)
    requires n < 60
    ensures |Text.NatToString(n)| <= 2
  {
    if n >= 10 {
      assert Text.NatToString(n) == Text.NatToString(n / 10) + [Text.DigitChar(n % 10)];
    }
  }

  /** The index of the first colon, if any. */
  function FirstColon(r: string): (c: Option<nat>)
    ensures c.Some? ==> c.value < |r| && r[c.value] == ':' && ':' !in r[..c.value]
    ensures c.None? ==> ':' !in r
    decreases |r|
  {
    if |r| == 0 then None
    else if r[0] == ':' then Some(0)
    else
      match FirstColon(r[1..])
      case None => None
      case Some(i) =>
        assert r[..i + 1] == [r[0]] + r[1..][..i];
        Some(i + 1)
  }

  /** Reading a clock label back: the minutes and seconds on either side of the first colon. */
  function ReadClock(r: string): (sec: Option<int>)
    ensures sec.Some? ==> sec.value >= 0
  {
    match FirstColon(r)
    case None => None
    case Some(c) =>
      match (Text.ParseDecimal(r[..c]), Text.ParseDecimal(r[c + 1..]))
      case (Some(m), Some(s)) => Some(m * 60 + s)
      case _ => None
  }

  /** A leading zero does not change a digit string's value. */
  lemma {:induction false} LeadingZero(s: string)
    requires Text.AllDigits(s)
    ensures Text.AllDigits("0" + s) && Text.DigitsValue("0" + s) == Text.DigitsValue(s)
    decreases |s|
  {
    var t := "0" + s;
    if s != "" {
      assert t[..|t| - 1] == "0" + s[..|s| - 1];
      LeadingZero(s[..|s| - 1]);
    }
  }

  /** The seconds field reads back as `sec % 60`. */
  lemma SecondsReadBack(sec: nat)
    ensures Text.ParseDecimal(Text.PadStart2(Text.NatToString(sec % 60))) == Some(sec % 60)
  {
    var d := Text.NatToString(sec % 60);
    Text.ParseRendered(sec % 60);
    if |d| < 2 {
      assert Text.PadStart2(d) == "0" + d;
      LeadingZero(d);
    }
  }

  /** The first colon of `m:s` is the one after `m` when `m` has none. */
  lemma ColonSplit(m: string, s: string)
    requires ':' !in m
    ensures FirstColon(m + ":" + s) == Some(|m|)
  {
    var r := m + ":" + s;
    assert r[|m|] == ':';
    assert r[..|m|] == m;
  }

  /** A label `m:s` with no colon in `m` and two digit strings on either side reads as `m·60 + s`. */
  lemma ReadClockSplit(m: string, s: string)
    requires ':' !in m
    requires Text.ParseDecimal(m).Some? && Text.ParseDecimal(s).Some?
    ensures ReadClock(m + ":" + s) == Some(Text.ParseDecimal(m).value * 60 + Text.ParseDecimal(s).value)
  {
    var r := m + ":" + s;
    ColonSplit(m, s);
    assert r[..|m|] == m && r[|m| + 1..] == s;
  }

  /** The label reads back as the seconds it shows: minutes·60 + seconds = `sec`. */
  lemma FmtReadsBack(sec: nat)
    ensures ReadClock(Fmt(sec)) == Some(sec)
  {
    ReadBackFields(Fmt(sec), |Text.NatToString(sec / 60)|, sec / 60, sec % 60);
    MinutesAndSeconds(sec);
  }

  /** A label whose first colon splits it into the digit fields `m` and `s` reads as `m·60 + s`. */
  lemma ReadBackFields(r: string, c: nat, m: nat, s: nat)
    requires c < |r| && r[c] == ':' && ':' !in r[..c]
    requires Text.ParseDecimal(r[..c]) == Some(m) && Text.ParseDecimal(r[c + 1..]) == Some(s)
    ensures ReadClock(r) == Some(m * 60 + s)
  {
    assert r == r[..c] + ":" + r[c + 1..];
    ReadClockSplit(r[..c], r[c + 1..]);
  }

  lemma MinutesAndSeconds(sec: nat)
    ensures (sec / 60) * 60 + sec % 60 == sec
  {
  }

  // ---- ticker ----------------------------------------------------------

  /** One second of wall-clock time: the interval ticks only while a session is in progress. */
  function Second(s: WorkoutStore.State): (r: WorkoutStore.State)
    ensures s.status == WorkoutStore.InProgress ==> r.elapsedSec == s.elapsedSec + 1
    ensures s.status != WorkoutStore.InProgress ==> r == s
    ensures r == s.(elapsedSec := r.elapsedSec)
  {
    if s.status == WorkoutStore.InProgress then WorkoutStore.Apply(s, WorkoutStore.Tick(1)) else s
  }

  // ---- submit ------------------------------------------------------------

  const MinimumSeconds := 20 * 60
  const TooShortMessage := "Minimum 20 minutes required."
  const LoggedMessage := "Session logged"
  const FinalizedMessage := "Session already finalized."
  const InvalidMessage := "Duration too short or invalid."
  const GenericMessage := "Could not submit session"

  /** The body of the log request; the set list is always sent empty. */
  datatype LogRequest = LogRequest(sets: seq<int>, rpe: Option<int>, durationMin: int, notes: Option<string>)

  /** How the log request ended: accepted, or an error with an optional HTTP status. */
  datatype LogReply = Logged | Refused(status: Option<int>)

  datatype Submission = Submission(request: Option<LogRequest>, toast: string, store: WorkoutStore.State)

  /** `onSubmit` given the reply the request would get. */
  function Submit(s: WorkoutStore.State, reply: LogReply): (r: Submission)
    ensures s.elapsedSec < MinimumSeconds ==> r == Submission(None, TooShortMessage, s)
    ensures s.elapsedSec >= MinimumSeconds ==> (
      && r.request.Some?
      && r.request.value.sets == [] && r.request.value.rpe == s.rpe && r.request.value.notes == s.notes
      && r.request.value.durationMin * 60 <= s.elapsedSec < r.request.value.durationMin * 60 + 60)
    ensures r.store != s ==> s.elapsedSec >= MinimumSeconds && reply.Logged? && r.store == WorkoutStore.Initial()
    ensures s.elapsedSec >= MinimumSeconds && reply.Logged? ==> r.store == WorkoutStore.Initial() && r.toast == LoggedMessage
    ensures s.elapsedSec >= MinimumSeconds && reply.Refused? ==> r.store == s && r.toast == RefusalMessage(reply.status)
  {
    if s.elapsedSec < MinimumSeconds then Submission(None, TooShortMessage, s)
    else
      var request := LogRequest([], s.rpe, s.elapsedSec / 60, s.notes);
      match reply
      case Logged => Submission(Some(request), LoggedMessage, WorkoutStore.Apply(s, WorkoutStore.Reset))
      case Refused(status) => Submission(Some(request), RefusalMessage(status), s)
  }

  /** The toast for a failed log: 409 and 422 have their own text, everything else the generic one. */
  function RefusalMessage(status: Option<int>): (m: string)
    ensures m == FinalizedMessage <==> status == Some(409)
    ensures m == InvalidMessage <==> status == Some(422)
    ensures m == GenericMessage <==> !(status == Some(409) || status == Some(422))
  {
    if status == Some(409) then FinalizedMessage
    else if status == Some(422) then InvalidMessage
    else GenericMessage
  }

  // ---- set editor ------------------------------------------------------

  /** An exercise of the session as the set editor receives it. */
  datatype Item = Item(exerciseId: Option<int>, name: Option<string>, sets: Option<int>)

  /** One row of the table; weights are modelled as whole numbers. */
  datatype Row = Row(setNum: int, reps: Option<int>, weightKg: Option<int>)

  /** The key of item `idx`: `String(exerciseId ?? name ?? idx)`. */
  function ItemKey(it: Item, idx: nat): string {
    if it.exerciseId.Some? then Text.IntToString(it.exerciseId.value)
    else if it.name.Some? then it.name.value
    else Text.NatToString(idx)
  }

  /** `Array.from({ length: sets ?? 3 })` numbered from 1; a non-positive length gives no rows. */
  function FreshRows(it: Item): (rows: seq<Row>)
    ensures var n := if it.sets.Some? then it.sets.value else 3;
      |rows| == (if n > 0 then n else 0)
    ensures forall i :: 0 <= i < |rows| ==> rows[i] == Row(i + 1, None, None)
  {
    var n := if it.sets.Some? then it.sets.value else 3;
    seq(if n > 0 then n else 0, i => Row(i + 1, None, None))
  }

  /** The initialisation effect, items `i` onward: a missing key gets fresh rows, a present key is left alone. */
  function InitFrom(table: map<string, seq<Row>>, items: seq<Item>, i: nat): (r: map<string, seq<Row>>)
    requires i <= |items|
    ensures forall k :: k in table ==> k in r && r[k] == table[k]
    ensures forall j :: i <= j < |items| ==> ItemKey(items[j], j) in r
    ensures forall k :: k in r ==> k in table || exists j :: i <= j < |items| && ItemKey(items[j], j) == k
    decreases |items| - i
  {
    if i == |items| then table
    else
      var k := ItemKey(items[i], i);
      InitFrom(if k in table then table else table[k := FreshRows(items[i])], items, i + 1)
  }

  function Init(table: map<string, seq<Row>>, items: seq<Item>): map<string, seq<Row>> {
    InitFrom(table, items, 0)
  }

  /** A key first met at item `j` and absent before gets that item's fresh rows. */
  lemma {:induction false} FirstItemWins(table: map<string, seq<Row>>, items: seq<Item>, i: nat, j: nat)
    requires i <= j < |items|
    requires ItemKey(items[j], j) !in table
    requires forall j' :: i <= j' < j ==> ItemKey(items[j'], j') != ItemKey(items[j], j)
    ensures InitFrom(table, items, i)[ItemKey(items[j], j)] == FreshRows(items[j])
    decreases |items| - i
  {
    var k := ItemKey(items[i], i);
    var next := if k in table then table else table[k := FreshRows(items[i])];
    if i < j {
      FirstItemWins(next, items, i + 1, j);
    }
  }

  /** The fields a cell edit carries; exactly one is set by the inputs. */
  datatype Patch = Patch(reps: Option<int>, weightKg: Option<int>)

  /** `onChange(key, idx, patch)`: merges the patch into that one row of that one exercise. */
  function OnChange(table: map<string, seq<Row>>, key: string, idx: nat, patch: Patch): (r: map<string, seq<Row>>)
    requires key in table && idx < |table[key]|
    ensures r.Keys == table.Keys
    ensures forall k :: k in table && k != key ==> r[k] == table[k]
    ensures |r[key]| == |table[key]|
    ensures forall i :: 0 <= i < |table[key]| && i != idx ==> r[key][i] == table[key][i]
    ensures var before := table[key][idx];
      var after := r[key][idx];
      && after.setNum == before.setNum
      && after.reps == (if patch.reps.Some? then patch.reps else before.reps)
      && after.weightKg == (if patch.weightKg.Some? then patch.weightKg else before.weightKg)
  {
    var row := table[key][idx];
    var merged := row.(reps := if patch.reps.Some? then patch.reps else row.reps,
                       weightKg := if patch.weightKg.Some? then patch.weightKg else row.weightKg);
    table[key := table[key][idx := merged]]
  }
}

=== FILE: workout_store.dfy ===
/**
 * The workout session store: a status, the elapsed seconds, and the
 * optional start time, perceived effort and notes. The clock reading for
 * `start` is a parameter.
 */
module WorkoutStore {
  import opened Wrappers

  datatype Status = Idle | InProgress | Paused | Review | Submitted

  datatype State = State(status: Status, startedAt: Option<int>, elapsedSec: int, rpe: Option<int>, notes: Option<string>)

  datatype Action =
    | Start(now: int)
    | Pause
    | Resume
    | Complete
    | Tick(sec: int)
    | SetRpe(r: int)
    | SetNotes(n: string)
    | Reset

  /** The store as created: idle, nothing elapsed, nothing recorded. */
  function Initial(): (s: State)
    ensures s.status == Idle && s.elapsedSec == 0
    ensures s.startedAt.None? && s.rpe.None? && s.notes.None?
  {
    State(Idle, None, 0, None, None)
  }

  /** One store action; every action except `tick`, `setRpe` and `setNotes` sets the status. */
  function Apply(s: State, a: Action): (r: State)
    ensures a.Start? ==> r == s.(status := InProgress, startedAt := Some(a.now))
    ensures a.Pause? ==> r == s.(status := Paused)
    ensures a.Resume? ==> r == s.(status := InProgress)
    ensures a.Complete? ==> r == s.(status := Review)
    ensures a.Tick? ==> r == s.(elapsedSec := s.elapsedSec + a.sec)
    ensures a.SetRpe? ==> r == s.(rpe := Some(a.r))
    ensures a.SetNotes? ==> r == s.(notes := Some(a.n))
    ensures a.Reset? ==> r == Initial()
    ensures r.status != Submitted || s.status == Submitted
  {
    match a
    case Start(now) => s.(status := InProgress, startedAt := Some(now))
    case Pause => s.(status := Paused)
    case Resume => s.(status := InProgress)
    case Complete => s.(status := Review)
    case Tick(sec) => s.(elapsedSec := s.elapsedSec + sec)
    case SetRpe(r) => s.(rpe := Some(r))
    case SetNotes(n) => s.(notes := Some(n))
    case Reset => Initial()
  }

  /** A sequence of actions applied in order. */
  function Run(s: State, actions: seq<Action>): State
    decreases |actions|
  {
    if |actions| == 0 then s else Run(Apply(s, actions[0]), actions[1..])
  }

  /** No sequence of actions from the initial store ever reaches `submitted`. */
  lemma {:induction false} NeverSubmitted(s: State, actions: seq<Action>)
    requires s.status != Submitted
    ensures Run(s, actions).status != Submitted
    decreases |actions|
  {
    if |actions| > 0 {
      NeverSubmitted(Apply(s, actions[0]), actions[1..]);
    }
  }

  /** The elapsed time is the sum of the ticks since the last reset. */
  function TickTotal(actions: seq<Action>): int
    decreases |actions|
  {
    if |actions| == 0 then 0
    else (if actions[0].Tick? then actions[0].sec else 0) + TickTotal(actions[1..])
  }

  /** Without a reset, the elapsed time grows by exactly the ticked seconds. */
  lemma {:induction false} ElapsedIsTickSum(s: State, actions: seq<Action>)
    requires forall i :: 0 <= i < |actions| ==> !actions[i].Reset?
    ensures Run(s, actions).elapsedSec == s.elapsedSec + TickTotal(actions)
    decreases |actions|
  {
    if |actions| > 0 {
      ElapsedIsTickSum(Apply(s, actions[0]), actions[1..]);
    }
  }
}

=== FILE: wrappers.dfy ===
/** Optional values, standing in for JavaScript's `undefined`. */
module Wrappers {

  datatype Option<+T> = None | Some(value: T) {

    /** `this ?? default` for a value that is never null. */
    function GetOr(default: T): T {
      match this
      case Some(v) => v
      case None => default
    }
  }
}
